=== FILE: README.md ===
# TradeCore trading engine — a Dafny model

This project models the decision core of the `backend_quant_lab` trading bot.

The engine (`TradingBot`) runs one cycle at a time. Each cycle:

- checks a daily 4% drawdown kill switch;
- gates on the forex market schedule;
- trails the stops of open positions and closes positions whose market has reversed;
- counts occupied slots (open positions plus in-flight executions) to choose normal or sniper mode;
- scans the watched symbols through the gold, per-symbol, news, occupancy, spread and confidence guards;
- hands each admitted symbol to an execution worker.

The worker places a 1:2 bracket order with fixed stop distances and risk-based lot sizing.

Around the engine the model covers:

- the MetaTrader gateway's symbol alias cache, order-result mapping, position closing and deal filter;
- the analyst's Ichimoku / fair-value-gap decision tree;
- the economic-calendar cache, including its partial parse: a 200 reply whose parse stops at an element missing a child clears the earlier events and stores only the converted prefix, without advancing the fetch time;
- the audit and quantitative-analysis statistics;
- two API endpoints.

Prices and balances are exact `real`s. Each component is a pure function over immutable datatypes, and a cycle is a state-transition function (`Engine.RunCycle`). The following calls become function-valued parameters:

- the terminal's price normalisation;
- Python's `round`;
- the calendar's date parser;
- the order sender.

A cycle's view of the terminal is a `Snapshot`: the account, the positions, the UTC clock and per-symbol ticks, properties and candles.

Modules follow the source files:

| module | models |
|---|---|
| `Common`, `Strings`, `Assets` | options and sides; Python's substring `in`, `split(...)[0]` and the alphanumeric filter; the XAU / JPY / other asset classes |
| `Gateway` | mt5_interface.py |
| `Analyst` | analyst.py |
| `News` | news_manager.py, and the news guard of bot_engine.py |
| `Schedule`, `DailyRisk`, `Capacity`, `Trailing`, `Execution`, `Engine` | bot_engine.py |
| `Ledger`, `Audit`, `Api` | main.py |
| `QuantAnalyzer` | quant_analyzer.py |

The corrected news guard, the corrected execution worker and the corrected trailing stop are the ones the engine uses. The versions as written are modelled beside them (see Findings).

## Model

| member | source | states |
|---|---|---|
| Common.SideOfCode | backend_quant_lab/mt5_interface.py:144 | a position or deal is a BUY exactly when its MetaTrader type code is 0 |
| Strings.ContainsIffOccurs | backend_quant_lab/bot_engine.py:219 | Python's substring test `sub in s` holds exactly when `sub` occurs at some index of `s` |
| Strings.Contains | backend_quant_lab/bot_engine.py:219 | Python's substring test, characterised by `Strings.ContainsIffOccurs` |
| Strings.BeforeFirstUnique | backend_quant_lab/mt5_interface.py:41 | `split(c)[0]` is the unique prefix that contains no `c` and is followed by `c` or the end |
| Strings.BeforeFirst | backend_quant_lab/mt5_interface.py:41 | the result is a prefix of the text, contains no separator, and is followed by the separator unless it is the whole text |
| Strings.KeepAlnumFixedPoint | backend_quant_lab/mt5_interface.py:43 | the non-alphanumeric filter keeps exactly the ASCII letters and digits, leaves an alphanumeric name unchanged and is idempotent |
| Strings.KeepAlnumAppend | backend_quant_lab/mt5_interface.py:43 | the filter works character by character: filtering a concatenation is concatenating the filtered parts |
| Strings.KeepAlnumSingle | backend_quant_lab/mt5_interface.py:43 | one character is kept iff it is an ASCII letter or digit; with `Strings.KeepAlnumAppend` this fixes the filtered text exactly, in order |
| Assets.ClassOf | backend_quant_lab/bot_engine.py:381-389 | a symbol is a metal iff it names XAU, a yen pair iff otherwise it names JPY, and other forex otherwise |
| Assets.ClassOfWatchedSymbols | backend_quant_lab/bot_engine.py:23-27 | XAUUSD, USDJPY and EURUSD fall in the metal, yen and other classes |
| Ledger.Profits | backend_quant_lab/main.py:152 | the profit column lists each deal's profit in order |
| Ledger.GrossProfit | backend_quant_lab/main.py:162 | gross profit is non-negative and is zero iff no deal made a profit |
| Ledger.GrossLoss | backend_quant_lab/main.py:163 | gross loss is the absolute value of the summed losses, zero iff no deal lost |
| Ledger.SumIsGrossDifference | backend_quant_lab/quant_analyzer.py:30-32 | net profit computed as gross profit minus gross loss equals the plain sum of profits |
| Ledger.BreakEvenOnlyCounts | backend_quant_lab/main.py:155-160 | a zero-profit deal adds to the trade count but changes neither wins, gross profit, gross loss nor the sum |
| Ledger.RunningSums | backend_quant_lab/main.py:153 | the cumulative sum has one entry per deal, entry i being the sum of the first i+1 profits |
| Ledger.RunningSumsStep | backend_quant_lab/main.py:153 | each cumulative entry is the previous one plus that deal's profit |
| Ledger.WinRateWithinPercent | backend_quant_lab/main.py:160 | the win rate wins/total·100 lies in [0, 100] |
| Gateway.Lookup | backend_quant_lab/mt5_interface.py:51 | a key is absent iff no entry has it; a hit is an entry of the map |
| Gateway.Put | backend_quant_lab/mt5_interface.py:40 | an unconditional write keeps insertion order: an existing key stays in place, a new key is appended, and no entry other than the written one appears |
| Gateway.PutLookup | backend_quant_lab/mt5_interface.py:40 | after the write the key reads back as the new value and every other key reads as before |
| Gateway.PutIfAbsent | backend_quant_lab/mt5_interface.py:42-44 | a guarded write changes nothing when the key exists and otherwise adds it; keys stay unique |
| Gateway.CleanAlias | backend_quant_lab/mt5_interface.py:41 | the clean alias is the name up to its first '.' or '_': a prefix without either, followed by one of them unless it is the whole name |
| Gateway.BuildCache | backend_quant_lab/mt5_interface.py:28-31 | building is a no-op on a non-empty map or when the terminal returns no symbol list, and keeps keys unique |
| Gateway.IndexAllKeepsKeysUnique | backend_quant_lab/mt5_interface.py:37-45 | indexing a symbol list never creates a duplicate key |
| Gateway.IndexSymbolLookup | backend_quant_lab/mt5_interface.py:39-44 | indexing a symbol maps its name to itself and leaves every other existing key unchanged |
| Gateway.IndexSymbol | backend_quant_lab/mt5_interface.py:40-44 | the writes for one VIP symbol: its own name always, its two aliases only when absent; `Gateway.IndexSymbolLookup` states the result |
| Gateway.IndexAll | backend_quant_lab/mt5_interface.py:37-46 | the cache loop over the terminal's symbols in order, indexing only VIP names; `Gateway.IndexAllKeepsKeysUnique` and `Gateway.IndexAllOnlyVip` state the result |
| Gateway.AliasesNeverOverwritten | backend_quant_lab/mt5_interface.py:42-44 | indexing a symbol never changes an existing key other than the symbol's own name: the first-seen symbol keeps its alias |
| Gateway.IndexedNamesMapToThemselves | backend_quant_lab/mt5_interface.py:39-40 | after indexing, every VIP full name maps to itself, whatever was indexed later |
| Gateway.IndexAllOnlyVip | backend_quant_lab/mt5_interface.py:39 | every cache entry points to an indexed VIP name and is keyed by that name or one of its two aliases |
| Gateway.FirstRelatedFrom | backend_quant_lab/mt5_interface.py:52-53 | the scan yields the value of the first key, in insertion order, that is a substring of the target or contains it, and None iff there is none |
| Gateway.FindSymbol | backend_quant_lab/mt5_interface.py:49-54 | lookup builds the cache only when empty and returns the mapped value on an exact hit; otherwise it returns the value of the first key in insertion order that is related to the target (`Gateway.FirstRelatedFrom`), and None exactly when no key is related |
| Gateway.LookupOfIndexedName | backend_quant_lab/mt5_interface.py:49-51 | on a fresh gateway, looking up an indexed VIP name returns that name |
| Gateway.FillingFor | backend_quant_lab/mt5_interface.py:93 | the filling mode is FOK iff bit 0 of the symbol's filling flags is set, else IOC |
| Gateway.ResultOf | backend_quant_lab/mt5_interface.py:105-111 | success iff a reply arrived with DONE, carrying the order ticket; no reply gives "Order Send Failed", 10018 "Market Closed", 10013 "Invalid Request", any other code an error carrying that code |
| Gateway.OpenRequest | backend_quant_lab/mt5_interface.py:93-102 | an order is priced at the ask for BUY and at the bid for SELL, with the intent's volume, stop and target |
| Gateway.ExecuteTrade | backend_quant_lab/mt5_interface.py:85-111 | an unresolved symbol or missing symbol info fails without sending; otherwise exactly one order is sent and its reply mapped |
| Gateway.CloseRequest | backend_quant_lab/mt5_interface.py:116-126 | a close is an opposite-side deal on the position for its symbol and volume, at the bid (closing a BUY) or the ask |
| Gateway.ClosePosition | backend_quant_lab/mt5_interface.py:113-129 | no tick means no order and false; otherwise the FOK close request is sent first, the IOC request follows exactly when FOK did not return DONE, and the result is true iff some attempt returned DONE |
| Gateway.FilterDeals | backend_quant_lab/mt5_interface.py:163-176 | the cleaned history holds exactly the deals that closed a position (entry 1 or 2) or moved the balance |
| Gateway.CleanDeal | backend_quant_lab/mt5_interface.py:170-175 | the record kept for a deal: its symbol, BUY iff type 0, its volume and its profit (the time string is left out) |
| Gateway.HistoricalDeals | backend_quant_lab/mt5_interface.py:157-161 | no history gives an empty list, otherwise the filtered deals |
| Gateway.FilterDealsSingle | backend_quant_lab/mt5_interface.py:169-176 | one deal is kept, cleaned, iff it closed a position or moved the balance |
| Gateway.FilterDealsAppend | backend_quant_lab/mt5_interface.py:163-176 | the filter works deal by deal, so the cleaned list keeps the history's order and multiplicity |
| Analyst.FamilyMatchesName | backend_quant_lab/bot_engine.py:149 | a signal's name contains "BUY" iff it is BUY or BUY_SMC and "SELL" iff it is SELL or SELL_SMC; only NEUTRAL is in neither family |
| Analyst.CheckFvg | backend_quant_lab/analyst.py:26-31 | fewer than five candles give no gap; otherwise the 4th-, 3rd- and 2nd-last candles decide, bullish checked before bearish |
| Analyst.FvgIgnoresOtherCandles | backend_quant_lab/analyst.py:28 | the gap does not depend on older candles nor on the newest one |
| Analyst.MidpointWithinRangeOfSuffix | backend_quant_lab/analyst.py:19-22 | a window's (max high + min low)/2 lies between the window's lowest low and highest high |
| Analyst.Tenkan | backend_quant_lab/analyst.py:19-20 | the tenkan exists from 9 candles on and lies within the last 9 candles' range |
| Analyst.Kijun | backend_quant_lab/analyst.py:21-22 | the kijun exists from 26 candles on and lies within the last 26 candles' range |
| Analyst.CloudTop | backend_quant_lab/analyst.py:23 | the cloud top, shifted 26 bars back, exists exactly from 52 candles on |
| Analyst.Trunc | backend_quant_lab/analyst.py:52 | `int(rsi)` truncates toward zero |
| Analyst.Classify | backend_quant_lab/analyst.py:48-60 | a buy-family signal needs the close above the cloud and a trend hint other than BEARISH, a sell-family signal the mirror; crosses carry 0.85, gap setups 0.80 and NEUTRAL 0.0 |
| Analyst.Analyze | backend_quant_lab/analyst.py:33-62 | under 50 candles: NEUTRAL, 0.0, "No Data"; ATR under 0.0001: "Dead Market"; confidence is 0.85 iff a BUY/SELL cross, 0.80 iff an SMC gap and 0.0 iff NEUTRAL; the daily trend vetoes the opposite family; price on or without a cloud gives NEUTRAL |
| Analyst.SignalCharacterisation | backend_quant_lab/analyst.py:48-60 | each of the four directional signals is given exactly by its condition on cloud, trend, tenkan/kijun, gap and RSI |
| Analyst.CrossBeatsGap | backend_quant_lab/analyst.py:51-54 | when both a golden cross and a bullish gap hold, the cross wins |
| Schedule.Check | backend_quant_lab/bot_engine.py:116-127 | all of Saturday is closed; Friday from 21:50 and Sunday to 22:05 are the weekend phases |
| Schedule.OpenIffOutsideWindows | backend_quant_lab/bot_engine.py:122-127 | the market is open exactly outside the weekly window (Friday 21:50 to Sunday 22:05) and the daily 21:50–22:10 rollover |
| Schedule.WeekdaysCloseOnlyForRollover | backend_quant_lab/bot_engine.py:125 | Monday to Thursday the only closure is the rollover, exactly 21:50–22:10 |
| DailyRisk.Step | backend_quant_lab/bot_engine.py:165-189 | the cycle holds iff the switch is latched on the same day (state unchanged); a new day rebases the start balance; it trips iff the drawdown from the start balance reaches 4%, and the switch is active afterwards iff it held or tripped |
| DailyRisk.QuietCycleKeepsState | backend_quant_lab/bot_engine.py:178-184 | a same-day cycle below the limit proceeds and changes nothing |
| DailyRisk.BreachedIffLoss | backend_quant_lab/bot_engine.py:182-184 | with a positive start balance, the trip condition is a loss of at least 4% of it |
| DailyRisk.LatchHoldsAllDay | backend_quant_lab/bot_engine.py:167-176 | once latched, every cycle of the same day holds and the state never changes |
| DailyRisk.NewDayResets | backend_quant_lab/bot_engine.py:167-172 | the first cycle of a new day clears the latch, rebases to the current balance and records the day |
| DailyRisk.ScenarioFourPointTwoPercent | backend_quant_lab/bot_engine.py:182-189 | equity 9580 against a 10000 start trips the switch |
| DailyRisk.ScenarioBelowLimit | backend_quant_lab/bot_engine.py:182-184 | equity 9601 against a 10000 start proceeds |
| Capacity.ChecksGiveModes | backend_quant_lab/bot_engine.py:203-211 | the capacity test and the sniper flag give the three modes: full from 12 slots, sniper from 7, normal below |
| Capacity.GoldBlocked | backend_quant_lab/bot_engine.py:219-221 | gold is blocked from 3 gold positions in normal mode and from 4 in sniper mode |
| Capacity.SymbolCapBlocked | backend_quant_lab/bot_engine.py:224-227 | the per-symbol count of positions plus reservation is capped at 2 in normal mode and 3 in sniper mode; no trades never block and three always do |
| Capacity.RequiredConfidence | backend_quant_lab/bot_engine.py:347 | the threshold is 0.90 in sniper mode, else 0.87 for gold and 0.85 for the rest |
| Capacity.SniperIsStrictest | backend_quant_lab/bot_engine.py:347 | the sniper threshold is at least every normal-mode threshold |
| Capacity.CheckSpread | backend_quant_lab/bot_engine.py:329-331 | a zero point is a division fault; otherwise the spread passes iff (ask − bid)/point is within 1000 for gold and 60 otherwise |
| Capacity.SpreadWithinLimitIff | backend_quant_lab/bot_engine.py:329-331 | with a positive point the spread test is ask − bid ≤ limit·point |
| Capacity.ConfidenceGate | backend_quant_lab/bot_engine.py:349-357 | NEUTRAL is never executed; any other signal is executed iff its confidence reaches the threshold |
| Capacity.GatePassesOnlyForexCrossesInNormalMode | backend_quant_lab/bot_engine.py:347-350 | with the analyst's confidences, nothing passes in sniper mode or on gold, and only a BUY or SELL cross passes otherwise |
| Capacity.SniperThresholdScenario | backend_quant_lab/bot_engine.py:211 | at 7 occupied slots sniper mode accepts 0.90 and rejects 0.89 |
| Trailing.Tiers | backend_quant_lab/bot_engine.py:255-281 | each class has two tiers, the upper threshold above the lower, each locking a fraction strictly between 0 and 1 |
| Trailing.LockFraction | backend_quant_lab/bot_engine.py:255-281 | the locked fraction is the first tier whose threshold the profit distance exceeds (XAU 5/2, JPY 0.4/0.2, other 0.004/0.002) |
| Trailing.LockStrictlyBetween | backend_quant_lab/bot_engine.py:251-258 | in profit, the pre-clamp lock price lies strictly between the entry and the current price |
| Trailing.Clamp | backend_quant_lab/bot_engine.py:283-288 | the lock is pulled to at least the minimum stop distance from the current price, on the protective side |
| Trailing.PlanStop | backend_quant_lab/bot_engine.py:243-294 | below the lower tier nothing happens; otherwise the lock is the clamped share of the profit that the class's tier table selects, and a move to it is planned exactly when the stop is unset or the lock strictly tightens it |
| Trailing.ScenarioForexLong | backend_quant_lab/bot_engine.py:274-276 | a EURUSD long from 1.1000 at 1.1041 locks 80% of the gain at 1.10328 |
| Trailing.MinStopDistance | backend_quant_lab/bot_engine.py:243-244 | without properties the minimum distance is zero; with a non-negative point and stops level it is at least the ten-point buffer above the broker's stops level |
| Trailing.TrailPosition | backend_quant_lab/bot_engine.py:232-307 | no tick, no change; a modification of the same ticket and target is sent iff a move is planned, at the normalised lock |
| Trailing.TrailPositionAsWritten | backend_quant_lab/bot_engine.py:296-307 | as written the pass never sends a modification: a planned move raises before the send |
| Trailing.TrailingAsWrittenNeverMoves | backend_quant_lab/bot_engine.py:296-307 | the written pass differs from the corrected one exactly when a move is planned |
| Trailing.ScenarioTrailingAsWritten | backend_quant_lab/bot_engine.py:290-297 | a EURUSD long that should trail to 1.10328 gets no modification as written |
| Trailing.NextStopTightens | backend_quant_lab/bot_engine.py:290-293 | one pass keeps a set stop set and moves it only up for a BUY and down for a SELL |
| Trailing.StopsNeverLoosen | backend_quant_lab/bot_engine.py:290-293 | over any series of prices the planned locks, taken as computed, never loosen a positive stop |
| Trailing.AppliedStop | backend_quant_lab/bot_engine.py:291-303 | the stop a position carries after a pass is the one sent, or the old one when nothing is sent |
| Trailing.AppliedStopTightens | backend_quant_lab/bot_engine.py:284-297 | with a monotone, idempotent, positivity-preserving normalisation, one pass keeps a positive normalised stop so and moves it only protectively |
| Trailing.AppliedStopsNeverLoosen | backend_quant_lab/bot_engine.py:232-307 | over any series of quotes, the normalised stops the corrected pass sends never loosen a positive stop |
| Execution.TpDistance | backend_quant_lab/bot_engine.py:381-389 | the take-profit distance is twice the stop distance in every class |
| Execution.Place | backend_quant_lab/bot_engine.py:391-400 | a BUY enters at the ask with sl < entry < tp, a SELL at the bid with tp < entry < sl, at the class distances |
| Execution.RewardIsTwiceRisk | backend_quant_lab/bot_engine.py:381-400 | the distance to the target is twice the distance to the stop |
| Execution.SideOf | backend_quant_lab/bot_engine.py:372 | the worker buys iff the signal is in the BUY family |
| Execution.Funds | backend_quant_lab/bot_engine.py:405-407 | balance and free margin come from the account, 10000 each when it is unavailable |
| Execution.MissingAccountPassesMargin | backend_quant_lab/bot_engine.py:406-411 | with no account data the margin check passes |
| Execution.RiskFraction | backend_quant_lab/bot_engine.py:414-424 | 1% of balance is risked on gold, 2% otherwise |
| Execution.CapitalPerLotIsUniform | backend_quant_lab/bot_engine.py:414-425 | the per-lot capital is 500 in every class |
| Execution.LotSize | backend_quant_lab/bot_engine.py:427-428 | the lot is the rounded risk-based size but never below the class minimum (0.20 gold, 0.30 otherwise) |
| Execution.LotSizeMonotone | backend_quant_lab/bot_engine.py:427-428 | a larger balance never gives a smaller lot |
| Execution.ScenarioSmallGoldAccount | backend_quant_lab/bot_engine.py:414-428 | a 5000 gold account trades the 0.20 minimum |
| Execution.Execute | backend_quant_lab/bot_engine.py:370-453 | no tick: nothing; margin shortfall (free < 15% of balance) iff a tick came and margin failed; otherwise exactly one trade with the placed bracket, normalised, and the sized lot, whose result decides the outcome |
| Execution.RunAsWritten | backend_quant_lab/bot_engine.py:370-403 | as written the worker ends with no tick or with the swallowed normalisation error, never sending a trade |
| Execution.AsWrittenNeverTrades | backend_quant_lab/bot_engine.py:402-403 | a trade the corrected worker would execute is never sent by the written one |
| Execution.ScenarioEurusdBuy | backend_quant_lab/bot_engine.py:391-430 | a EURUSD BUY at 1.1002 / 1.1000 on a 10000 account sends 0.40 lots, stop 1.0952, target 1.1102 |
| Execution.Reserve | backend_quant_lab/bot_engine.py:367-368 | dispatch proceeds iff the symbol was not reserved, and the symbol is reserved afterwards |
| Execution.Release | backend_quant_lab/bot_engine.py:452-453 | the worker's exit removes exactly its symbol |
| Execution.ReserveReleaseRestores | backend_quant_lab/bot_engine.py:366-453 | reserving and then releasing restores the reservation set |
| Execution.NoDoubleDispatch | backend_quant_lab/bot_engine.py:367 | a second dispatch of a reserved symbol is refused |
| News.Convert | backend_quant_lab/news_manager.py:29-57 | an element is stored iff its impact is High or Medium and its date and time parse |
| News.ParseEvents | backend_quant_lab/news_manager.py:27-57 | the parse completes iff no element lacks a child it reads; only High/Medium events from converted elements are stored, each one coming from an element before the first failing one |
| News.ParseKeepsParsable | backend_quant_lab/news_manager.py:44-55 | every convertible element before the first failing one is stored |
| News.ParseEventsSingle | backend_quant_lab/news_manager.py:29-57 | one element: an element missing a child it reads aborts with nothing stored; otherwise the parse completes, storing its event iff it converts to a High or Medium event |
| News.ParseEventsAppend | backend_quant_lab/news_manager.py:29-57 | when no element of the first part aborts, the stored events of a concatenation are those of the first part followed by those of the second, and completion is decided by the second part: with `News.ParseEventsSingle`, the events are kept in document order |
| News.ParseEventsStopsAtRaise | backend_quant_lab/news_manager.py:29-35 | once an element aborts the loop, nothing after it is read: appending more elements changes neither the stored events nor the incomplete outcome |
| News.PartialFetchClearsEvents | backend_quant_lab/news_manager.py:25-35 | a fresh 200 reply whose first element aborts leaves the calendar empty, discarding the events of the previous fetch, and keeps the old fetch time |
| News.FetchCalendar | backend_quant_lab/news_manager.py:15-63 | a fresh cache, a network error, a non-200 status or malformed XML change nothing; after a 200 with a body the stored events are exactly the parsed events, which replace the earlier ones even when the parse stops early; the fetch time advances only to now after a complete parse |
| News.CompleteFetchReplaces | backend_quant_lab/news_manager.py:25-59 | a stale cache and a complete 200 response replace the events and stamp the fetch time |
| News.FetchIsCachedForFourHours | backend_quant_lab/news_manager.py:12-18 | within four hours of a complete fetch, any later fetch is a no-op |
| News.Pad2 | backend_quant_lab/news_manager.py:100 | the two-digit rendering of a number below 100 reads back as that number |
| News.HighEvents | backend_quant_lab/news_manager.py:98-99 | the High events are exactly the stored events with impact High; their order is fixed by `News.HighEventsSingle` and `News.HighEventsAppend` |
| News.HighEventsSingle | backend_quant_lab/news_manager.py:98-99 | a single event is kept iff its impact is High |
| News.HighEventsAppend | backend_quant_lab/news_manager.py:98-99 | the High filter distributes over concatenation, so the High events keep the calendar's order and multiplicity |
| News.UpcomingHeadlines | backend_quant_lab/news_manager.py:98-102 | between one and three headlines; the fallback line iff no High event; otherwise the headlines of the last High events |
| News.Headlines | backend_quant_lab/news_manager.py:100-102 | one headline per event, in order, and none of them is the fallback line |
| News.GetUpcomingNews | backend_quant_lab/news_manager.py:88-102 | fetches first, then reports headlines that are never empty |
| News.CheckRisk | backend_quant_lab/news_manager.py:65-86 | never blocks; fetches only when no events are stored |
| News.NewsGuard | backend_quant_lab/bot_engine.py:314-322 | a symbol is blocked iff some High event with a readable time lies within 15 minutes either side of now |
| News.GuardView | backend_quant_lab/news_manager.py:50-55 | the corrected guard reads each stored event's impact and its already parsed date-time, one guard entry per event, in order |
| News.GuardBlocksAroundHighEvents | backend_quant_lab/bot_engine.py:314-322 | on stored events, blocking is exactly a High event within ±15 minutes |
| News.GuardOnHeadlines | backend_quant_lab/bot_engine.py:314-315 | as written, indexing a headline string as a record raises iff there is a headline, and never blocks |
| News.GuardOnStoredEvents | backend_quant_lab/bot_engine.py:314-322 | the written guard fed the stored events instead raises AttributeError iff some event is High, and never blocks |
| News.StoredGuardAsWrittenRaises | backend_quant_lab/bot_engine.py:315-322 | a High event due now: the corrected guard blocks, the written guard on stored events raises |
| News.GuardAsWrittenAlwaysRaises | backend_quant_lab/bot_engine.py:311-315 | since the headline list is never empty, the written guard always raises |
| Engine.ResolveAll | backend_quant_lab/bot_engine.py:95-100 | the first lookup settles the cache, and the resolved list is the `find_symbol` answer for each target against that cache, in target order, absent answers dropped |
| Engine.Found | backend_quant_lab/bot_engine.py:98-99 | the kept names are exactly the present answers; their order and multiplicity are fixed by `Engine.FoundSingle` and `Engine.FoundAppend` |
| Engine.FoundSingle | backend_quant_lab/bot_engine.py:98-99 | one answer adds its name when `find_symbol` found one, and nothing otherwise |
| Engine.FoundAppend | backend_quant_lab/bot_engine.py:96-99 | the answers are appended one by one, so the resolved names keep the VIP order, absent ones dropped |
| Engine.StartMonitorsListedBases | backend_quant_lab/bot_engine.py:90-102 | when the terminal lists all eight base symbols, a fresh start monitors exactly those eight, in order |
| Engine.StartService | backend_quant_lab/bot_engine.py:90-109 | a failed connection changes nothing; otherwise the bot runs with the resolved VIP symbols, no reservations and the kill-switch record kept |
| Engine.StopService | backend_quant_lab/bot_engine.py:111-114 | stopping clears only the running flag |
| Engine.CloseAll | backend_quant_lab/bot_engine.py:129-131 | one close per position, in order |
| Engine.TrailAll | backend_quant_lab/bot_engine.py:232-307 | the stop changes are exactly the modifications the per-position pass requests; `Engine.TrailAllSingle` and `Engine.TrailAllAppend` fix their order and multiplicity |
| Engine.ModifyEachSingle | backend_quant_lab/bot_engine.py:233-307 | one position yields its requested stop change, or nothing |
| Engine.ModifyEachAppend | backend_quant_lab/bot_engine.py:233 | the pass works position by position: the changes for a split of the positions are the two parts' changes in turn |
| Engine.TrailAllSingle | backend_quant_lab/bot_engine.py:233-307 | a single position gets at most one stop change, exactly the one its trailing plan requests |
| Engine.TrailAllAppend | backend_quant_lab/bot_engine.py:233 | trailing a split of the positions is trailing each part in turn, so the changes follow position order |
| Engine.ReversalIsOppositeSignal | backend_quant_lab/bot_engine.py:148-149 | the early-exit test amounts to a signal of the family opposite to the position |
| Engine.Reversal | backend_quant_lab/bot_engine.py:148-149 | the early-exit test: a non-neutral signal of confidence at least 0.80 whose name names the other side; `Engine.ReversalIsOppositeSignal` reduces it |
| Engine.EvaluateOpenPositions | backend_quant_lab/bot_engine.py:134-154 | a position is closed iff its market data shows a confident opposite signal; `Engine.EvaluateSingle` and `Engine.EvaluateAppend` fix one close per such position, in position order |
| Engine.CloseWhereSingle | backend_quant_lab/bot_engine.py:135-151 | one position yields a single close when selected, and nothing otherwise |
| Engine.CloseWhereAppend | backend_quant_lab/bot_engine.py:135 | the selection works position by position: the closes for a split are the two parts' closes in turn |
| Engine.EvaluateSingle | backend_quant_lab/bot_engine.py:135-151 | one position is closed exactly once when its market has reversed, and left alone otherwise |
| Engine.EvaluateAppend | backend_quant_lab/bot_engine.py:135 | evaluating a split of the positions is evaluating each part in turn, so the closes follow position order |
| Engine.CountOn | backend_quant_lab/bot_engine.py:217 | the per-symbol count is zero iff no position is on the symbol |
| Engine.GoldCount | backend_quant_lab/bot_engine.py:201 | the gold tally is at most the number of positions, zero iff no position is on gold, and all of them iff every position is |
| Engine.GoldCountSingle | backend_quant_lab/bot_engine.py:201 | one position counts iff its symbol contains "XAU" |
| Engine.GoldCountAppend | backend_quant_lab/bot_engine.py:201 | the tally adds over a split of the positions; with `Engine.GoldCountSingle` it is the number of gold positions |
| Engine.CapsBlock | backend_quant_lab/bot_engine.py:217-227 | the gold cap (one more slot in sniper mode) and the per-symbol cap (2, or 3 in sniper mode) counting positions and pending executions |
| Engine.Occupied | backend_quant_lab/bot_engine.py:324 | the symbol has an open position or a pending execution |
| Engine.ScanStep | backend_quant_lab/bot_engine.py:215-357 | one scan iteration: only a dispatch carries an analysis, and it is the symbol's analysis from the snapshot; `Engine.ScanStepDispatchesAdmitted` says when it dispatches |
| Engine.ScanStepDispatchesAdmitted | backend_quant_lab/bot_engine.py:215-357 | one scan iteration dispatches iff the symbol is admitted: news clear, no position or reservation, gold cap free, spread within limit, data present and the gate passed |
| Engine.AdmittedAntitone | backend_quant_lab/bot_engine.py:324 | more reservations never admit more symbols |
| Engine.ScanSymbols | backend_quant_lab/bot_engine.py:215-229 | the scan dispatches only watched, unreserved symbols and only adds reservations |
| Engine.ScanSound | backend_quant_lab/bot_engine.py:215-357 | every dispatch is of a symbol admitted against the reservations at the start of the loop, with its analysis |
| Engine.ScanReserves | backend_quant_lab/bot_engine.py:366-368 | the reservations grow by exactly the dispatched symbols |
| Engine.ScanDistinct | backend_quant_lab/bot_engine.py:324 | no symbol is dispatched twice in one loop |
| Engine.ScanComplete | backend_quant_lab/bot_engine.py:215-357 | unless the loop faults, every admitted watched symbol is dispatched |
| Engine.ScanFaultsOnlyOnZeroPoint | backend_quant_lab/bot_engine.py:329 | the loop can only fault on a symbol whose point is zero |
| Engine.RunCycle | backend_quant_lab/bot_engine.py:156-229 | a stopped bot or a missing account does nothing; the running flag and watched list never change and reservations only grow; with account data the kill-switch record is the one the daily-risk step leaves, whatever the rest of the cycle does |
| Engine.CycleStages | backend_quant_lab/bot_engine.py:156-229 | dispatches and new reservations happen only in a cycle that reaches the entry scan |
| Engine.NewDayCycleRebases | backend_quant_lab/bot_engine.py:165-189 | the first cycle of a new day rebases the start balance on the current balance and records the day, and the switch is latched afterwards iff this cycle trips it |
| Engine.OpenMarketManagesFirst | backend_quant_lab/bot_engine.py:191-208 | past the kill switch and the market gate, the trailing changes and early exits come first, and at capacity they are the whole cycle |
| Engine.KillSwitchTripClosesAll | backend_quant_lab/bot_engine.py:182-189 | a tripping cycle closes every position once, in order, latches the switch and ends |
| Engine.LatchedDayIsQuiet | backend_quant_lab/bot_engine.py:167-176 | a latched switch on the same day ends the cycle with no action and no change |
| Engine.ClosedMarketIsQuiet | backend_quant_lab/bot_engine.py:191-195 | in a closed window no trailing, exit or entry happens |
| Engine.FullCapacityNoDispatch | backend_quant_lab/bot_engine.py:203-208 | with 12 or more occupied slots nothing is dispatched |
| Engine.DispatchSound | backend_quant_lab/bot_engine.py:156-357 | every dispatch comes from a cycle past the kill switch, market gate and capacity check, and is of an admitted watched symbol |
| Engine.DispatchComplete | backend_quant_lab/bot_engine.py:215-357 | a cycle that completes the scan dispatches every admitted watched symbol |
| Engine.ReservationsTrackDispatches | backend_quant_lab/bot_engine.py:366-368 | after a cycle the reservations are the old ones plus the dispatched symbols, none of them previously reserved |
| Engine.NoDoubleDispatch | backend_quant_lab/bot_engine.py:324 | a cycle never dispatches a symbol twice |
| Engine.OnlyNormalModeForexEntries | backend_quant_lab/bot_engine.py:211-357 | every dispatch happens below 7 occupied slots, on a non-gold symbol, with a plain BUY or SELL |
| Engine.CompleteExecution | backend_quant_lab/bot_engine.py:452-453 | the worker's exit removes its symbol's reservation and nothing else |
| Engine.CompleteAllRemoves | backend_quant_lab/bot_engine.py:452-453 | after a series of worker exits the reservations are the old ones minus exactly the exited symbols |
| Engine.CompletingDispatchesRestores | backend_quant_lab/bot_engine.py:366-453 | once every worker a cycle started has exited, the reservations are as before the cycle |
| Audit.AuditStats | backend_quant_lab/main.py:140-177 | no deals give the "Waiting for Data" defaults; otherwise the count, the rounded net, win rate and profit factor, and one curve point per deal |
| Audit.EquityCurveEndsAtNet | backend_quant_lab/main.py:153-175 | the curve starts at the first profit, each point adds one deal, and it ends at the net profit |
| Audit.AuditWinRateIsPercent | backend_quant_lab/main.py:160 | the unrounded win rate lies in [0, 100] |
| Audit.LossFreeProfitFactor | backend_quant_lab/main.py:165-166 | a winning record with no loss reports 99.9 |
| Audit.FlatProfitFactor | backend_quant_lab/main.py:165-166 | a record of break-even deals reports 0 |
| Audit.LossyProfitFactor | backend_quant_lab/main.py:167-168 | with a loss the factor is the non-negative ratio gross profit / gross loss |
| QuantAnalyzer.RatioOf | backend_quant_lab/quant_analyzer.py:34 | a ratio is infinite iff its denominator is not positive, else the quotient |
| QuantAnalyzer.CalcMetrics | backend_quant_lab/quant_analyzer.py:24-36 | an empty subset reports "No trades taken"; otherwise the count, the winning deals, the net, the win rate wins/total·100 (within [0,100]) and the profit factor gp/gl, infinite iff no deal lost |
| QuantAnalyzer.Peaks | backend_quant_lab/quant_analyzer.py:48 | the running peak starts at the first value and is the maximum of the previous peak and the current value |
| QuantAnalyzer.PeakAbove | backend_quant_lab/quant_analyzer.py:48 | the peak at i is at least every value up to i |
| QuantAnalyzer.PeakAttained | backend_quant_lab/quant_analyzer.py:48 | the peak at i is one of the values up to i |
| QuantAnalyzer.Drawdowns | backend_quant_lab/quant_analyzer.py:49 | each drawdown is peak minus cumulative profit and is non-negative |
| QuantAnalyzer.MaxDrawdown | backend_quant_lab/quant_analyzer.py:47-50 | the maximum drawdown is non-negative, bounds every drawdown and is attained |
| QuantAnalyzer.DrawdownBoundsEveryFall | backend_quant_lab/quant_analyzer.py:47-50 | every fall of the cumulative profit from an earlier point to a later one is at most the maximum drawdown |
| QuantAnalyzer.DrawdownAttained | backend_quant_lab/quant_analyzer.py:47-50 | the maximum drawdown is a fall between two points of the cumulative profit |
| QuantAnalyzer.NoDrawdownWhenNoLoss | backend_quant_lab/quant_analyzer.py:47-50 | a record without losses has zero drawdown |
| QuantAnalyzer.GoldDeals | backend_quant_lab/quant_analyzer.py:54 | the gold subset is exactly the deals whose symbol names XAU |
| QuantAnalyzer.FxDeals | backend_quant_lab/quant_analyzer.py:55 | the forex subset is exactly the other deals |
| QuantAnalyzer.AssetPartition | backend_quant_lab/quant_analyzer.py:54-55 | the two subsets together are a permutation of all the deals |
| QuantAnalyzer.AssetPartitionNet | backend_quant_lab/quant_analyzer.py:54-55 | the two subsets' nets add up to the total net |
| QuantAnalyzer.AnalyzePerformance | backend_quant_lab/quant_analyzer.py:4-72 | no connection, no history and a single deal each stop early; otherwise the count, the net, the win rate wins/total·100, the profit factor gp/gl, the maximum drawdown, the recovery factor net/drawdown (infinite exactly when the drawdown is zero), and the gold and forex breakdowns |
| Api.BaseStopDistance | backend_quant_lab/main.py:105-107 | 0.2% of price for six-character USD symbols, 0.5% for BTC, otherwise the larger of 1% and 0.50 |
| Api.StopDistance | backend_quant_lab/main.py:109-110 | a distance below the broker minimum is replaced by 1.5 times the minimum |
| Api.StopDistanceRespectsMinimum | backend_quant_lab/main.py:105-110 | for a positive price the distance is positive and at least the broker minimum |
| Api.AiSetup | backend_quant_lab/main.py:96-113 | an unknown symbol is not found; otherwise the stop lies one distance below the ask and the target twice as far above |
| Api.SetupQuoteBrackets | backend_quant_lab/main.py:113 | the suggested stop is below the entry and the target above it |
| Api.AiSetupAsWritten | backend_quant_lab/main.py:112 | as written every resolvable symbol ends in a server error |
| Api.AiSetupAsWrittenNeverSuggests | backend_quant_lab/main.py:112 | a symbol the corrected endpoint answers gets an error as written |
| Api.ScenarioEurusdSetup | backend_quant_lab/main.py:104-113 | EURUSD at 1.1000 gives a 0.0022 distance, stop 1.0978 and target 1.1044 |
| Api.ManualLot | backend_quant_lab/main.py:118 | the lot defaults to 0.01 |
| Api.ManualTrade | backend_quant_lab/main.py:115-136 | an unknown symbol sends nothing; a signal naming BUY buys at the ask, anything else sells at the bid, stop 0.2% and target 0.4% away; the reply follows the trade result |
| Api.ManualBracketOrder | backend_quant_lab/main.py:124-127 | a manual BUY has sl < entry < tp and a manual SELL tp < entry < sl |

## Left out

- MetaTrader terminal calls, HTTP, XML parsing, Telegram, SQLite logging, chart snapshots and the FastAPI routing are outside the model. Their results appear as inputs: the snapshot, the parsed calendar response, and the `send`/`trade` functions. Their side effects are not modelled.
- Threads are not modelled: a worker's effect is `Execution.Execute` plus `Engine.CompleteExecution`, and no claim is made about interleavings. The capacity count and mode are fixed for the whole scan, as in the source.
- The RSI and ATR series (rolling means, NaN filling) are not modelled; their last values are inputs to `Analyst.Analyze`. A cloud top that pandas would report as NaN (fewer than 52 candles) is modelled as absent, so every comparison with it fails.
- Floating point is replaced by exact reals. A drawdown of exactly 4%, a spread exactly at its limit, or a profit exactly at a tier threshold may fall on the other side in IEEE arithmetic.
- Trailing.AppliedStopsNeverLoosen: the gateway's `normalize_price` is not defined anywhere, so the lemma assumes of it only that it is monotone, leaves a normalised price alone and keeps positive prices positive; Trailing.StopsNeverLoosen states the same for the locks before normalisation.
- Execution.LotSize: Python's `round(x, 2)` is the parameter `round2`, so the contract relates the lot to that rounding rather than to a specific decimal result.
- Audit.AuditStats: the `round(x, n)` calls are the parameter `round`, and the `to_numeric(...).fillna(0)` coercion is not modelled (profits are already numbers).
- Api.AiSetup: the 5-decimal rounding of the reply fields is not modelled, and `calculate_lot_size` does not exist in the bot, so the lot is the parameter `lotSize`.
- News.UpcomingHeadlines: `strftime('%H:%M')` is modelled from the event time in seconds (`News.ClockText`); the date part and time zones are not modelled.
- Engine.RunCycle: the dashboard log written for every analysed symbol reads `analysis.trend`, which the analysis does not have. The bare `except` around it swallows the resulting AttributeError, so only that log write is lost. The model leaves the log out.
- Gateway.CleanDeal: the deal time (`strftime('%Y-%m-%d %H:%M')` at mt5_interface.py:175) is not modelled: the statistics and the analysis never read it, and the only reader is the CSV export at main.py:198, whose file writing is outside the model.
- Engine.EvaluateOpenPositions: the candle filter on `hasattr(row['time'], 'year')` is not modelled; all candles of the market data are analysed.
- Engine.StartService: the calendar fetch and the Telegram listener it starts are side effects outside the model, and the terminal's fallback initialisation path is folded into the `connected` input.
- `get_market_data` retries, `symbol_select`, `get_status`, `_report_status`, `handle_telegram_command`, heartbeat logging and `async_alert` have no decision logic worth modelling beyond what the snapshot supplies.
- QuantAnalyzer.AnalyzePerformance: the check for a missing profit column cannot fail on deals returned by the gateway, which always carry a profit, so only the two-deal minimum is modelled. The report text formatting is not modelled.
- Execution.Execute: the trade-record write after a successful order is not modelled; only the trade sent and the outcome are.
- `engine.py` (Monte Carlo), `portfolio_tracker.py`, `report.py`, `sync_db.py`, `database.py`, `db_manager.py`, `vision_module.py` and `telegram_client.py` are not part of this model.

## Findings

| source | as written | input that shows it | evidently intended | confidence | as-written member | corrected member |
|---|---|---|---|---|---|---|
| backend_quant_lab/bot_engine.py:314-321 | the news guard indexes each item of `get_upcoming_news()` as a record, but that function returns headline strings | any cycle that reaches `process_symbol`: the list is never empty, and `"No High Impact News Found"['impact']` raises TypeError outside any handler, aborting `run_cycle` | block a symbol when a High-impact event lies within 15 minutes of now | high, not executed | News.GuardAsWrittenAlwaysRaises | News.GuardBlocksAroundHighEvents |
| backend_quant_lab/bot_engine.py:402-403 | the worker calls `gateway.normalize_price`, which the gateway does not define | any dispatch with a live tick, e.g. EURUSD BUY at ask 1.1002: AttributeError, swallowed by the worker's handler, so no order is ever sent | normalise the stop and target prices and send the order | high, not executed | Execution.AsWrittenNeverTrades | Execution.Execute |
| backend_quant_lab/bot_engine.py:297 | the trailing stop calls the same undefined `normalize_price` | a EURUSD long from 1.1000 with the bid at 1.1041 and no stop: the planned move to 1.10328 raises and is swallowed | send the tightened stop | high, not executed | Trailing.ScenarioTrailingAsWritten | Trailing.AppliedStopsNeverLoosen |
| backend_quant_lab/bot_engine.py:317 | the guard calls `.strip()` on an event's time, but the calendar stores that time as a parsed date-time (news_manager.py:54), and the handler catches only ValueError | latent as written: reached only once the guard reads the stored records (as the corrected guard of the row above does), since on the headline strings line 315 raises TypeError first; then a stored High event due now makes AttributeError escape the guard instead of blocking the symbol | either compare the stored date-time with now directly, or store the time as the text the guard parses, as the `/news` handler at bot_engine.py:70 (`item['time'].split()`) also expects | medium, not executed | News.StoredGuardAsWrittenRaises | News.GuardBlocksAroundHighEvents |
| backend_quant_lab/main.py:112 | `ai_setup` calls `bot.calculate_lot_size`, which the bot does not define | any resolvable symbol, e.g. EURUSD with risk 50: AttributeError, so the endpoint fails with a server error | return the risk-based lot with the stop distance and bracket | high, not executed | Api.AiSetupAsWrittenNeverSuggests | Api.SetupQuoteBrackets |

=== FILE: analyst.dfy ===
/**
  The signal source (analyst.py): the fair-value-gap pattern, the Ichimoku
  midpoints and the decision tree of `analyze_market_structure`.

  RSI and ATR are pandas rolling means; their last values are taken as
  inputs. With at least 50 candles both are always numbers (RSI is filled
  with 50 where undefined, ATR needs 14 rows), so they are plain reals here.
  The cloud top, shifted by 26 rows, is undefined (NaN) for fewer than 52
  candles; it is an `Option`, and a comparison with a missing value is false,
  as it is with NaN.
 */
module Analyst {
  import Common
  import opened Strings

  datatype Candle = Candle(open: real, high: real, low: real, close: real)

  datatype Signal = Neutral | Buy | BuySmc | Sell | SellSmc {
    /** The string the source uses for the signal. */
    function Name(): string
    {
      match this
      case Neutral => "NEUTRAL"
      case Buy => "BUY"
      case BuySmc => "BUY_SMC"
      case Sell => "SELL"
      case SellSmc => "SELL_SMC"
    }

    /** `"BUY" in signal`. */
    predicate IsBuyFamily()
    {
      Buy? || BuySmc?
    }

    /** `"SELL" in signal`. */
    predicate IsSellFamily()
    {
      Sell? || SellSmc?
    }
  }

  /** The family predicates agree with the substring tests the engine applies to the signal's name. */
  lemma FamilyMatchesName(s: Signal)
    ensures s.IsBuyFamily() <==> Contains(s.Name(), "BUY")
    ensures s.IsSellFamily() <==> Contains(s.Name(), "SELL")
    ensures !(s.IsBuyFamily() && s.IsSellFamily())
    ensures s.IsBuyFamily() || s.IsSellFamily() <==> s != Neutral
  {
    BuyInName(s);
    SellInName(s);
  }

  /** "BUY" occurs exactly in the names of the buy family. */
  lemma BuyInName(s: Signal)
    ensures s.IsBuyFamily() <==> Contains(s.Name(), "BUY")
  {
    match s
    case Neutral => MissingCharRulesOut("NEUTRAL", "BUY", 0);
    case Buy => PrefixContained("BUY", "BUY");
    case BuySmc => PrefixContained("BUY_SMC", "BUY");
    case Sell => MissingCharRulesOut("SELL", "BUY", 0);
    case SellSmc => MissingCharRulesOut("SELL_SMC", "BUY", 0);
  }

  /** "SELL" occurs exactly in the names of the sell family. */
  lemma SellInName(s: Signal)
    ensures s.IsSellFamily() <==> Contains(s.Name(), "SELL")
  {
    match s
    case Neutral => MissingCharRulesOut("NEUTRAL", "SELL", 0);
    case Buy => MissingCharRulesOut("BUY", "SELL", 0);
    case BuySmc => MissingCharRulesOut("BUY_SMC", "SELL", 1);
    case Sell => PrefixContained("SELL", "SELL");
    case SellSmc => PrefixContained("SELL_SMC", "SELL");
  }

  // ---------------------------------------------------------------------
  // Fair value gap
  // ---------------------------------------------------------------------

  datatype Gap = NoGap | BullishGap | BearishGap

  /** An up middle candle with a gap between the first candle's high and the third candle's low. */
  predicate BullishPattern(c1: Candle, c2: Candle, c3: Candle)
  {
    c2.close > c2.open && c1.high < c3.low
  }

  /** A down middle candle with a gap between the third candle's high and the first candle's low. */
  predicate BearishPattern(c1: Candle, c2: Candle, c3: Candle)
  {
    c2.close < c2.open && c1.low > c3.high
  }

  /**
    `check_fvg`: looks at the 4th-, 3rd- and 2nd-from-last candles. The
    bullish test runs first, but the two patterns exclude each other, so
    each result holds exactly when its pattern does.
   */
  function CheckFvg(c: seq<Candle>): (g: Gap)
    ensures |c| < 5 ==> g == NoGap
    ensures |c| >= 5 ==> (g == BullishGap <==> BullishPattern(c[|c| - 4], c[|c| - 3], c[|c| - 2]))
    ensures |c| >= 5 ==> (g == BearishGap <==> BearishPattern(c[|c| - 4], c[|c| - 3], c[|c| - 2]))
  {
    if |c| < 5 then NoGap
    else
      var c1, c2, c3 := c[|c| - 4], c[|c| - 3], c[|c| - 2];
      if c2.close > c2.open && c1.high < c3.low then BullishGap
      else if c2.close < c2.open && c1.low > c3.high then BearishGap
      else NoGap
  }

  /** The gap check ignores the newest candle and everything older than the fifth-newest. */
  lemma FvgIgnoresOtherCandles(older: seq<Candle>, c: seq<Candle>, newest: Candle)
    requires |c| >= 5
    ensures CheckFvg(older + c[..|c| - 1] + [newest]) == CheckFvg(c)
  {
    var d := older + c[..|c| - 1] + [newest];
    assert d[|d| - 4] == c[|c| - 4] && d[|d| - 3] == c[|c| - 3] && d[|d| - 2] == c[|c| - 2];
  }

  // ---------------------------------------------------------------------
  // Ichimoku
  // ---------------------------------------------------------------------

  /** Highest high of a window (`rolling(n).max()` at its last row). */
  function MaxHigh(w: seq<Candle>): (h: real)
    requires |w| > 0
    ensures forall i :: 0 <= i < |w| ==> w[i].high <= h
    ensures exists i :: 0 <= i < |w| && w[i].high == h
  {
    if |w| == 1 then w[0].high
    else
      var rest := MaxHigh(w[1..]);
      assert forall i :: 1 <= i < |w| ==> w[i] == w[1..][i - 1];
      if w[0].high >= rest then w[0].high else rest
  }

  /** Lowest low of a window (`rolling(n).min()` at its last row). */
  function MinLow(w: seq<Candle>): (l: real)
    requires |w| > 0
    ensures forall i :: 0 <= i < |w| ==> l <= w[i].low
    ensures exists i :: 0 <= i < |w| && w[i].low == l
  {
    if |w| == 1 then w[0].low
    else
      var rest := MinLow(w[1..]);
      assert forall i :: 1 <= i < |w| ==> w[i] == w[1..][i - 1];
      if w[0].low <= rest then w[0].low else rest
  }

  /** `(high.rolling(n).max() + low.rolling(n).min()) / 2` over a window. */
  function Midpoint(w: seq<Candle>): real
    requires |w| > 0
  {
    (MaxHigh(w) + MinLow(w)) / 2.0
  }

  predicate WellFormed(w: seq<Candle>)
  {
    forall i :: 0 <= i < |w| ==> w[i].low <= w[i].high
  }

  /** On candles whose low does not exceed their high, the midpoint lies inside the window's range. */
  lemma MidpointWithinRange(w: seq<Candle>)
    requires |w| > 0 && WellFormed(w)
    ensures MinLow(w) <= Midpoint(w) <= MaxHigh(w)
  {
    assert MinLow(w) <= w[0].low <= w[0].high <= MaxHigh(w);
  }

  /** The tenkan line at the last row: midpoint of the last 9 candles, undefined before 9 rows. */
  function Tenkan(c: seq<Candle>): (t: Common.Option<real>)
    ensures t.Some? <==> |c| >= 9
    ensures t.Some? && WellFormed(c) ==> MinLow(c[|c| - 9..]) <= t.value <= MaxHigh(c[|c| - 9..])
  {
    if |c| >= 9 then MidpointWithinRangeOfSuffix(c, 9); Common.Some(Midpoint(c[|c| - 9..])) else Common.None
  }

  /** The kijun line at the last row: midpoint of the last 26 candles, undefined before 26 rows. */
  function Kijun(c: seq<Candle>): (k: Common.Option<real>)
    ensures k.Some? <==> |c| >= 26
    ensures k.Some? && WellFormed(c) ==> MinLow(c[|c| - 26..]) <= k.value <= MaxHigh(c[|c| - 26..])
  {
    if |c| >= 26 then MidpointWithinRangeOfSuffix(c, 26); Common.Some(Midpoint(c[|c| - 26..])) else Common.None
  }

  lemma MidpointWithinRangeOfSuffix(c: seq<Candle>, n: nat)
    requires 0 < n <= |c|
    ensures WellFormed(c) ==> MinLow(c[|c| - n..]) <= Midpoint(c[|c| - n..]) <= MaxHigh(c[|c| - n..])
  {
    if WellFormed(c) {
      MidpointWithinRange(c[|c| - n..]);
    }
  }

  /** `cloud_top` at the last row: the average of tenkan and kijun as they stood 26 rows earlier. */
  function CloudTop(c: seq<Candle>): (t: Common.Option<real>)
    ensures t.Some? <==> |c| >= 52
  {
    if |c| >= 52 then
      var earlier := c[..|c| - 26];
      Common.Some((Tenkan(earlier).value + Kijun(earlier).value) / 2.0)
    else Common.None
  }

  // ---------------------------------------------------------------------
  // Decision tree
  // ---------------------------------------------------------------------

  datatype Reason =
    | NoData
    | DeadMarket
    | Consolidation
    | GoldenCross(rsi: int)
    | BullishGapSetup
    | DeathCross(rsi: int)
    | BearishGapSetup

  datatype Analysis = Analysis(signal: Signal, confidence: real, reason: Reason)

  const MinCandles := 50
  const DeadAtr := 0.0001

  /** Python's `int(x)`, which truncates toward zero. */
  function Trunc(x: real): (n: int)
    ensures x >= 0.0 ==> n as real <= x < n as real + 1.0
    ensures x < 0.0 ==> n as real - 1.0 < x <= n as real
  {
    if x >= 0.0 then x.Floor else -((-x).Floor)
  }

  /** `price > cloud_top` with NaN semantics. */
  predicate Above(price: real, cloudTop: Common.Option<real>)
  {
    cloudTop.Some? && price > cloudTop.value
  }

  /** `price < cloud_top` with NaN semantics. */
  predicate Below(price: real, cloudTop: Common.Option<real>)
  {
    cloudTop.Some? && price < cloudTop.value
  }

  /**
    The decision tree of `analyze_market_structure` on the computed
    indicators: the last close, the cloud top, tenkan, kijun, the gap, the
    last RSI and the daily trend hint.
   */
  function Classify(price: real, top: Common.Option<real>, tenkan: real, kijun: real, gap: Gap,
                    rsi: real, trend: string): (a: Analysis)
    ensures a.confidence == 0.85 <==> a.signal == Buy || a.signal == Sell
    ensures a.confidence == 0.80 <==> a.signal == BuySmc || a.signal == SellSmc
    ensures a.confidence == 0.0 <==> a.signal == Neutral
    ensures a.signal.IsBuyFamily() ==> Above(price, top) && trend != "BEARISH"
    ensures a.signal.IsSellFamily() ==> Below(price, top) && trend != "BULLISH"
    ensures a.signal == BuySmc ==> rsi < 70.0
    ensures a.signal == SellSmc ==> rsi > 30.0
  {
    if Above(price, top) && trend != "BEARISH" then
      if tenkan > kijun then Analysis(Buy, 0.85, GoldenCross(Trunc(rsi)))
      else if gap == BullishGap && rsi < 70.0 then Analysis(BuySmc, 0.80, BullishGapSetup)
      else Analysis(Neutral, 0.0, Consolidation)
    else if Below(price, top) && trend != "BULLISH" then
      if tenkan < kijun then Analysis(Sell, 0.85, DeathCross(Trunc(rsi)))
      else if gap == BearishGap && rsi > 30.0 then Analysis(SellSmc, 0.80, BearishGapSetup)
      else Analysis(Neutral, 0.0, Consolidation)
    else Analysis(Neutral, 0.0, Consolidation)
  }

  /** `analyze_market_structure` on the candles, the last RSI and ATR values, and the daily trend hint. */
  function Analyze(c: seq<Candle>, rsi: real, atr: real, trend: string): (a: Analysis)
    ensures |c| < MinCandles ==> a == Analysis(Neutral, 0.0, NoData)
    ensures |c| >= MinCandles && atr < DeadAtr ==> a == Analysis(Neutral, 0.0, DeadMarket)
    ensures a.confidence == 0.85 <==> a.signal == Buy || a.signal == Sell
    ensures a.confidence == 0.80 <==> a.signal == BuySmc || a.signal == SellSmc
    ensures a.confidence == 0.0 <==> a.signal == Neutral
    ensures trend == "BEARISH" ==> !a.signal.IsBuyFamily()
    ensures trend == "BULLISH" ==> !a.signal.IsSellFamily()
    ensures a.signal == BuySmc ==> rsi < 70.0
    ensures a.signal == SellSmc ==> rsi > 30.0
    ensures (CloudTop(c).None? || CloudTop(c) == Common.Some(c[|c| - 1].close)) ==> a.signal == Neutral
  {
    if |c| < MinCandles then Analysis(Neutral, 0.0, NoData)
    else if atr < DeadAtr then Analysis(Neutral, 0.0, DeadMarket)
    else Classify(c[|c| - 1].close, CloudTop(c), Tenkan(c).value, Kijun(c).value, CheckFvg(c), rsi, trend)
  }

  /** The market conditions under which the analyst may emit a directional signal at all. */
  predicate Live(c: seq<Candle>, atr: real)
  {
    |c| >= MinCandles && atr >= DeadAtr
  }

  /**
    Each directional signal, characterised by its setup: a tenkan/kijun
    cross on the right side of the cloud, or failing that a gap in the same
    direction with RSI not at the extreme.
   */
  lemma SignalCharacterisation(c: seq<Candle>, rsi: real, atr: real, trend: string)
    ensures var a := Analyze(c, rsi, atr, trend);
      && (a.signal == Buy <==>
            Live(c, atr) && Above(c[|c| - 1].close, CloudTop(c)) && trend != "BEARISH"
            && Tenkan(c).value > Kijun(c).value)
      && (a.signal == BuySmc <==>
            Live(c, atr) && Above(c[|c| - 1].close, CloudTop(c)) && trend != "BEARISH"
            && Tenkan(c).value <= Kijun(c).value && CheckFvg(c) == BullishGap && rsi < 70.0)
      && (a.signal == Sell <==>
            Live(c, atr) && Below(c[|c| - 1].close, CloudTop(c)) && trend != "BULLISH"
            && Tenkan(c).value < Kijun(c).value)
      && (a.signal == SellSmc <==>
            Live(c, atr) && Below(c[|c| - 1].close, CloudTop(c)) && trend != "BULLISH"
            && Tenkan(c).value >= Kijun(c).value && CheckFvg(c) == BearishGap && rsi > 30.0)
  {
  }

  /** A cross outranks a gap: with a golden cross above the cloud the signal is BUY whatever the gap. */
  lemma CrossBeatsGap(c: seq<Candle>, rsi: real, atr: real, trend: string)
    requires Live(c, atr) && Above(c[|c| - 1].close, CloudTop(c)) && trend != "BEARISH"
    requires Tenkan(c).value > Kijun(c).value
    requires CheckFvg(c) == BullishGap && rsi < 70.0
    ensures Analyze(c, rsi, atr, trend).signal == Buy
  {
  }
}

=== FILE: api.dfy ===
/**
  Two trading endpoints of the HTTP API: the risk-based setup suggestion
  (`/quant/ai_setup`) and the manual order (`/quant/execute_manual`).
  Routing, request parsing and notifications are outside the model.
 */
module Api {
  import opened Common
  import opened Strings
  import Gateway

  // ---------------------------------------------------------------------
  // ai_setup
  // ---------------------------------------------------------------------

  /** A six-character symbol naming USD: a major pair. */
  predicate UsdMajor(symbol: string)
  {
    Contains(symbol, "USD") && |symbol| == 6
  }

  /** The stop distance before the broker minimum: 0.2% for USD majors, 0.5% for BTC, else 1% but at least 0.50. */
  function BaseStopDistance(symbol: string, price: real): (d: real)
    ensures UsdMajor(symbol) ==> d == price * 0.002
    ensures !UsdMajor(symbol) && Contains(symbol, "BTC") ==> d == price * 0.005
    ensures !UsdMajor(symbol) && !Contains(symbol, "BTC") ==> d >= 0.50 && d >= price * 0.01
    ensures !UsdMajor(symbol) && !Contains(symbol, "BTC") ==> d == 0.50 || d == price * 0.01
  {
    if UsdMajor(symbol) then price * 0.002
    else if Contains(symbol, "BTC") then price * 0.005
    else if price * 0.01 >= 0.50 then price * 0.01 else 0.50
  }

  /** The broker's minimum stop distance `stops_level × point`. */
  function MinStop(info: Gateway.SymbolInfo): real
  {
    (info.stopsLevel as real) * info.point
  }

  /** A distance under the broker minimum is replaced by one and a half times the minimum. */
  function StopDistance(symbol: string, info: Gateway.SymbolInfo): (d: real)
    ensures BaseStopDistance(symbol, info.ask) >= MinStop(info) ==> d == BaseStopDistance(symbol, info.ask)
    ensures BaseStopDistance(symbol, info.ask) < MinStop(info) ==> d == 1.5 * MinStop(info)
  {
    var base := BaseStopDistance(symbol, info.ask);
    if base < MinStop(info) then 1.5 * MinStop(info) else base
  }

  /** With a positive price and a non-negative minimum the distance is positive and respects the minimum. */
  lemma StopDistanceRespectsMinimum(symbol: string, info: Gateway.SymbolInfo)
    requires info.ask > 0.0 && MinStop(info) >= 0.0
    ensures StopDistance(symbol, info) > 0.0
    ensures StopDistance(symbol, info) >= MinStop(info)
  {
  }

  /** The suggestion: the stop distance and the quote around the ask (unrounded). */
  datatype Setup = Setup(lot: real, slDistance: real, stopLoss: real, takeProfit: real)

  datatype SetupReply = NotFound | Suggested(setup: Setup) | ServerError

  /**
    The endpoint as intended: `lotSize` stands for the sizing call
    `calculate_lot_size(symbol, risk, distance)`.
   */
  function AiSetup(symbol: string, risk: real, props: Option<Gateway.SymbolInfo>,
                   lotSize: (string, real, real) -> real): (r: SetupReply)
    ensures r == NotFound <==> props.None?
    ensures r != ServerError
    ensures r.Suggested? ==>
      var s := r.setup;
      && s.slDistance == StopDistance(symbol, props.value)
      && s.stopLoss == props.value.ask - s.slDistance
      && s.takeProfit - props.value.ask == 2.0 * (props.value.ask - s.stopLoss)
      && s.lot == lotSize(symbol, risk, s.slDistance)
  {
    match props
    case None => NotFound
    case Some(info) =>
      var d := StopDistance(symbol, info);
      Suggested(Setup(lotSize(symbol, risk, d), d, info.ask - d, info.ask + d * 2.0))
  }

  /** With a positive ask and minimum, the stop is below the entry and the target above it. */
  lemma SetupQuoteBrackets(symbol: string, risk: real, info: Gateway.SymbolInfo, lotSize: (string, real, real) -> real)
    requires info.ask > 0.0 && MinStop(info) >= 0.0
    ensures var s := AiSetup(symbol, risk, Some(info), lotSize).setup;
      s.stopLoss < info.ask < s.takeProfit
  {
    StopDistanceRespectsMinimum(symbol, info);
  }

  /**
    The endpoint as written: the bot defines no `calculate_lot_size`, so once
    the symbol resolves the handler raises and the request fails.
   */
  function AiSetupAsWritten(symbol: string, risk: real, props: Option<Gateway.SymbolInfo>): (r: SetupReply)
    ensures r == NotFound <==> props.None?
    ensures r == ServerError <==> props.Some?
  {
    if props.None? then NotFound else ServerError
  }

  /** Every resolvable symbol gets a suggestion when the sizing exists and an error as written. */
  lemma AiSetupAsWrittenNeverSuggests(symbol: string, risk: real, info: Gateway.SymbolInfo,
                                      lotSize: (string, real, real) -> real)
    ensures AiSetup(symbol, risk, Some(info), lotSize).Suggested?
    ensures AiSetupAsWritten(symbol, risk, Some(info)) == ServerError
  {
  }

  /** A EURUSD quote at 1.1000 with no broker minimum: 0.0022 stop distance, target twice as far. */
  lemma ScenarioEurusdSetup(lotSize: (string, real, real) -> real)
    ensures var r := AiSetup("EURUSD", 50.0, Some(Gateway.SymbolInfo(0.00001, 1.1000, 1.0998, 0, 1)), lotSize);
      r.Suggested? && r.setup.slDistance == 0.0022 && r.setup.stopLoss == 1.0978 && r.setup.takeProfit == 1.1044
  {
    assert UsdMajor("EURUSD") by {
      assert "EURUSD"[3..6] == "USD";
      ContainsIffOccurs("EURUSD", "USD");
    }
  }

  // ---------------------------------------------------------------------
  // execute_manual
  // ---------------------------------------------------------------------

  datatype ManualReply = ManualNotFound | ManualExecuted(message: Gateway.Message) | ManualError(message: Gateway.Message)

  /** The `lot_size` field, 0.01 when absent. */
  function ManualLot(lot: Option<real>): (l: real)
    ensures lot.None? ==> l == 0.01
    ensures lot.Some? ==> l == lot.value
  {
    if lot.Some? then lot.value else 0.01
  }

  /**
    The manual order: a signal naming BUY buys at the ask, anything else sells
    at the bid, with the stop 0.2% and the target 0.4% of the price away.
    `trade` is the gateway's `execute_trade`. Returns the trade sent, if any,
    with the reply.
   */
  function ManualTrade(symbol: string, signal: string, lot: Option<real>, props: Option<Gateway.SymbolInfo>,
                       trade: Gateway.TradeIntent -> Gateway.TradeResult): (r: (Option<Gateway.TradeIntent>, ManualReply))
    ensures props.None? <==> r == (None, ManualNotFound)
    ensures r.0.Some? <==> props.Some?
    ensures r.0.Some? ==>
      var t := r.0.value;
      var price := if Contains(signal, "BUY") then props.value.ask else props.value.bid;
      && t.symbol == symbol && t.lot == ManualLot(lot)
      && (t.side == Buy <==> Contains(signal, "BUY"))
      && (t.side == Buy ==> t.sl == price - price * 0.002 && t.tp == price + price * 0.004)
      && (t.side == Sell ==> t.sl == price + price * 0.002 && t.tp == price - price * 0.004)
      && (r.1.ManualExecuted? <==> trade(t).success)
      && !r.1.ManualNotFound? && r.1.message == trade(t).message
  {
    match props
    case None => (None, ManualNotFound)
    case Some(info) =>
      var buy := Contains(signal, "BUY");
      var price := if buy then info.ask else info.bid;
      var d := price * 0.002;
      var t := Gateway.TradeIntent(symbol, if buy then Buy else Sell, ManualLot(lot),
                                   if buy then price - d else price + d,
                                   if buy then price + d * 2.0 else price - d * 2.0);
      var res := trade(t);
      (Some(t), if res.success then ManualExecuted(res.message) else ManualError(res.message))
  }

  /** For a positive quote a manual buy has sl < entry < tp and a manual sell tp < entry < sl. */
  lemma ManualBracketOrder(symbol: string, signal: string, lot: Option<real>, info: Gateway.SymbolInfo,
                           trade: Gateway.TradeIntent -> Gateway.TradeResult)
    requires info.ask > 0.0 && info.bid > 0.0
    ensures var t := ManualTrade(symbol, signal, lot, Some(info), trade).0.value;
      if t.side == Buy then t.sl < info.ask < t.tp else t.tp < info.bid < t.sl
  {
  }
}

=== FILE: assets.dfy ===
/**
  Asset-class dispatch. The engine classifies a symbol by substring: "XAU"
  (gold) is checked first, then "JPY" (yen pairs); everything else is
  ordinary forex.
 */
module Assets {
  import opened Strings

  datatype AssetClass = Metal | Yen | OtherFx

  /** `"XAU" in symbol`. */
  predicate IsGold(symbol: string)
  {
    Contains(symbol, "XAU")
  }

  /** The `if "XAU" in symbol ... elif "JPY" in symbol ... else` dispatch. */
  function ClassOf(symbol: string): (c: AssetClass)
    ensures c == Metal <==> IsGold(symbol)
    ensures c == Yen <==> !IsGold(symbol) && Contains(symbol, "JPY")
  {
    if IsGold(symbol) then Metal
    else if Contains(symbol, "JPY") then Yen
    else OtherFx
  }

  /** The engine's instruments fall where their names say. */
  lemma ClassOfWatchedSymbols()
    ensures ClassOf("XAUUSD") == Metal
    ensures ClassOf("USDJPY") == Yen
    ensures ClassOf("EURUSD") == OtherFx
  {
    PrefixContained("XAUUSD", "XAU");
    SliceContained("USDJPY", "JPY", 3);
    MissingCharRulesOut("USDJPY", "XAU", 0);
    MissingCharRulesOut("EURUSD", "XAU", 0);
    MissingCharRulesOut("EURUSD", "JPY", 0);
  }
}

=== FILE: audit.dfy ===
/**
  The `/quant/audit` endpoint: trade statistics over the realised deals,
  with zeroed defaults when there is no history. Rounding for display
  (`round(x, n)`) is a parameter.
 */
module Audit {
  import opened Ledger
  import Gateway

  datatype Stats = Stats(netProfit: real, totalTrades: nat, winRate: real, profitFactor: real,
                         equityCurve: seq<real>, source: string)

  /** The response before any deal exists. */
  const Waiting := Stats(0.0, 0, 0.0, 0.0, [], "Waiting for Data")

  /** The audit's profit factor: gross profit over gross loss, 99.9 for a loss-free record with a win, else 0. */
  function AuditProfitFactor(gp: real, gl: real): real
  {
    if gl == 0.0 then (if gp > 0.0 then 99.9 else 0.0) else gp / gl
  }

  /** The audit response for the deals `get_historical_deals` returned. */
  function AuditStats(deals: seq<Gateway.Deal>, round: (real, nat) -> real): (s: Stats)
    ensures |deals| == 0 <==> s == Waiting
    ensures |deals| > 0 ==>
      var p := Profits(deals);
      && s.source == "Live API"
      && s.totalTrades == |deals|
      && s.netProfit == round(Sum(p), 2)
      && s.winRate == round((WinCount(p) as real / |p| as real) * 100.0, 1)
      && s.profitFactor == round(AuditProfitFactor(GrossProfit(p), GrossLoss(p)), 2)
      && |s.equityCurve| == |deals|
      && forall i :: 0 <= i < |deals| ==> s.equityCurve[i] == Sum(p[..i + 1])
  {
    if |deals| == 0 then Waiting
    else
      var p := Profits(deals);
      var total := |p|;
      var winRate := (WinCount(p) as real / total as real) * 100.0;
      Stats(round(Sum(p), 2), total, round(winRate, 1),
            round(AuditProfitFactor(GrossProfit(p), GrossLoss(p)), 2), RunningSums(p), "Live API")
  }

  /** The equity curve ends at the (unrounded) net profit, and each point adds one deal's profit. */
  lemma EquityCurveEndsAtNet(deals: seq<Gateway.Deal>, round: (real, nat) -> real)
    requires |deals| > 0
    ensures var s := AuditStats(deals, round);
      && s.equityCurve[|deals| - 1] == Sum(Profits(deals))
      && s.equityCurve[0] == deals[0].profit
      && forall i :: 0 < i < |deals| ==> s.equityCurve[i] == s.equityCurve[i - 1] + deals[i].profit
  {
    var p := Profits(deals);
    RunningSumsEndAtTotal(p);
    assert p[..1][..0] == [];
    assert Sum(p[..1]) == Sum(p[..1][..0]) + p[..1][0];
    forall i | 0 < i < |deals|
      ensures RunningSums(p)[i] == RunningSums(p)[i - 1] + p[i]
    {
      RunningSumsStep(p, i);
    }
  }

  /** The unrounded win rate is a percentage. */
  lemma AuditWinRateIsPercent(deals: seq<Gateway.Deal>)
    requires |deals| > 0
    ensures var p := Profits(deals);
      0.0 <= (WinCount(p) as real / |p| as real) * 100.0 <= 100.0
  {
    WinRateWithinPercent(Profits(deals));
  }

  /** A record with a win and no loss reports the 99.9 cap. */
  lemma LossFreeProfitFactor(p: seq<real>)
    requires forall k :: 0 <= k < |p| ==> p[k] >= 0.0
    requires exists k :: 0 <= k < |p| && p[k] > 0.0
    ensures AuditProfitFactor(GrossProfit(p), GrossLoss(p)) == 99.9
  {
  }

  /** A record where no deal moved the balance reports 0. */
  lemma FlatProfitFactor(p: seq<real>)
    requires forall k :: 0 <= k < |p| ==> p[k] == 0.0
    ensures AuditProfitFactor(GrossProfit(p), GrossLoss(p)) == 0.0
  {
  }

  /** With at least one loss the factor is the non-negative ratio of gross profit to gross loss. */
  lemma LossyProfitFactor(p: seq<real>)
    requires exists k :: 0 <= k < |p| && p[k] < 0.0
    ensures GrossLoss(p) > 0.0
    ensures AuditProfitFactor(GrossProfit(p), GrossLoss(p)) == GrossProfit(p) / GrossLoss(p)
    ensures AuditProfitFactor(GrossProfit(p), GrossLoss(p)) >= 0.0
  {
    var gp, gl := GrossProfit(p), GrossLoss(p);
    assert gl > 0.0;
    QuotientNonNegative(gp, gl);
  }

  lemma QuotientNonNegative(a: real, b: real)
    requires a >= 0.0 && b > 0.0
    ensures a / b >= 0.0
  {
    assert a / b * b == a;
  }
}

=== FILE: capacity.dfy ===
/**
  Capacity and admission rules of the trading cycle: slot counting and the
  normal/sniper modes, the gold and per-symbol caps, the spread guard and the
  confidence gate.
 */
module Capacity {
  import opened Assets
  import Analyst

  const MaxOpenTrades := 7
  const MaxSniperSlots := 5
  const MaxGoldTrades := 3
  const TotalSlots := MaxOpenTrades + MaxSniperSlots

  /** The capacity mode of a cycle, by number of occupied slots. */
  datatype Mode = Normal | Sniper | Full

  /** Slots 0-6 are normal, 7-11 are the overflow ("sniper") slots, 12 and up is full. */
  function ModeOf(occupied: nat): Mode
  {
    if occupied < MaxOpenTrades then Normal
    else if occupied < TotalSlots then Sniper
    else Full
  }

  /** The source's early return: `current_count >= MAX_OPEN_TRADES + MAX_SNIPER_SLOTS`. */
  predicate AtCapacity(occupied: nat)
  {
    occupied >= TotalSlots
  }

  /** The source's `is_sniper_mode = current_count >= MAX_OPEN_TRADES`, evaluated only below capacity. */
  predicate SniperFlag(occupied: nat)
  {
    occupied >= MaxOpenTrades
  }

  /** The two checks of the cycle give the three modes: full at 12, sniper exactly from 7 to 11. */
  lemma ChecksGiveModes(occupied: nat)
    ensures AtCapacity(occupied) <==> ModeOf(occupied) == Full
    ensures !AtCapacity(occupied) && SniperFlag(occupied) <==> ModeOf(occupied) == Sniper
    ensures !AtCapacity(occupied) && !SniperFlag(occupied) <==> ModeOf(occupied) == Normal
  {
  }

  /** Gold cap: 3 gold positions in normal mode, one more in sniper mode. */
  function GoldBlocked(sniper: bool, goldTrades: nat): (b: bool)
    ensures !sniper ==> (b <==> goldTrades >= MaxGoldTrades)
    ensures sniper ==> (b <==> goldTrades > MaxGoldTrades)
  {
    if sniper then goldTrades >= MaxGoldTrades + 1 else goldTrades >= MaxGoldTrades
  }

  /** Per-symbol cap on positions plus reservations: 2 in normal mode, 3 in sniper mode. */
  function SymbolCapBlocked(sniper: bool, symbolTrades: nat): (b: bool)
    ensures symbolTrades == 0 ==> !b
    ensures symbolTrades >= 3 ==> b
    ensures !sniper ==> (b <==> symbolTrades >= 2)
    ensures sniper ==> (b <==> symbolTrades >= 3)
  {
    if sniper then symbolTrades >= 3 else symbolTrades >= 2
  }

  /** The confidence a signal needs: 0.90 in sniper mode, else 0.87 for gold and 0.85 for the rest. */
  function RequiredConfidence(sniper: bool, symbol: string): (t: real)
    ensures 0.85 <= t <= 0.90
    ensures sniper ==> t == 0.90
    ensures !sniper && IsGold(symbol) ==> t == 0.87
    ensures !sniper && !IsGold(symbol) ==> t == 0.85
  {
    if sniper then 0.90 else if IsGold(symbol) then 0.87 else 0.85
  }

  /** Sniper mode is never easier than normal mode, for any instrument. */
  lemma SniperIsStrictest(symbol: string, other: string)
    ensures RequiredConfidence(true, symbol) >= RequiredConfidence(false, other)
  {
  }

  /** Spread ceiling in broker points: 1000 for gold, 60 otherwise. */
  function SpreadLimit(symbol: string): (l: real)
    ensures l == (if IsGold(symbol) then 1000.0 else 60.0)
  {
    if IsGold(symbol) then 1000.0 else 60.0
  }

  datatype SpreadCheck = WithinLimit | TooWide | ZeroPoint

  /** `(ask - bid) / point > limit` rejects; a zero point raises ZeroDivisionError in the source. */
  function CheckSpread(symbol: string, ask: real, bid: real, point: real): (c: SpreadCheck)
    ensures c == ZeroPoint <==> point == 0.0
    ensures c == WithinLimit <==> point != 0.0 && (ask - bid) / point <= SpreadLimit(symbol)
  {
    if point == 0.0 then ZeroPoint
    else if (ask - bid) / point > SpreadLimit(symbol) then TooWide
    else WithinLimit
  }

  /** For a positive point, the spread test is a bound on the price difference. */
  lemma SpreadWithinLimitIff(symbol: string, ask: real, bid: real, point: real)
    requires point > 0.0
    ensures CheckSpread(symbol, ask, bid, point) == WithinLimit <==> ask - bid <= SpreadLimit(symbol) * point
  {
    assert ask - bid == ((ask - bid) / point) * point;
  }

  datatype Gate = Execute | LowConfidence | NoSignal

  /** The confidence gate of `process_symbol`. */
  function ConfidenceGate(signal: Analyst.Signal, confidence: real, sniper: bool, symbol: string): (g: Gate)
    ensures g == NoSignal <==> signal == Analyst.Neutral
    ensures g == Execute <==> signal != Analyst.Neutral && confidence >= RequiredConfidence(sniper, symbol)
  {
    if signal == Analyst.Neutral then NoSignal
    else if confidence >= RequiredConfidence(sniper, symbol) then Execute
    else LowConfidence
  }

  /**
    Only plain crosses on a non-gold symbol in normal mode pass the gate:
    crosses carry 0.85 and gaps 0.80, while sniper mode asks for 0.90 and
    gold for 0.87, so nothing passes in sniper mode or on gold.
   */
  lemma GatePassesOnlyForexCrossesInNormalMode(c: seq<Analyst.Candle>, rsi: real, atr: real, trend: string,
                                               sniper: bool, symbol: string)
    ensures var a := Analyst.Analyze(c, rsi, atr, trend);
      ConfidenceGate(a.signal, a.confidence, sniper, symbol) == Execute <==>
        !sniper && !IsGold(symbol) && (a.signal == Analyst.Buy || a.signal == Analyst.Sell)
  {
  }

  /** In sniper mode a 0.90 signal passes and a 0.89 signal does not. */
  lemma SniperThresholdScenario(symbol: string)
    ensures ModeOf(7) == Sniper
    ensures ConfidenceGate(Analyst.Buy, 0.90, SniperFlag(7), symbol) == Execute
    ensures ConfidenceGate(Analyst.Buy, 0.89, SniperFlag(7), symbol) == LowConfidence
  {
  }
}

=== FILE: common.dfy ===
/**
  Small shared vocabulary: an optional value (Python's `None` or a value)
  and the side of an order or position.
 */
module Common {

  datatype Option<+T> = None | Some(value: T)

  /** Order and position direction. The broker reports it as type 0 (BUY) or 1 (SELL). */
  datatype Side = Buy | Sell {
    function Opposite(): (r: Side)
      ensures r != this
    {
      if Buy? then Sell else Buy
    }
  }

  /** `"BUY" if t == 0 else "SELL"`: how the gateway names a broker type code. */
  function SideOfCode(t: int): (s: Side)
    ensures s == Buy <==> t == 0
  {
    if t == 0 then Buy else Sell
  }
}

=== FILE: daily_risk.dfy ===
/**
  The daily drawdown kill switch of `run_cycle`: a small state record that
  changes at most once per cycle, driven by the account balance and equity
  and by the UTC day of the month.
 */
module DailyRisk {

  datatype State = State(startBalance: real, lastDay: int, active: bool)

  /** The state a fresh engine starts in. */
  const Initial := State(0.0, -1, false)

  /** Fraction of the day's starting balance that may be lost before the switch trips. */
  const MaxDrawdown := 0.04

  /** What the cycle does after the kill-switch section. */
  datatype Verdict =
    | Hold     // switch latched for today: the cycle returns at once
    | Trip     // drawdown limit hit now: close every position, latch, return
    | Proceed  // carry on with the rest of the cycle

  /** `(start - equity) / start >= 0.04`, guarded by `start > 0`. */
  predicate Breached(start: real, equity: real)
  {
    start > 0.0 && (start - equity) / start >= MaxDrawdown
  }

  /** The kill-switch section of one cycle (bot_engine.py lines 165-189). */
  function Step(s: State, balance: real, equity: real, day: int): (r: (State, Verdict))
    ensures r.1 == Hold <==> s.active && day == s.lastDay
    ensures r.1 == Hold ==> r.0 == s
    ensures r.1 != Hold ==> r.0.lastDay == day
    ensures r.1 != Hold && day != s.lastDay ==> r.0.startBalance == balance
    ensures r.1 != Hold && day == s.lastDay ==> r.0.startBalance == s.startBalance
    ensures r.1 == Trip <==> r.1 != Hold && Breached(r.0.startBalance, equity)
    ensures r.0.active <==> r.1 == Hold || r.1 == Trip
  {
    if s.active && day == s.lastDay then (s, Hold)
    else
      var rebased := if day != s.lastDay then State(balance, day, false) else s;
      if rebased.startBalance > 0.0 && (rebased.startBalance - equity) / rebased.startBalance >= MaxDrawdown
      then (rebased.(active := true), Trip)
      else (rebased, Proceed)
  }

  /** Below the limit on the same day nothing changes. */
  lemma QuietCycleKeepsState(s: State, balance: real, equity: real)
    requires !s.active && !Breached(s.startBalance, equity)
    ensures Step(s, balance, equity, s.lastDay) == (s, Proceed)
  {
  }

  /** The drawdown test without division: a loss of at least 4% of a positive start. */
  lemma BreachedIffLoss(start: real, equity: real)
    requires start > 0.0
    ensures Breached(start, equity) <==> start - equity >= MaxDrawdown * start
  {
    if (start - equity) / start >= MaxDrawdown {
      assert start - equity == ((start - equity) / start) * start;
    } else {
      assert start - equity == ((start - equity) / start) * start;
    }
  }

  /** One observation of the account at a cycle. */
  datatype Observation = Observation(balance: real, equity: real, day: int)

  /** The kill-switch state after a sequence of cycles. */
  function Run(s: State, obs: seq<Observation>): State
    decreases |obs|
  {
    if |obs| == 0 then s
    else Run(Step(s, obs[0].balance, obs[0].equity, obs[0].day).0, obs[1..])
  }

  /** Once latched, the switch stays latched and the state stays put for the rest of the day, whatever the equity does. */
  lemma {:induction false} LatchHoldsAllDay(s: State, obs: seq<Observation>)
    requires s.active
    requires forall i :: 0 <= i < |obs| ==> obs[i].day == s.lastDay
    ensures Run(s, obs) == s
    ensures forall i :: 0 <= i < |obs| ==> Step(Run(s, obs[..i]), obs[i].balance, obs[i].equity, obs[i].day).1 == Hold
    decreases |obs|
  {
    if |obs| > 0 {
      LatchHoldsAllDay(s, obs[1..]);
      forall i | 0 <= i < |obs|
        ensures Step(Run(s, obs[..i]), obs[i].balance, obs[i].equity, obs[i].day).1 == Hold
      {
        if i > 0 {
          assert obs[..i][1..] == obs[1..][..i - 1];
          assert obs[1..][i - 1] == obs[i];
        }
      }
    }
  }

  /** The first cycle of a new day clears the switch and rebases the start to the current balance before testing again. */
  lemma NewDayResets(s: State, balance: real, equity: real, day: int)
    requires s.active && day != s.lastDay
    ensures var r := Step(s, balance, equity, day);
      && r.0.startBalance == balance && r.0.lastDay == day
      && (r.1 == Trip <==> Breached(balance, equity))
      && (r.1 == Proceed <==> !r.0.active)
  {
  }

  /** A start of 10000 and equity of 9580 is a 4.2% drawdown: the switch trips, and the next cycle that day holds. */
  lemma ScenarioFourPointTwoPercent()
    ensures var r := Step(State(10000.0, 12, false), 9580.0, 9580.0, 12);
      && r.1 == Trip
      && Step(r.0, 9900.0, 9990.0, 12).1 == Hold
  {
  }

  /** Just under the limit the switch stays open. */
  lemma ScenarioBelowLimit()
    ensures Step(State(10000.0, 12, false), 9601.0, 9601.0, 12).1 == Proceed
  {
  }
}

=== FILE: engine.dfy ===
/**
  The trading engine (`TradingBot` in bot_engine.py) as a state machine.
  The state between cycles is the running flag, the monitored symbols, the
  reservation set (`execution_lock`) and the kill-switch record. One call of
  `RunCycle` is one `run_cycle`: it reads a snapshot of the account, the
  open positions, the clock and the per-symbol market data, and returns the
  next state, the broker actions it requested in order, and how it ended.

  Worker threads are not modelled as threads: a dispatched symbol stays
  reserved until `CompleteExecution`, the worker's `finally`, releases it.
 */
module Engine {
  import opened Common
  import opened Strings
  import opened Assets
  import Gateway
  import Analyst
  import Schedule
  import DailyRisk
  import Capacity
  import Trailing
  import News
  import Execution

  datatype Bot = Bot(running: bool, symbols: seq<string>, reserved: set<string>, risk: DailyRisk.State)

  /** A freshly constructed bot. */
  const Initial := Bot(false, [], {}, DailyRisk.Initial)

  // ---------------------------------------------------------------------
  // Service control
  // ---------------------------------------------------------------------

  /** The values of the present answers, in order. */
  function Found(answers: seq<Option<string>>): (r: seq<string>)
    ensures |r| <= |answers|
    ensures forall v :: v in r <==> Some(v) in answers
  {
    if |answers| == 0 then []
    else
      assert forall i :: 1 <= i < |answers| ==> answers[i] == answers[1..][i - 1];
      (if answers[0].Some? then [answers[0].value] else []) + Found(answers[1..])
  }

  /** One answer contributes its value when present and nothing when absent. */
  lemma FoundSingle(x: Option<string>)
    ensures Found([x]) == if x.Some? then [x.value] else []
  {
  }

  /**
    The answers are read one by one: with `FoundSingle` this fixes the
    resolved names and their order, the targets' order with absent ones dropped.
   */
  lemma {:induction false} FoundAppend(a: seq<Option<string>>, b: seq<Option<string>>)
    ensures Found(a + b) == Found(a) + Found(b)
    decreases |a|
  {
    if |a| == 0 {
      assert a + b == b;
    } else {
      assert (a + b)[0] == a[0];
      assert (a + b)[1..] == a[1..] + b;
      FoundAppend(a[1..], b);
    }
  }

  /** The cache the first `find_symbol` call leaves behind: built when empty, kept otherwise. */
  function CacheAfterFirstLookup(m: Gateway.SymbolMap, symbols: Option<seq<string>>): Gateway.SymbolMap
  {
    if |m| == 0 then Gateway.BuildCache(m, symbols) else m
  }

  /** Once the cache has been through one lookup, later lookups leave it as it is. */
  lemma CacheSettles(m: Gateway.SymbolMap, symbols: Option<seq<string>>)
    ensures CacheAfterFirstLookup(CacheAfterFirstLookup(m, symbols), symbols) == CacheAfterFirstLookup(m, symbols)
  {
  }

  /**
    Resolves each target through `find_symbol` in order, keeping those
    found: the cache is settled by the first lookup, and the result is the
    answer for each target against that cache, absent ones dropped.
   */
  function ResolveAll(m: Gateway.SymbolMap, symbols: Option<seq<string>>, targets: seq<string>)
    : (r: (Gateway.SymbolMap, seq<string>))
    ensures |targets| > 0 ==> r.0 == CacheAfterFirstLookup(m, symbols)
    ensures |targets| == 0 ==> r.0 == m
    ensures r.1 == Found(seq(|targets|, i requires 0 <= i < |targets| => Gateway.FindSymbol(r.0, symbols, targets[i]).1))
    decreases |targets|
  {
    if |targets| == 0 then (m, [])
    else
      var (m1, found) := Gateway.FindSymbol(m, symbols, targets[0]);
      var (m2, rest) := ResolveAll(m1, symbols, targets[1..]);
      ResolveAllSettled(m, symbols, targets, m1, found, m2, rest);
      (m2, if found.Some? then [found.value] + rest else rest)
  }

  /** The inductive step of `ResolveAll`: the first answer, then the answers for the remaining targets. */
  lemma ResolveAllSettled(m: Gateway.SymbolMap, symbols: Option<seq<string>>, targets: seq<string>,
                          m1: Gateway.SymbolMap, found: Option<string>, m2: Gateway.SymbolMap, rest: seq<string>)
    requires |targets| > 0
    requires (m1, found) == Gateway.FindSymbol(m, symbols, targets[0])
    requires |targets| > 1 ==> m2 == CacheAfterFirstLookup(m1, symbols)
    requires |targets| == 1 ==> m2 == m1
    requires rest == Found(seq(|targets| - 1, i requires 0 <= i < |targets| - 1 => Gateway.FindSymbol(m2, symbols, targets[1..][i]).1))
    ensures m2 == CacheAfterFirstLookup(m, symbols)
    ensures (if found.Some? then [found.value] + rest else rest)
            == Found(seq(|targets|, i requires 0 <= i < |targets| => Gateway.FindSymbol(m2, symbols, targets[i]).1))
  {
    CacheSettles(m, symbols);
    var all := seq(|targets|, i requires 0 <= i < |targets| => Gateway.FindSymbol(m2, symbols, targets[i]).1);
    var tail := seq(|targets| - 1, i requires 0 <= i < |targets| - 1 => Gateway.FindSymbol(m2, symbols, targets[1..][i]).1);
    assert all[1..] == tail;
    assert all[0] == found;
  }

  /**
    `start_service`: connect (building the alias cache from the terminal's
    symbol list), resolve the eight VIP assets, clear the reservations and
    start running. The kill-switch record is kept. Returns the new bot, the
    gateway's cache and whether the start succeeded.
   */
  function StartService(bot: Bot, connected: bool, m: Gateway.SymbolMap, symbols: Option<seq<string>>)
    : (r: (Bot, Gateway.SymbolMap, bool))
    ensures !connected <==> r == (bot, m, false)
    ensures connected ==>
      && r.2 && r.0.running && r.0.reserved == {} && r.0.risk == bot.risk
      && |r.0.symbols| <= |Gateway.VipBases|
      && r.0.symbols == ResolveAll(Gateway.BuildCache(m, symbols), symbols, Gateway.VipBases).1
  {
    if !connected then (bot, m, false)
    else
      var (m', active) := ResolveAll(Gateway.BuildCache(m, symbols), symbols, Gateway.VipBases);
      (Bot(true, active, {}, bot.risk), m', true)
  }

  /** Answers that are all present give back their values. */
  lemma {:induction false} FoundAllPresent(answers: seq<Option<string>>, values: seq<string>)
    requires |answers| == |values|
    requires forall i :: 0 <= i < |answers| ==> answers[i] == Some(values[i])
    ensures Found(answers) == values
    decreases |answers|
  {
    if |answers| > 0 {
      FoundAllPresent(answers[1..], values[1..]);
    }
  }

  /** When the terminal lists all eight base symbols, a fresh start monitors exactly those eight, in order. */
  lemma StartMonitorsListedBases(bot: Bot, names: seq<string>)
    requires forall b :: b in Gateway.VipBases ==> b in names
    ensures StartService(bot, true, [], Some(names)).0.symbols == Gateway.VipBases
  {
    var bases := Gateway.VipBases;
    var c := Gateway.BuildCache([], Some(names));
    assert bases[0] in names;
    assert c == Gateway.IndexAll([], names);
    CacheSettles([], Some(names));
    Gateway.IndexedNamesMapToThemselves([], names);
    var answers := seq(|bases|, i requires 0 <= i < |bases| => Gateway.FindSymbol(c, Some(names), bases[i]).1);
    forall i | 0 <= i < |bases|
      ensures answers[i] == Some(bases[i])
    {
      var b := bases[i];
      assert Contains(b, b) by { assert b[..|b|] == b; }
      assert Gateway.IsVip(b);
      assert b in names;
    }
    FoundAllPresent(answers, bases);
  }

  /** `stop_service`. */
  function StopService(bot: Bot): (r: Bot)
    ensures !r.running && r.symbols == bot.symbols && r.reserved == bot.reserved && r.risk == bot.risk
  {
    bot.(running := false)
  }

  /** A stopped bot's cycle does nothing (see `RunCycle`). */

  // ---------------------------------------------------------------------
  // The cycle's inputs and outputs
  // ---------------------------------------------------------------------

  /** The UTC clock: day of the month, weekday (Monday = 0), hour and minute. */
  datatype Clock = Clock(day: int, weekday: int, hour: int, minute: int)

  /** The market data of a symbol, reduced to what the analyst reads: candles and the last RSI and ATR. */
  datatype Chart = Chart(candles: seq<Analyst.Candle>, rsi: real, atr: real)

  /**
    What a cycle observes. `now` is the local time in seconds (for the news
    guard); `ticks`, `props` and `charts` are the terminal's answers per
    symbol (None when unavailable or empty).
   */
  datatype Snapshot = Snapshot(
    account: Option<Gateway.Account>,
    positions: seq<Gateway.Position>,
    clock: Clock,
    now: int,
    news: seq<News.GuardEvent>,
    ticks: string -> Option<Gateway.Tick>,
    props: string -> Option<Gateway.SymbolInfo>,
    charts: string -> Option<Chart>)

  /** The analysis the engine obtains for a symbol; it always passes the trend hint "NEUTRAL". */
  function AnalysisOf(snap: Snapshot, symbol: string): (a: Option<Analyst.Analysis>)
    ensures a.Some? <==> snap.charts(symbol).Some?
  {
    match snap.charts(symbol)
    case None => None
    case Some(ch) => Some(Analyst.Analyze(ch.candles, ch.rsi, ch.atr, "NEUTRAL"))
  }

  datatype Action =
    | CloseAction(ticket: int, symbol: string, volume: real, side: Side)   // `close_position`
    | ModifyStop(change: Trailing.Modify)                                    // trailing-stop `order_send`
    | Dispatch(symbol: string, analysis: Analyst.Analysis)                   // `execute_signal` started a worker

  datatype Exit =
    | NotRunning
    | NoAccount
    | KillSwitchHold
    | KillSwitchTrip
    | MarketClosed(status: Schedule.Status)
    | CapacityFull
    | Scanned
    | Fault   // ZeroDivisionError in the spread guard, outside any handler

  datatype CycleResult = CycleResult(bot: Bot, actions: seq<Action>, exit: Exit)

  /** The close request for one position. */
  function CloseOf(p: Gateway.Position): Action
  {
    CloseAction(p.ticket, p.symbol, p.volume, p.side)
  }

  /** `close_all_positions`: one close per position, in order. */
  function CloseAll(positions: seq<Gateway.Position>): (acts: seq<Action>)
    ensures |acts| == |positions|
    ensures forall i :: 0 <= i < |positions| ==> acts[i] == CloseOf(positions[i])
  {
    seq(|positions|, i requires 0 <= i < |positions| => CloseOf(positions[i]))
  }

  // ---------------------------------------------------------------------
  // Open-position management
  // ---------------------------------------------------------------------

  /** The stop change `apply_trailing_stop` requests for one position, if any. */
  function TrailOf(p: Gateway.Position, snap: Snapshot, normalize: (string, real) -> real): Option<Trailing.Modify>
  {
    Trailing.TrailPosition(p, snap.ticks(p.symbol), snap.props(p.symbol), normalize)
  }

  /** The stop changes a per-position pass `trail` requests, in position order. */
  function ModifyEach(positions: seq<Gateway.Position>, trail: Gateway.Position -> Option<Trailing.Modify>)
    : (acts: seq<Action>)
    ensures |acts| <= |positions|
    ensures forall a :: a in acts ==> a.ModifyStop? && exists p :: p in positions && trail(p) == Some(a.change)
    ensures forall p :: p in positions && trail(p).Some? ==> ModifyStop(trail(p).value) in acts
  {
    if |positions| == 0 then []
    else
      var p := positions[0];
      var rest := ModifyEach(positions[1..], trail);
      assert forall q :: q in positions ==> q == p || q in positions[1..];
      assert forall q :: q in positions[1..] ==> q in positions;
      match trail(p)
      case None => rest
      case Some(m) => [ModifyStop(m)] + rest
  }

  /** One position yields its stop change when the pass requests one, and nothing otherwise. */
  lemma ModifyEachSingle(p: Gateway.Position, trail: Gateway.Position -> Option<Trailing.Modify>)
    ensures ModifyEach([p], trail) == if trail(p).Some? then [ModifyStop(trail(p).value)] else []
  {
  }

  /**
    The pass works position by position: with `ModifyEachSingle` each
    position gets at most one stop change, in position order.
   */
  lemma {:induction false} ModifyEachAppend(a: seq<Gateway.Position>, b: seq<Gateway.Position>,
                                            trail: Gateway.Position -> Option<Trailing.Modify>)
    ensures ModifyEach(a + b, trail) == ModifyEach(a, trail) + ModifyEach(b, trail)
    decreases |a|
  {
    if |a| == 0 {
      assert a + b == b;
    } else {
      assert (a + b)[0] == a[0];
      assert (a + b)[1..] == a[1..] + b;
      ModifyEachAppend(a[1..], b, trail);
    }
  }

  /** `apply_trailing_stop` over all positions; a failure on one position skips it. */
  function TrailAll(positions: seq<Gateway.Position>, snap: Snapshot, normalize: (string, real) -> real)
    : (acts: seq<Action>)
    ensures |acts| <= |positions|
    ensures forall a :: a in acts ==> a.ModifyStop?
    ensures forall a :: a in acts ==> exists p :: p in positions && TrailOf(p, snap, normalize) == Some(a.change)
    ensures forall p :: p in positions && TrailOf(p, snap, normalize).Some? ==>
      ModifyStop(TrailOf(p, snap, normalize).value) in acts
  {
    ModifyEach(positions, p => TrailOf(p, snap, normalize))
  }

  /** One position: its stop change if `apply_trailing_stop` requests one. */
  lemma TrailAllSingle(p: Gateway.Position, snap: Snapshot, normalize: (string, real) -> real)
    ensures TrailAll([p], snap, normalize) ==
      if TrailOf(p, snap, normalize).Some? then [ModifyStop(TrailOf(p, snap, normalize).value)] else []
  {
    ModifyEachSingle(p, q => TrailOf(q, snap, normalize));
  }

  /** The trailing pass over a split of the positions is the two passes in turn. */
  lemma {:induction false} TrailAllAppend(a: seq<Gateway.Position>, b: seq<Gateway.Position>,
                                          snap: Snapshot, normalize: (string, real) -> real)
    ensures TrailAll(a + b, snap, normalize) == TrailAll(a, snap, normalize) + TrailAll(b, snap, normalize)
  {
    ModifyEachAppend(a, b, q => TrailOf(q, snap, normalize));
  }

  /** The early-exit test of `evaluate_open_positions`: a confident signal of the opposite family. */
  predicate Reversal(p: Gateway.Position, a: Analyst.Analysis)
  {
    a.signal != Analyst.Neutral && a.confidence >= 0.80 &&
    ((p.side == Buy && Contains(a.signal.Name(), "SELL")) || (p.side == Sell && Contains(a.signal.Name(), "BUY")))
  }

  /** Since every directional signal carries at least 0.80, the test is just "the signal points the other way". */
  lemma ReversalIsOppositeSignal(p: Gateway.Position, c: seq<Analyst.Candle>, rsi: real, atr: real)
    ensures var a := Analyst.Analyze(c, rsi, atr, "NEUTRAL");
      Reversal(p, a) <==> (p.side == Buy && a.signal.IsSellFamily()) || (p.side == Sell && a.signal.IsBuyFamily())
  {
    Analyst.FamilyMatchesName(Analyst.Analyze(c, rsi, atr, "NEUTRAL").signal);
  }

  /** The market of the position has reversed against it. */
  predicate ShouldClose(p: Gateway.Position, snap: Snapshot)
  {
    AnalysisOf(snap, p.symbol).Some? && Reversal(p, AnalysisOf(snap, p.symbol).value)
  }

  /** One close per position that `close` selects, in position order. */
  function CloseWhere(positions: seq<Gateway.Position>, close: Gateway.Position -> bool): (acts: seq<Action>)
    ensures |acts| <= |positions|
    ensures forall a :: a in acts ==> exists p :: p in positions && close(p) && a == CloseOf(p)
    ensures forall p :: p in positions && close(p) ==> CloseOf(p) in acts
  {
    if |positions| == 0 then []
    else
      var p := positions[0];
      var rest := CloseWhere(positions[1..], close);
      assert forall q :: q in positions ==> q == p || q in positions[1..];
      assert forall q :: q in positions[1..] ==> q in positions;
      if close(p) then [CloseOf(p)] + rest else rest
  }

  /** One position yields one close when selected, and nothing otherwise. */
  lemma CloseWhereSingle(p: Gateway.Position, close: Gateway.Position -> bool)
    ensures CloseWhere([p], close) == if close(p) then [CloseOf(p)] else []
  {
  }

  /**
    The selection works position by position: with `CloseWhereSingle` each
    selected position is closed exactly once, in position order.
   */
  lemma {:induction false} CloseWhereAppend(a: seq<Gateway.Position>, b: seq<Gateway.Position>,
                                            close: Gateway.Position -> bool)
    ensures CloseWhere(a + b, close) == CloseWhere(a, close) + CloseWhere(b, close)
    decreases |a|
  {
    if |a| == 0 {
      assert a + b == b;
    } else {
      assert (a + b)[0] == a[0];
      assert (a + b)[1..] == a[1..] + b;
      CloseWhereAppend(a[1..], b, close);
    }
  }

  /** `evaluate_open_positions`: close each position whose market has reversed. */
  function EvaluateOpenPositions(positions: seq<Gateway.Position>, snap: Snapshot): (acts: seq<Action>)
    ensures |acts| <= |positions|
    ensures forall a :: a in acts ==> exists p :: p in positions && ShouldClose(p, snap) && a == CloseOf(p)
    ensures forall p :: p in positions && ShouldClose(p, snap) ==> CloseOf(p) in acts
  {
    CloseWhere(positions, p => ShouldClose(p, snap))
  }

  /** One position is closed once if its market has reversed, and left alone otherwise. */
  lemma EvaluateSingle(p: Gateway.Position, snap: Snapshot)
    ensures EvaluateOpenPositions([p], snap) == if ShouldClose(p, snap) then [CloseOf(p)] else []
  {
    CloseWhereSingle(p, q => ShouldClose(q, snap));
  }

  /** The exits over a split of the positions are the two evaluations in turn. */
  lemma {:induction false} EvaluateAppend(a: seq<Gateway.Position>, b: seq<Gateway.Position>, snap: Snapshot)
    ensures EvaluateOpenPositions(a + b, snap) == EvaluateOpenPositions(a, snap) + EvaluateOpenPositions(b, snap)
  {
    CloseWhereAppend(a, b, q => ShouldClose(q, snap));
  }

  // ---------------------------------------------------------------------
  // Entry scanning
  // ---------------------------------------------------------------------

  /** Open positions on `symbol`. */
  function CountOn(positions: seq<Gateway.Position>, symbol: string): (n: nat)
    ensures n <= |positions|
    ensures n == 0 <==> forall i :: 0 <= i < |positions| ==> positions[i].symbol != symbol
  {
    if |positions| == 0 then 0
    else
      var rest := CountOn(positions[1..], symbol);
      assert forall i :: 1 <= i < |positions| ==> positions[i] == positions[1..][i - 1];
      (if positions[0].symbol == symbol then 1 else 0) + rest
  }

  /** Open gold positions. */
  function GoldCount(positions: seq<Gateway.Position>): (n: nat)
    ensures n <= |positions|
    ensures n == 0 <==> forall i :: 0 <= i < |positions| ==> !IsGold(positions[i].symbol)
    ensures n == |positions| <==> forall i :: 0 <= i < |positions| ==> IsGold(positions[i].symbol)
  {
    if |positions| == 0 then 0
    else
      var rest := GoldCount(positions[1..]);
      assert forall i :: 1 <= i < |positions| ==> positions[i] == positions[1..][i - 1];
      (if IsGold(positions[0].symbol) then 1 else 0) + rest
  }

  /** One position counts once exactly when its symbol names XAU. */
  lemma GoldCountSingle(p: Gateway.Position)
    ensures GoldCount([p]) == if IsGold(p.symbol) then 1 else 0
  {
  }

  /** The tally adds over a split of the positions; with `GoldCountSingle` it is the number of gold positions. */
  lemma {:induction false} GoldCountAppend(a: seq<Gateway.Position>, b: seq<Gateway.Position>)
    ensures GoldCount(a + b) == GoldCount(a) + GoldCount(b)
    decreases |a|
  {
    if |a| == 0 {
      assert a + b == b;
    } else {
      assert (a + b)[0] == a[0];
      assert (a + b)[1..] == a[1..] + b;
      GoldCountAppend(a[1..], b);
    }
  }

  /** Positions plus pending execution on a symbol. */
  function SymbolTrades(positions: seq<Gateway.Position>, reserved: set<string>, symbol: string): nat
  {
    CountOn(positions, symbol) + (if symbol in reserved then 1 else 0)
  }

  /** The gold and per-symbol caps of the scan loop. */
  predicate CapsBlock(symbol: string, positions: seq<Gateway.Position>, reserved: set<string>, sniper: bool, gold: nat)
  {
    (IsGold(symbol) && Capacity.GoldBlocked(sniper, gold)) ||
    Capacity.SymbolCapBlocked(sniper, SymbolTrades(positions, reserved, symbol))
  }

  /** The symbol already has a position or a pending execution (`active_tickets` / `execution_lock`). */
  predicate Occupied(symbol: string, positions: seq<Gateway.Position>, reserved: set<string>)
  {
    symbol in reserved || exists i :: 0 <= i < |positions| && positions[i].symbol == symbol
  }

  datatype Skip = CapReached | NewsBlocked | AlreadyOccupied | NoProperties | SpreadTooWide | NoData | NoSignal | LowConfidence

  datatype StepOutcome = Skipped(reason: Skip) | ZeroPoint | Dispatched(analysis: Analyst.Analysis)

  /** One iteration of the scan loop: the caps, then `process_symbol`'s guards in source order. */
  function ScanStep(symbol: string, reserved: set<string>, snap: Snapshot, sniper: bool, gold: nat): (o: StepOutcome)
    ensures o.Dispatched? ==> AnalysisOf(snap, symbol) == Some(o.analysis)
  {
    if CapsBlock(symbol, snap.positions, reserved, sniper, gold) then Skipped(CapReached)
    else if News.NewsGuard(snap.news, snap.now) then Skipped(NewsBlocked)
    else if Occupied(symbol, snap.positions, reserved) then Skipped(AlreadyOccupied)
    else match snap.props(symbol)
      case None => Skipped(NoProperties)
      case Some(info) =>
        match Capacity.CheckSpread(symbol, info.ask, info.bid, info.point)
        case ZeroPoint => ZeroPoint
        case TooWide => Skipped(SpreadTooWide)
        case WithinLimit =>
          match AnalysisOf(snap, symbol)
          case None => Skipped(NoData)
          case Some(a) =>
            match Capacity.ConfidenceGate(a.signal, a.confidence, sniper, symbol)
            case NoSignal => Skipped(NoSignal)
            case LowConfidence => Skipped(LowConfidence)
            case Execute => Dispatched(a)
  }

  /**
    The conditions under which a symbol is traded, stated over the cycle's
    inputs: no blocking news, no position and no reservation on it, the gold
    cap not reached, a readable spread within the limit, market data, and a
    signal that clears the confidence threshold.
   */
  predicate Admitted(symbol: string, snap: Snapshot, reserved: set<string>, sniper: bool, gold: nat)
  {
    && !News.NewsGuard(snap.news, snap.now)
    && symbol !in reserved
    && CountOn(snap.positions, symbol) == 0
    && !(IsGold(symbol) && Capacity.GoldBlocked(sniper, gold))
    && snap.props(symbol).Some?
    && Capacity.CheckSpread(symbol, snap.props(symbol).value.ask, snap.props(symbol).value.bid,
                            snap.props(symbol).value.point) == Capacity.WithinLimit
    && AnalysisOf(snap, symbol).Some?
    && Capacity.ConfidenceGate(AnalysisOf(snap, symbol).value.signal, AnalysisOf(snap, symbol).value.confidence,
                               sniper, symbol) == Capacity.Execute
  }

  /** One loop iteration dispatches exactly the admitted symbols. */
  lemma ScanStepDispatchesAdmitted(symbol: string, reserved: set<string>, snap: Snapshot, sniper: bool, gold: nat)
    ensures ScanStep(symbol, reserved, snap, sniper, gold).Dispatched? <==> Admitted(symbol, snap, reserved, sniper, gold)
  {
    var occupied := Occupied(symbol, snap.positions, reserved);
    assert !occupied <==> symbol !in reserved && CountOn(snap.positions, symbol) == 0;
  }

  /** A larger reservation set never admits more. */
  lemma AdmittedAntitone(symbol: string, snap: Snapshot, r1: set<string>, r2: set<string>, sniper: bool, gold: nat)
    requires r1 <= r2
    ensures Admitted(symbol, snap, r2, sniper, gold) ==> Admitted(symbol, snap, r1, sniper, gold)
  {
  }

  /** The symbols of the dispatch actions. */
  function DispatchedSymbols(acts: seq<Action>): (s: set<string>)
    ensures forall a :: a in acts && a.Dispatch? ==> a.symbol in s
    ensures forall x :: x in s ==> exists a :: a in acts && a.Dispatch? && a.symbol == x
  {
    set a | a in acts && a.Dispatch? :: a.symbol
  }

  datatype Scan = Scan(reserved: set<string>, actions: seq<Action>, fault: bool)

  /** The scan loop over the monitored symbols, threading the reservation set; a ZeroPoint aborts it. */
  function ScanSymbols(symbols: seq<string>, reserved: set<string>, snap: Snapshot, sniper: bool, gold: nat): (r: Scan)
    ensures forall a :: a in r.actions ==> a.Dispatch? && a.symbol in symbols && a.symbol !in reserved
    ensures reserved <= r.reserved
    decreases |symbols|
  {
    if |symbols| == 0 then Scan(reserved, [], false)
    else
      var s := symbols[0];
      match ScanStep(s, reserved, snap, sniper, gold)
      case ZeroPoint => Scan(reserved, [], true)
      case Skipped(_) => ScanSymbols(symbols[1..], reserved, snap, sniper, gold)
      case Dispatched(a) =>
        var rest := ScanSymbols(symbols[1..], reserved + {s}, snap, sniper, gold);
        Scan(rest.reserved, [Dispatch(s, a)] + rest.actions, rest.fault)
  }

  /** Every dispatch of the scan is of a symbol admitted against the reservations it started from, with its analysis. */
  lemma {:induction false} ScanSound(symbols: seq<string>, reserved: set<string>, snap: Snapshot, sniper: bool, gold: nat)
    ensures forall a :: a in ScanSymbols(symbols, reserved, snap, sniper, gold).actions ==>
      Admitted(a.symbol, snap, reserved, sniper, gold) && AnalysisOf(snap, a.symbol) == Some(a.analysis)
    decreases |symbols|
  {
    if |symbols| > 0 {
      var s := symbols[0];
      ScanStepDispatchesAdmitted(s, reserved, snap, sniper, gold);
      match ScanStep(s, reserved, snap, sniper, gold)
      case ZeroPoint =>
      case Skipped(_) =>
        ScanSound(symbols[1..], reserved, snap, sniper, gold);
      case Dispatched(_) =>
        ScanSound(symbols[1..], reserved + {s}, snap, sniper, gold);
        forall b | b in ScanSymbols(symbols[1..], reserved + {s}, snap, sniper, gold).actions
          ensures Admitted(b.symbol, snap, reserved, sniper, gold)
        {
          AdmittedAntitone(b.symbol, snap, reserved, reserved + {s}, sniper, gold);
        }
    }
  }

  /** The reservations grow by exactly the dispatched symbols. */
  lemma {:induction false} ScanReserves(symbols: seq<string>, reserved: set<string>, snap: Snapshot, sniper: bool, gold: nat)
    ensures var r := ScanSymbols(symbols, reserved, snap, sniper, gold);
      r.reserved == reserved + DispatchedSymbols(r.actions)
    decreases |symbols|
  {
    if |symbols| > 0 {
      var s := symbols[0];
      match ScanStep(s, reserved, snap, sniper, gold)
      case ZeroPoint =>
      case Skipped(_) =>
        ScanReserves(symbols[1..], reserved, snap, sniper, gold);
      case Dispatched(a) =>
        ScanReserves(symbols[1..], reserved + {s}, snap, sniper, gold);
        var rest := ScanSymbols(symbols[1..], reserved + {s}, snap, sniper, gold).actions;
        assert DispatchedSymbols([Dispatch(s, a)] + rest) == {s} + DispatchedSymbols(rest);
    }
  }

  /** No two dispatches name the same symbol. */
  predicate DistinctSymbols(acts: seq<Action>)
  {
    forall i, j :: 0 <= i < j < |acts| && acts[i].Dispatch? && acts[j].Dispatch? ==> acts[i].symbol != acts[j].symbol
  }

  lemma PrependDistinct(x: Action, rest: seq<Action>)
    requires x.Dispatch? && DistinctSymbols(rest)
    requires forall b :: b in rest && b.Dispatch? ==> b.symbol != x.symbol
    ensures DistinctSymbols([x] + rest)
  {
    var acts := [x] + rest;
    forall i, j | 0 <= i < j < |acts| && acts[i].Dispatch? && acts[j].Dispatch?
      ensures acts[i].symbol != acts[j].symbol
    {
      assert acts[j] == rest[j - 1] && rest[j - 1] in rest;
      if i > 0 {
        assert acts[i] == rest[i - 1];
      }
    }
  }

  /** No symbol is dispatched twice in one scan. */
  lemma {:induction false} ScanDistinct(symbols: seq<string>, reserved: set<string>, snap: Snapshot, sniper: bool, gold: nat)
    ensures DistinctSymbols(ScanSymbols(symbols, reserved, snap, sniper, gold).actions)
    decreases |symbols|
  {
    if |symbols| > 0 {
      var s := symbols[0];
      var o := ScanStep(s, reserved, snap, sniper, gold);
      if o.Skipped? {
        ScanDistinct(symbols[1..], reserved, snap, sniper, gold);
      } else if o.Dispatched? {
        ScanDistinct(symbols[1..], reserved + {s}, snap, sniper, gold);
        var rest := ScanSymbols(symbols[1..], reserved + {s}, snap, sniper, gold).actions;
        PrependDistinct(Dispatch(s, o.analysis), rest);
      }
    }
  }

  /** Reserving one symbol leaves every other admitted symbol admitted. */
  lemma AdmittedBesideReserved(x: string, s: string, snap: Snapshot, reserved: set<string>, sniper: bool, gold: nat)
    requires x != s && Admitted(x, snap, reserved, sniper, gold)
    ensures Admitted(x, snap, reserved + {s}, sniper, gold)
  {
  }

  /** Unless it aborts, the scan dispatches every admitted symbol of the list. */
  lemma ScanComplete(symbols: seq<string>, reserved: set<string>, snap: Snapshot, sniper: bool, gold: nat)
    ensures var r := ScanSymbols(symbols, reserved, snap, sniper, gold);
      !r.fault ==> forall s :: s in symbols && Admitted(s, snap, reserved, sniper, gold) ==>
        Dispatch(s, AnalysisOf(snap, s).value) in r.actions
  {
    forall x | x in symbols && Admitted(x, snap, reserved, sniper, gold)
      ensures !ScanSymbols(symbols, reserved, snap, sniper, gold).fault ==>
        Dispatch(x, AnalysisOf(snap, x).value) in ScanSymbols(symbols, reserved, snap, sniper, gold).actions
    {
      ScanCompleteAt(symbols, reserved, snap, sniper, gold, x);
    }
  }

  /** One admitted symbol at a time: the induction behind `ScanComplete`. */
  lemma {:induction false} ScanCompleteAt(symbols: seq<string>, reserved: set<string>, snap: Snapshot,
                                          sniper: bool, gold: nat, x: string)
    requires x in symbols && Admitted(x, snap, reserved, sniper, gold)
    ensures var r := ScanSymbols(symbols, reserved, snap, sniper, gold);
      !r.fault ==> Dispatch(x, AnalysisOf(snap, x).value) in r.actions
    decreases |symbols|
  {
    var r := ScanSymbols(symbols, reserved, snap, sniper, gold);
    var s := symbols[0];
    var o := ScanStep(s, reserved, snap, sniper, gold);
    if !r.fault && x != s {
      assert x in symbols[1..];
      if o.Skipped? {
        assert r == ScanSymbols(symbols[1..], reserved, snap, sniper, gold);
        ScanCompleteAt(symbols[1..], reserved, snap, sniper, gold, x);
      } else if o.Dispatched? {
        var rest := ScanSymbols(symbols[1..], reserved + {s}, snap, sniper, gold);
        assert r.actions == [Dispatch(s, o.analysis)] + rest.actions;
        AdmittedBesideReserved(x, s, snap, reserved, sniper, gold);
        ScanCompleteAt(symbols[1..], reserved + {s}, snap, sniper, gold, x);
      }
    } else if !r.fault {
      ScanStepDispatchesAdmitted(s, reserved, snap, sniper, gold);
      assert o.Dispatched?;
    }
  }

  /** The scan only ever aborts on a symbol whose properties report a zero point. */
  lemma {:induction false} ScanFaultsOnlyOnZeroPoint(symbols: seq<string>, reserved: set<string>, snap: Snapshot,
                                                     sniper: bool, gold: nat)
    ensures ScanSymbols(symbols, reserved, snap, sniper, gold).fault ==>
      exists s :: s in symbols && snap.props(s).Some? && snap.props(s).value.point == 0.0
    decreases |symbols|
  {
    if |symbols| > 0 {
      var s := symbols[0];
      match ScanStep(s, reserved, snap, sniper, gold)
      case ZeroPoint =>
      case Skipped(_) =>
        ScanFaultsOnlyOnZeroPoint(symbols[1..], reserved, snap, sniper, gold);
      case Dispatched(_) =>
        ScanFaultsOnlyOnZeroPoint(symbols[1..], reserved + {s}, snap, sniper, gold);
    }
  }

  // ---------------------------------------------------------------------
  // The cycle
  // ---------------------------------------------------------------------

  /** Positions plus pending executions. */
  function Occupancy(bot: Bot, snap: Snapshot): nat
  {
    |snap.positions| + |bot.reserved|
  }

  /** The kill-switch verdict of a cycle with account data. */
  function Verdict(bot: Bot, snap: Snapshot): DailyRisk.Verdict
    requires snap.account.Some?
  {
    DailyRisk.Step(bot.risk, snap.account.value.balance, snap.account.value.equity, snap.clock.day).1
  }

  /** The cycle gets past the kill switch, the market hours and the capacity check to the entry scan. */
  predicate ReachesScan(bot: Bot, snap: Snapshot)
  {
    && bot.running && snap.account.Some? && Verdict(bot, snap) == DailyRisk.Proceed
    && Schedule.Check(snap.clock.weekday, snap.clock.hour, snap.clock.minute) == Schedule.MarketOpen
    && !Capacity.AtCapacity(Occupancy(bot, snap))
  }

  /** The trailing-stop changes followed by the early exits. */
  function Managed(snap: Snapshot, normalize: (string, real) -> real): (acts: seq<Action>)
    ensures forall a :: a in acts ==> !a.Dispatch?
  {
    TrailAll(snap.positions, snap, normalize) + EvaluateOpenPositions(snap.positions, snap)
  }

  /** The entry scan of a cycle, in sniper mode from seven occupied slots. */
  function ScanOf(bot: Bot, snap: Snapshot): Scan
  {
    ScanSymbols(bot.symbols, bot.reserved, snap, Capacity.SniperFlag(Occupancy(bot, snap)), GoldCount(snap.positions))
  }

  /**
    `run_cycle`. `normalize` is the price normalisation the trailing stop
    needs; the cycle's news guard reads the calendar events as `snap.news`.
   */
  function RunCycle(bot: Bot, snap: Snapshot, normalize: (string, real) -> real): (r: CycleResult)
    ensures r.bot.running == bot.running && r.bot.symbols == bot.symbols
    ensures bot.reserved <= r.bot.reserved
    ensures r.exit in {NotRunning, NoAccount} ==> r == CycleResult(bot, [], r.exit)
    ensures bot.running && snap.account.Some? ==>
      r.bot.risk == DailyRisk.Step(bot.risk, snap.account.value.balance, snap.account.value.equity, snap.clock.day).0
  {
    if !bot.running then CycleResult(bot, [], NotRunning)
    else match snap.account
      case None => CycleResult(bot, [], NoAccount)
      case Some(acc) =>
        var (risk, verdict) := DailyRisk.Step(bot.risk, acc.balance, acc.equity, snap.clock.day);
        var bot1 := bot.(risk := risk);
        match verdict
        case Hold => CycleResult(bot1, [], KillSwitchHold)
        case Trip => CycleResult(bot1, CloseAll(snap.positions), KillSwitchTrip)
        case Proceed =>
          var status := Schedule.Check(snap.clock.weekday, snap.clock.hour, snap.clock.minute);
          if status != Schedule.MarketOpen then CycleResult(bot1, [], MarketClosed(status))
          else if Capacity.AtCapacity(Occupancy(bot, snap)) then CycleResult(bot1, Managed(snap, normalize), CapacityFull)
          else
            var scan := ScanOf(bot, snap);
            CycleResult(bot1.(reserved := scan.reserved), Managed(snap, normalize) + scan.actions,
                        if scan.fault then Fault else Scanned)
  }

  /** Dispatches and new reservations come only from the entry scan. */
  lemma CycleStages(bot: Bot, snap: Snapshot, normalize: (string, real) -> real)
    ensures var r := RunCycle(bot, snap, normalize);
      if ReachesScan(bot, snap) then
        r.actions == Managed(snap, normalize) + ScanOf(bot, snap).actions && r.bot.reserved == ScanOf(bot, snap).reserved
      else
        r.bot.reserved == bot.reserved && forall a :: a in r.actions ==> !a.Dispatch?
  {
    var r := RunCycle(bot, snap, normalize);
    if !ReachesScan(bot, snap) && r.exit == KillSwitchTrip {
      assert r.actions == CloseAll(snap.positions);
    }
  }

  /**
    The first cycle of a new day rebases the kill switch on the current
    balance, whatever the rest of the cycle does, and the switch is latched
    afterwards exactly when this cycle trips it.
   */
  lemma NewDayCycleRebases(bot: Bot, snap: Snapshot, normalize: (string, real) -> real)
    requires bot.running && snap.account.Some? && snap.clock.day != bot.risk.lastDay
    ensures var r := RunCycle(bot, snap, normalize);
      && r.bot.risk.startBalance == snap.account.value.balance
      && r.bot.risk.lastDay == snap.clock.day
      && (r.bot.risk.active <==> r.exit == KillSwitchTrip)
  {
  }

  /**
    Once the kill switch and the market gate pass, the trailing stops and the
    early exits come first; at capacity they are all the cycle does, since the
    capacity check follows them.
   */
  lemma OpenMarketManagesFirst(bot: Bot, snap: Snapshot, normalize: (string, real) -> real)
    requires bot.running && snap.account.Some? && Verdict(bot, snap) == DailyRisk.Proceed
    requires Schedule.Check(snap.clock.weekday, snap.clock.hour, snap.clock.minute) == Schedule.MarketOpen
    ensures var r := RunCycle(bot, snap, normalize);
      && |Managed(snap, normalize)| <= |r.actions|
      && r.actions[..|Managed(snap, normalize)|] == Managed(snap, normalize)
    ensures Capacity.AtCapacity(Occupancy(bot, snap)) ==>
      var r := RunCycle(bot, snap, normalize);
      r.actions == Managed(snap, normalize) && r.exit == CapacityFull && r.bot.reserved == bot.reserved
  {
    var r := RunCycle(bot, snap, normalize);
    var m := Managed(snap, normalize);
    if !Capacity.AtCapacity(Occupancy(bot, snap)) {
      assert r.actions == m + ScanOf(bot, snap).actions;
      assert (m + ScanOf(bot, snap).actions)[..|m|] == m;
    }
  }

  /** A tripping cycle closes every open position once, in order, latches the switch and ends. */
  lemma KillSwitchTripClosesAll(bot: Bot, snap: Snapshot, normalize: (string, real) -> real)
    requires bot.running && snap.account.Some? && Verdict(bot, snap) == DailyRisk.Trip
    ensures var r := RunCycle(bot, snap, normalize);
      && r.exit == KillSwitchTrip
      && r.actions == CloseAll(snap.positions)
      && r.bot.risk.active && r.bot.reserved == bot.reserved
  {
  }

  /** While the switch is latched on the same day, the cycle does nothing and changes nothing. */
  lemma LatchedDayIsQuiet(bot: Bot, snap: Snapshot, normalize: (string, real) -> real)
    requires bot.running && snap.account.Some?
    requires bot.risk.active && snap.clock.day == bot.risk.lastDay
    ensures RunCycle(bot, snap, normalize) == CycleResult(bot, [], KillSwitchHold)
  {
  }

  /** With the market closed no trailing, no exit and no entry happens, and no reservation is taken. */
  lemma ClosedMarketIsQuiet(bot: Bot, snap: Snapshot, normalize: (string, real) -> real)
    requires bot.running && snap.account.Some? && Verdict(bot, snap) == DailyRisk.Proceed
    requires Schedule.InClosedWindow(snap.clock.weekday, snap.clock.hour, snap.clock.minute)
    requires Schedule.ValidClock(snap.clock.weekday, snap.clock.hour, snap.clock.minute)
    ensures var r := RunCycle(bot, snap, normalize);
      r.actions == [] && r.bot.reserved == bot.reserved && r.exit.MarketClosed?
  {
    Schedule.OpenIffOutsideWindows(snap.clock.weekday, snap.clock.hour, snap.clock.minute);
  }

  /** With twelve or more slots occupied nothing is dispatched and no reservation is taken. */
  lemma FullCapacityNoDispatch(bot: Bot, snap: Snapshot, normalize: (string, real) -> real)
    requires Occupancy(bot, snap) >= Capacity.TotalSlots
    ensures var r := RunCycle(bot, snap, normalize);
      (forall a :: a in r.actions ==> !a.Dispatch?) && r.bot.reserved == bot.reserved
  {
    CycleStages(bot, snap, normalize);
  }

  /**
    Every dispatch of a cycle is of a monitored symbol, in a cycle that passed
    the kill switch, the market gate and the capacity check, and the symbol
    was admitted under the cycle's mode and gold tally.
   */
  lemma DispatchSound(bot: Bot, snap: Snapshot, normalize: (string, real) -> real, a: Action)
    requires a in RunCycle(bot, snap, normalize).actions && a.Dispatch?
    ensures ReachesScan(bot, snap)
    ensures a.symbol in bot.symbols
    ensures Admitted(a.symbol, snap, bot.reserved, Capacity.SniperFlag(Occupancy(bot, snap)), GoldCount(snap.positions))
    ensures AnalysisOf(snap, a.symbol) == Some(a.analysis)
  {
    CycleStages(bot, snap, normalize);
    ScanSound(bot.symbols, bot.reserved, snap, Capacity.SniperFlag(Occupancy(bot, snap)), GoldCount(snap.positions));
    assert a in ScanOf(bot, snap).actions;
  }

  /** A cycle that reaches the scan dispatches every admitted monitored symbol, unless the scan aborts. */
  lemma DispatchComplete(bot: Bot, snap: Snapshot, normalize: (string, real) -> real, s: string)
    requires ReachesScan(bot, snap) && RunCycle(bot, snap, normalize).exit == Scanned
    requires s in bot.symbols
    requires Admitted(s, snap, bot.reserved, Capacity.SniperFlag(Occupancy(bot, snap)), GoldCount(snap.positions))
    ensures Dispatch(s, AnalysisOf(snap, s).value) in RunCycle(bot, snap, normalize).actions
  {
    CycleStages(bot, snap, normalize);
    ScanComplete(bot.symbols, bot.reserved, snap, Capacity.SniperFlag(Occupancy(bot, snap)), GoldCount(snap.positions));
  }

  /** After a cycle the reservations are the old ones plus the symbols it dispatched, each new and dispatched once. */
  lemma ReservationsTrackDispatches(bot: Bot, snap: Snapshot, normalize: (string, real) -> real)
    ensures var r := RunCycle(bot, snap, normalize);
      && r.bot.reserved == bot.reserved + DispatchedSymbols(r.actions)
      && DispatchedSymbols(r.actions) !! bot.reserved
  {
    var r := RunCycle(bot, snap, normalize);
    CycleStages(bot, snap, normalize);
    if ReachesScan(bot, snap) {
      var scan := ScanOf(bot, snap);
      ScanReserves(bot.symbols, bot.reserved, snap, Capacity.SniperFlag(Occupancy(bot, snap)), GoldCount(snap.positions));
      DispatchedAfterManaged(Managed(snap, normalize), scan.actions);
    } else {
      NoDispatchedSymbols(r.actions);
    }
  }

  /** Actions that hold no dispatch contribute no dispatched symbol. */
  lemma DispatchedAfterManaged(m: seq<Action>, d: seq<Action>)
    requires forall a :: a in m ==> !a.Dispatch?
    ensures DispatchedSymbols(m + d) == DispatchedSymbols(d)
  {
    assert forall a :: a in m + d ==> a in m || a in d;
    assert forall a :: a in d ==> a in m + d;
  }

  /** A list without dispatches dispatches no symbol. */
  lemma NoDispatchedSymbols(acts: seq<Action>)
    requires forall a :: a in acts ==> !a.Dispatch?
    ensures DispatchedSymbols(acts) == {}
  {
  }

  lemma AppendDistinct(m: seq<Action>, d: seq<Action>)
    requires forall a :: a in m ==> !a.Dispatch?
    requires DistinctSymbols(d)
    ensures DistinctSymbols(m + d)
  {
    var acts := m + d;
    assert forall k :: 0 <= k < |m| ==> acts[k] == m[k] && m[k] in m;
    forall i, j | 0 <= i < j < |acts| && acts[i].Dispatch? && acts[j].Dispatch?
      ensures acts[i].symbol != acts[j].symbol
    {
      assert i >= |m|;
      assert acts[i] == d[i - |m|] && acts[j] == d[j - |m|];
    }
  }

  /** A cycle never dispatches the same symbol twice. */
  lemma NoDoubleDispatch(bot: Bot, snap: Snapshot, normalize: (string, real) -> real)
    ensures DistinctSymbols(RunCycle(bot, snap, normalize).actions)
  {
    CycleStages(bot, snap, normalize);
    if ReachesScan(bot, snap) {
      ScanDistinct(bot.symbols, bot.reserved, snap, Capacity.SniperFlag(Occupancy(bot, snap)), GoldCount(snap.positions));
      AppendDistinct(Managed(snap, normalize), ScanOf(bot, snap).actions);
    }
  }

  /**
    With the analyst's confidence levels (0.85 at most), sniper mode never
    dispatches and gold is never dispatched: only ordinary forex crosses in
    normal mode get through, on a plain BUY or SELL.
   */
  lemma OnlyNormalModeForexEntries(bot: Bot, snap: Snapshot, normalize: (string, real) -> real, a: Action)
    requires a in RunCycle(bot, snap, normalize).actions && a.Dispatch?
    ensures Occupancy(bot, snap) < Capacity.MaxOpenTrades
    ensures !IsGold(a.symbol)
    ensures a.analysis.signal == Analyst.Buy || a.analysis.signal == Analyst.Sell
  {
    DispatchSound(bot, snap, normalize, a);
    var ch := snap.charts(a.symbol).value;
    Capacity.GatePassesOnlyForexCrossesInNormalMode(ch.candles, ch.rsi, ch.atr, "NEUTRAL",
      Capacity.SniperFlag(Occupancy(bot, snap)), a.symbol);
  }

  /** The worker's `finally`: the symbol's reservation is released whatever the outcome. */
  function CompleteExecution(bot: Bot, symbol: string): (r: Bot)
    ensures symbol !in r.reserved
    ensures r.reserved + {symbol} >= bot.reserved
    ensures r.running == bot.running && r.symbols == bot.symbols && r.risk == bot.risk
  {
    bot.(reserved := Execution.Release(bot.reserved, symbol))
  }

  /** The bot after the workers for `done` have finished, in that order. */
  function CompleteAll(bot: Bot, done: seq<string>): Bot
    decreases |done|
  {
    if |done| == 0 then bot else CompleteAll(CompleteExecution(bot, done[0]), done[1..])
  }

  lemma {:induction false} CompleteAllRemoves(bot: Bot, done: seq<string>)
    ensures CompleteAll(bot, done).reserved == bot.reserved - (set s | s in done)
    decreases |done|
  {
    if |done| > 0 {
      CompleteAllRemoves(CompleteExecution(bot, done[0]), done[1..]);
      assert (set s | s in done) == {done[0]} + (set s | s in done[1..]);
    }
  }

  /** Completing every worker a cycle started returns the reservations to what they were before it. */
  lemma CompletingDispatchesRestores(bot: Bot, snap: Snapshot, normalize: (string, real) -> real, done: seq<string>)
    requires forall s :: s in DispatchedSymbols(RunCycle(bot, snap, normalize).actions) <==> s in done
    ensures CompleteAll(RunCycle(bot, snap, normalize).bot, done).reserved == bot.reserved
  {
    var r := RunCycle(bot, snap, normalize);
    ReservationsTrackDispatches(bot, snap, normalize);
    CompleteAllRemoves(r.bot, done);
    assert (set s | s in done) == DispatchedSymbols(r.actions);
  }
}

=== FILE: execution.dfy ===
/**
  The asynchronous execution of an accepted signal (`execute_signal` and its
  worker thread). The worker computes a stop/target bracket, checks free
  margin, sizes the lot, and places the order through the gateway. The
  symbol stays reserved from dispatch until the worker finishes.

  The gateway has no `normalize_price`, so as written the worker raises
  before any order is sent (`RunAsWritten`). `Execute` is the intended
  worker, with the normalisation passed in as a function.
 */
module Execution {
  import opened Common
  import opened Strings
  import opened Assets
  import Analyst
  import Gateway

  // ---------------------------------------------------------------------
  // Bracket
  // ---------------------------------------------------------------------

  /** Stop-loss distance in price units: 5.0 for gold, 0.5 for yen pairs, 0.005 otherwise. */
  function SlDistance(c: AssetClass): (d: real)
    ensures d > 0.0
  {
    match c
    case Metal => 5.0
    case Yen => 0.500
    case OtherFx => 0.0050
  }

  /** Take-profit distance: 10.0, 1.0 and 0.01. */
  function TpDistance(c: AssetClass): (d: real)
    ensures d == 2.0 * SlDistance(c)
  {
    match c
    case Metal => 10.0
    case Yen => 1.000
    case OtherFx => 0.0100
  }

  /** An entry price with its (not yet normalised) stop and target. */
  datatype Bracket = Bracket(price: real, sl: real, tp: real)

  /** Longs enter at the ask, shorts at the bid; stop and target sit at the class distances on either side. */
  function Place(side: Side, tick: Gateway.Tick, c: AssetClass): (b: Bracket)
    ensures side == Buy ==> b.price == tick.ask && b.sl < b.price < b.tp
    ensures side == Sell ==> b.price == tick.bid && b.tp < b.price < b.sl
    ensures b.price - b.sl == (if side == Buy then SlDistance(c) else -SlDistance(c))
    ensures b.tp - b.price == (if side == Buy then TpDistance(c) else -TpDistance(c))
  {
    if side == Buy then Bracket(tick.ask, tick.ask - SlDistance(c), tick.ask + TpDistance(c))
    else Bracket(tick.bid, tick.bid + SlDistance(c), tick.bid - TpDistance(c))
  }

  /** Every bracket risks one unit to make two. */
  lemma RewardIsTwiceRisk(side: Side, tick: Gateway.Tick, c: AssetClass)
    ensures var b := Place(side, tick, c);
      if side == Buy then b.tp - b.price == 2.0 * (b.price - b.sl)
      else b.price - b.tp == 2.0 * (b.sl - b.price)
  {
  }

  /** `"BUY" in analysis.signal`: the buy family goes long, anything else short. */
  function SideOf(s: Analyst.Signal): (side: Side)
    ensures side == Buy <==> s.IsBuyFamily()
  {
    Analyst.FamilyMatchesName(s);
    if Contains(s.Name(), "BUY") then Buy else Sell
  }

  // ---------------------------------------------------------------------
  // Margin and sizing
  // ---------------------------------------------------------------------

  /** The balance and free margin the worker sizes with; 10000 each when the account is unavailable. */
  function Funds(account: Option<Gateway.Account>): (f: (real, real))
    ensures account.None? ==> f == (10000.0, 10000.0)
    ensures account.Some? ==> f == (account.value.balance, account.value.freeMargin)
  {
    match account
    case None => (10000.0, 10000.0)
    case Some(a) => (a.balance, a.freeMargin)
  }

  /** Trading requires free margin of at least 15% of the balance. */
  predicate MarginOk(account: Option<Gateway.Account>)
  {
    Funds(account).1 >= Funds(account).0 * 0.15
  }

  /** Without account data the worker proceeds, on the 10000/10000 defaults. */
  lemma MissingAccountPassesMargin()
    ensures MarginOk(None)
  {
  }

  /** Share of the balance put at risk: 1% for gold, 2% otherwise. */
  function RiskFraction(c: AssetClass): (f: real)
    ensures f == (if c == Metal then 0.01 else 0.02)
  {
    if c == Metal then 0.01 else 0.02
  }

  /** Account currency lost per lot at the stop: the stop distance times 100, 1000 or 100000. */
  function CapitalPerLot(c: AssetClass): real
  {
    match c
    case Metal => SlDistance(c) * 100.0
    case Yen => SlDistance(c) * 1000.0
    case OtherFx => SlDistance(c) * 100000.0
  }

  /** The contract-size multipliers and stop distances balance out: every class risks 500 per lot. */
  lemma CapitalPerLotIsUniform(c: AssetClass)
    ensures CapitalPerLot(c) == 500.0
  {
  }

  /** Smallest lot the sizing allows: 0.20 for gold, 0.30 otherwise. */
  function MinLot(c: AssetClass): (m: real)
    ensures m == (if c == Metal then 0.20 else 0.30)
  {
    if c == Metal then 0.20 else 0.30
  }

  /**
    Fractional sizing: the risk capital over the capital per lot, rounded to
    two decimals by `round2` (Python's `round(x, 2)`), floored at the class
    minimum.
   */
  function LotSize(c: AssetClass, balance: real, round2: real -> real): (lot: real)
    ensures lot >= MinLot(c)
    ensures lot == MinLot(c) || lot == round2(balance * RiskFraction(c) / CapitalPerLot(c))
    ensures round2(balance * RiskFraction(c) / CapitalPerLot(c)) >= MinLot(c) ==>
              lot == round2(balance * RiskFraction(c) / CapitalPerLot(c))
  {
    var calculated := round2(balance * RiskFraction(c) / CapitalPerLot(c));
    if MinLot(c) >= calculated then MinLot(c) else calculated
  }

  /** With a monotone rounding, a larger balance never gives a smaller lot. */
  lemma LotSizeMonotone(c: AssetClass, b1: real, b2: real, round2: real -> real)
    requires b1 <= b2
    requires round2(b1 * RiskFraction(c) / CapitalPerLot(c)) <= round2(b2 * RiskFraction(c) / CapitalPerLot(c))
    ensures LotSize(c, b1, round2) <= LotSize(c, b2, round2)
  {
  }

  /** Gold on a 5000 balance sizes to 0.1 lots, which the floor lifts to 0.20. */
  lemma ScenarioSmallGoldAccount(round2: real -> real)
    requires round2(0.1) == 0.1
    ensures LotSize(Metal, 5000.0, round2) == 0.20
  {
  }

  // ---------------------------------------------------------------------
  // The worker
  // ---------------------------------------------------------------------

  datatype Outcome =
    | NoTick                       // no live quote: the worker returns
    | MarginShortfall              // free margin under 15% of the balance
    | Executed(ticket: int)        // the gateway reported success
    | Rejected(message: Gateway.Message)  // the gateway reported failure
    | Crashed                      // the worker raised; the exception is logged

  /**
    The intended worker for a signal on `symbol`. `tick` is the live quote,
    `account` the account data, `normalize` the price normalisation, `round2`
    the two-decimal rounding, and `trade` the gateway's `execute_trade`.
    Returns the trade placed (if any) with the outcome.
   */
  function Execute(symbol: string, signal: Analyst.Signal, tick: Option<Gateway.Tick>,
                   account: Option<Gateway.Account>, normalize: (string, real) -> real,
                   round2: real -> real, trade: Gateway.TradeIntent -> Gateway.TradeResult)
    : (r: (Option<Gateway.TradeIntent>, Outcome))
    ensures tick.None? ==> r == (None, NoTick)
    ensures r.1 == MarginShortfall <==> tick.Some? && !MarginOk(account)
    ensures r.0.Some? <==> tick.Some? && MarginOk(account)
    ensures r.0.Some? ==>
      var t := r.0.value;
      var b := Place(SideOf(signal), tick.value, ClassOf(symbol));
      && t.symbol == symbol && t.side == SideOf(signal)
      && t.sl == normalize(symbol, b.sl) && t.tp == normalize(symbol, b.tp)
      && t.lot == LotSize(ClassOf(symbol), Funds(account).0, round2)
      && (r.1.Executed? <==> trade(t).success)
      && (r.1.Rejected? <==> !trade(t).success)
      && (r.1.Rejected? ==> r.1.message == trade(t).message)
    ensures r.1 != Crashed
  {
    match tick
    case None => (None, NoTick)
    case Some(q) =>
      var side := SideOf(signal);
      var c := ClassOf(symbol);
      var b := Place(side, q, c);
      var sl := normalize(symbol, b.sl);
      var tp := normalize(symbol, b.tp);
      if !MarginOk(account) then (None, MarginShortfall)
      else
        var t := Gateway.TradeIntent(symbol, side, LotSize(c, Funds(account).0, round2), sl, tp);
        var res := trade(t);
        if res.success then (Some(t), Executed(if res.ticket.Some? then res.ticket.value else 0))
        else (Some(t), Rejected(res.message))
  }

  /**
    The worker as written: with a live quote it reaches the missing
    `normalize_price` and raises, before reading the account or sending
    anything.
   */
  function RunAsWritten(symbol: string, signal: Analyst.Signal, tick: Option<Gateway.Tick>,
                        account: Option<Gateway.Account>): (r: (Option<Gateway.TradeIntent>, Outcome))
    ensures r.0.None?
    ensures r.1 == NoTick <==> tick.None?
    ensures r.1 == Crashed <==> tick.Some?
  {
    match tick
    case None => (None, NoTick)
    case Some(_) => (None, Crashed)
  }

  /**
    The two disagree on every input where the intended worker would trade:
    the written one never places an order.
   */
  lemma AsWrittenNeverTrades(symbol: string, signal: Analyst.Signal, tick: Option<Gateway.Tick>,
                             account: Option<Gateway.Account>, normalize: (string, real) -> real,
                             round2: real -> real, trade: Gateway.TradeIntent -> Gateway.TradeResult)
    requires tick.Some? && MarginOk(account)
    requires trade(Execute(symbol, signal, tick, account, normalize, round2, trade).0.value).success
    ensures Execute(symbol, signal, tick, account, normalize, round2, trade).1.Executed?
    ensures RunAsWritten(symbol, signal, tick, account) == (None, Crashed)
  {
  }

  /** A concrete case: a EURUSD buy with a quote and a healthy account trades when corrected and crashes as written. */
  lemma ScenarioEurusdBuy()
    ensures var tick := Some(Gateway.Tick(1.1000, 1.1002));
      var account := Some(Gateway.Account(10000.0, 10000.0, 0.0, 0.0, 9000.0));
      var normalize := (s: string, p: real) => p;
      var round2 := (x: real) => x;
      var trade := (t: Gateway.TradeIntent) => Gateway.TradeResult(true, Gateway.Opened(t.symbol), Some(7));
      && Execute("EURUSD", Analyst.Buy, tick, account, normalize, round2, trade)
           == (Some(Gateway.TradeIntent("EURUSD", Buy, 0.4, 1.0952, 1.1102)), Executed(7))
      && RunAsWritten("EURUSD", Analyst.Buy, tick, account) == (None, Crashed)
  {
    ClassOfWatchedSymbols();
    var round2 := (x: real) => x;
    assert SideOf(Analyst.Buy) == Buy;
    assert Place(Buy, Gateway.Tick(1.1000, 1.1002), OtherFx) == Bracket(1.1002, 1.0952, 1.1102);
    assert LotSize(OtherFx, 10000.0, round2) == 0.4;
  }

  // ---------------------------------------------------------------------
  // Reservations (`execution_lock`)
  // ---------------------------------------------------------------------

  /** `execute_signal`'s guard and reservation: a reserved symbol is refused; otherwise it is added. */
  function Reserve(reserved: set<string>, symbol: string): (r: (set<string>, bool))
    ensures r.1 <==> symbol !in reserved
    ensures r.0 == reserved + {symbol}
    ensures symbol in r.0
  {
    if symbol in reserved then (reserved, false) else (reserved + {symbol}, true)
  }

  /** The worker's `finally`: the symbol is discarded whatever happened. */
  function Release(reserved: set<string>, symbol: string): (r: set<string>)
    ensures symbol !in r
    ensures forall s :: s in reserved && s != symbol ==> s in r
    ensures r <= reserved
  {
    reserved - {symbol}
  }

  /** Reserving a free symbol and then releasing it restores the reservation set. */
  lemma ReserveReleaseRestores(reserved: set<string>, symbol: string)
    requires symbol !in reserved
    ensures Release(Reserve(reserved, symbol).0, symbol) == reserved
  {
  }

  /** No symbol can be dispatched twice before its worker finishes. */
  lemma NoDoubleDispatch(reserved: set<string>, symbol: string)
    requires Reserve(reserved, symbol).1
    ensures !Reserve(Reserve(reserved, symbol).0, symbol).1
  {
  }
}

=== FILE: gateway.dfy ===
/**
  The broker gateway (`MT5Gateway` in mt5_interface.py), reduced to the logic
  it adds on top of the MetaTrader 5 terminal:
  - the alias cache from short names ("EURUSD") to broker names
    ("EURUSD.a", "EURUSD_i"), and the lookup over it;
  - the order request built by `execute_trade` and the mapping of the
    terminal's reply to a result;
  - the two-attempt close in `close_position`;
  - the filter that turns the raw deal history into realised deals.
  The terminal itself (`order_send`, `symbol_info`, `symbols_get`, ...) is
  represented by its answers, passed in as values or as a function.
 */
module Gateway {
  import opened Common
  import opened Strings

  // ---------------------------------------------------------------------
  // Alias cache
  // ---------------------------------------------------------------------

  datatype Entry = Entry(key: string, value: string)

  /** A Python dict from alias to broker symbol, as its entries in insertion order. */
  type SymbolMap = seq<Entry>

  ghost predicate KeysUnique(m: SymbolMap)
  {
    forall i, j :: 0 <= i < j < |m| ==> m[i].key != m[j].key
  }

  /** `m[k]` if `k in m`, else None. */
  function Lookup(m: SymbolMap, k: string): (r: Option<string>)
    ensures r.None? <==> forall i :: 0 <= i < |m| ==> m[i].key != k
    ensures r.Some? ==> Entry(k, r.value) in m
  {
    if |m| == 0 then None
    else if m[0].key == k then Some(m[0].value)
    else Lookup(m[1..], k)
  }

  /** `m[k] = v`: overwrites in place when `k` is present, appends otherwise. */
  function Put(m: SymbolMap, k: string, v: string): (r: SymbolMap)
    ensures forall e :: e in r ==> e in m || e == Entry(k, v)
    ensures Lookup(m, k).Some? ==> |r| == |m|
    ensures Lookup(m, k).None? ==> |r| == |m| + 1
    ensures forall i :: 0 <= i < |m| ==> r[i].key == m[i].key
    ensures |r| == |m| + 1 ==> r[|m|] == Entry(k, v)
  {
    if |m| == 0 then [Entry(k, v)]
    else if m[0].key == k then [Entry(k, v)] + m[1..]
    else [m[0]] + Put(m[1..], k, v)
  }

  /** After `m[k] = v` the key reads back as `v` and every other key reads as before. */
  lemma {:induction false} PutLookup(m: SymbolMap, k: string, v: string)
    ensures Lookup(Put(m, k, v), k) == Some(v)
    ensures forall k' :: k' != k ==> Lookup(Put(m, k, v), k') == Lookup(m, k')
    decreases |m|
  {
    if |m| > 0 {
      var r := Put(m, k, v);
      if m[0].key == k {
        assert r[1..] == m[1..];
      } else {
        PutLookup(m[1..], k, v);
        assert r[1..] == Put(m[1..], k, v);
      }
    }
  }

  /** `if k not in m: m[k] = v`. */
  function PutIfAbsent(m: SymbolMap, k: string, v: string): (r: SymbolMap)
    ensures Lookup(m, k).Some? ==> r == m
    ensures Lookup(r, k) == (if Lookup(m, k).Some? then Lookup(m, k) else Some(v))
    ensures forall k' :: k' != k ==> Lookup(r, k') == Lookup(m, k')
    ensures forall e :: e in r ==> e in m || e == Entry(k, v)
    ensures KeysUnique(m) ==> KeysUnique(r)
  {
    PutKeepsKeysUnique(m, k, v);
    PutLookup(m, k, v);
    if Lookup(m, k).Some? then m else Put(m, k, v)
  }

  /** Writing a key keeps the dict's keys distinct. */
  lemma PutKeepsKeysUnique(m: SymbolMap, k: string, v: string)
    ensures KeysUnique(m) ==> KeysUnique(Put(m, k, v))
  {
    var r := Put(m, k, v);
    if KeysUnique(m) && |r| == |m| + 1 {
      assert forall i :: 0 <= i < |m| ==> r[i].key != k;
    }
  }

  /** The eight base symbols the cache indexes. */
  const VipBases: seq<string> :=
    ["EURUSD", "GBPUSD", "USDJPY", "USDCAD", "USDCHF", "AUDUSD", "NZDUSD", "XAUUSD"]

  /** `any(vip in name for vip in vip_bases)`. */
  predicate IsVip(name: string)
  {
    exists b :: b in VipBases && Contains(name, b)
  }

  /** `name.split('.')[0].split('_')[0]`: the name up to its first '.' or '_'. */
  function CleanAlias(name: string): (a: string)
    ensures a <= name
    ensures '.' !in a && '_' !in a
    ensures |a| < |name| ==> name[|a|] == '.' || name[|a|] == '_'
  {
    var head := BeforeFirst(name, '.');
    var a := BeforeFirst(head, '_');
    assert |a| < |head| ==> name[|a|] == head[|a|];
    a
  }

  /** `re.sub(r'[^a-zA-Z0-9]', '', name)`. */
  function SimpleAlias(name: string): string
  {
    KeepAlnum(name)
  }

  /** The three writes made for one VIP symbol: its own name (unconditionally), then its two aliases (only if absent). */
  function IndexSymbol(m: SymbolMap, name: string): SymbolMap
  {
    var m1 := Put(m, name, name);
    var m2 := PutIfAbsent(m1, CleanAlias(name), name);
    PutIfAbsent(m2, SimpleAlias(name), name)
  }

  /** The loop of `_build_symbol_cache` over the terminal's symbols, in order. */
  function IndexAll(m: SymbolMap, names: seq<string>): SymbolMap
    decreases |names|
  {
    if |names| == 0 then m
    else IndexAll(if IsVip(names[0]) then IndexSymbol(m, names[0]) else m, names[1..])
  }

  /** `_build_symbol_cache`: `symbols` is the terminal's answer to `symbols_get()` (None when it fails). */
  function BuildCache(m: SymbolMap, symbols: Option<seq<string>>): (r: SymbolMap)
    ensures |m| > 0 ==> r == m
    ensures symbols.None? ==> r == m
    ensures KeysUnique(m) ==> KeysUnique(r)
  {
    if |m| > 0 then m
    else match symbols
      case None => m
      case Some(names) => if |names| == 0 then m else IndexAllKeepsKeysUnique(m, names); IndexAll(m, names)
  }

  lemma {:induction false} IndexAllKeepsKeysUnique(m: SymbolMap, names: seq<string>)
    ensures KeysUnique(m) ==> KeysUnique(IndexAll(m, names))
    decreases |names|
  {
    if |names| > 0 {
      if IsVip(names[0]) {
        IndexSymbolKeepsKeysUnique(m, names[0]);
      }
      IndexAllKeepsKeysUnique(if IsVip(names[0]) then IndexSymbol(m, names[0]) else m, names[1..]);
    }
  }

  lemma IndexSymbolKeepsKeysUnique(m: SymbolMap, name: string)
    ensures KeysUnique(m) ==> KeysUnique(IndexSymbol(m, name))
  {
    var m1 := Put(m, name, name);
    PutKeepsKeysUnique(m, name, name);
    var m2 := PutIfAbsent(m1, CleanAlias(name), name);
    assert KeysUnique(m) ==> KeysUnique(m2);
  }

  /** Indexing a symbol maps its name to itself and leaves every key already present, other than the name, alone. */
  lemma IndexSymbolLookup(m: SymbolMap, name: string)
    ensures Lookup(IndexSymbol(m, name), name) == Some(name)
    ensures forall k :: k != name && Lookup(m, k).Some? ==> Lookup(IndexSymbol(m, name), k) == Lookup(m, k)
  {
    PutLookup(m, name, name);
  }

  /** Indexing one symbol never changes the value of any key other than the symbol's own name. */
  lemma AliasesNeverOverwritten(m: SymbolMap, name: string, k: string)
    requires k != name && Lookup(m, k).Some?
    ensures Lookup(IndexSymbol(m, name), k) == Lookup(m, k)
  {
    IndexSymbolLookup(m, name);
  }

  /** Once a key maps to itself, indexing further symbols keeps it so. */
  lemma {:induction false} SelfMappingPersists(m: SymbolMap, names: seq<string>, n: string)
    requires Lookup(m, n) == Some(n)
    ensures Lookup(IndexAll(m, names), n) == Some(n)
    decreases |names|
  {
    if |names| > 0 {
      var m' := if IsVip(names[0]) then IndexSymbol(m, names[0]) else m;
      IndexSymbolLookup(m, names[0]);
      SelfMappingPersists(m', names[1..], n);
    }
  }

  /** After the build, every indexed broker name maps to itself, whatever aliases other symbols produced. */
  lemma {:induction false} IndexedNamesMapToThemselves(m: SymbolMap, names: seq<string>)
    ensures forall n :: n in names && IsVip(n) ==> Lookup(IndexAll(m, names), n) == Some(n)
    decreases |names|
  {
    if |names| > 0 {
      var m' := if IsVip(names[0]) then IndexSymbol(m, names[0]) else m;
      IndexedNamesMapToThemselves(m', names[1..]);
      IndexSymbolLookup(m, names[0]);
      if IsVip(names[0]) {
        SelfMappingPersists(m', names[1..], names[0]);
      }
    }
  }

  /** What a cache entry can look like: a VIP broker name under its own name or one of its two aliases. */
  ghost predicate WellIndexed(e: Entry, names: seq<string>)
  {
    && e.value in names
    && IsVip(e.value)
    && (e.key == e.value || e.key == CleanAlias(e.value) || e.key == SimpleAlias(e.value))
  }

  /** Building from an empty map indexes only VIP names, each under its name or an alias. */
  lemma {:induction false} IndexAllOnlyVip(m: SymbolMap, done: seq<string>, names: seq<string>)
    requires forall e :: e in m ==> WellIndexed(e, done)
    ensures forall e :: e in IndexAll(m, names) ==> WellIndexed(e, done + names)
    decreases |names|
  {
    if |names| == 0 {
      assert done + names == done;
    } else {
      var n := names[0];
      assert done + [n] + names[1..] == done + names;
      IndexSymbolWellIndexed(m, done, n);
      if IsVip(n) {
        IndexAllOnlyVip(IndexSymbol(m, n), done + [n], names[1..]);
      } else {
        IndexAllOnlyVip(m, done + [n], names[1..]);
      }
    }
  }

  lemma IndexSymbolWellIndexed(m: SymbolMap, done: seq<string>, n: string)
    requires forall e :: e in m ==> WellIndexed(e, done)
    ensures forall e :: e in m ==> WellIndexed(e, done + [n])
    ensures IsVip(n) ==> forall e :: e in IndexSymbol(m, n) ==> WellIndexed(e, done + [n])
  {
    forall e | e in m
      ensures WellIndexed(e, done + [n])
    {
      assert e.value in done + [n];
    }
    assert n in done + [n];
    if IsVip(n) {
      var m1 := Put(m, n, n);
      var m2 := PutIfAbsent(m1, CleanAlias(n), n);
      assert WellIndexed(Entry(n, n), done + [n]);
      assert WellIndexed(Entry(CleanAlias(n), n), done + [n]);
      assert WellIndexed(Entry(SimpleAlias(n), n), done + [n]);
      assert forall e :: e in m1 ==> WellIndexed(e, done + [n]);
      assert forall e :: e in m2 ==> WellIndexed(e, done + [n]);
    }
  }

  /** `k in target or target in k`. */
  predicate Related(k: string, target: string)
  {
    Contains(target, k) || Contains(k, target)
  }

  /** The fallback scan of `find_symbol` from entry `i` on: the value of the first key, in insertion order, related to `target`. */
  function FirstRelatedFrom(m: SymbolMap, target: string, i: nat): (r: Option<string>)
    requires i <= |m|
    ensures r.None? <==> forall j :: i <= j < |m| ==> !Related(m[j].key, target)
    ensures r.Some? ==> exists k :: i <= k < |m| && Related(m[k].key, target) && m[k].value == r.value
                                    && forall j :: i <= j < k ==> !Related(m[j].key, target)
    decreases |m| - i
  {
    if i == |m| then None
    else if Related(m[i].key, target) then Some(m[i].value)
    else FirstRelatedFrom(m, target, i + 1)
  }

  function FirstRelated(m: SymbolMap, target: string): Option<string>
  {
    FirstRelatedFrom(m, target, 0)
  }

  /** `find_symbol(target)`: builds the cache first when it is empty, then tries an exact key, then the first related key. */
  function FindSymbol(m: SymbolMap, symbols: Option<seq<string>>, target: string): (r: (SymbolMap, Option<string>))
    ensures r.0 == (if |m| == 0 then BuildCache(m, symbols) else m)
    ensures Lookup(r.0, target).Some? ==> r.1 == Lookup(r.0, target)
    ensures Lookup(r.0, target).None? ==> r.1 == FirstRelated(r.0, target)
    ensures r.1.None? <==> forall i :: 0 <= i < |r.0| ==> !Related(r.0[i].key, target)
    ensures r.1.Some? ==> exists i :: 0 <= i < |r.0| && r.0[i].value == r.1.value
  {
    var m' := if |m| == 0 then BuildCache(m, symbols) else m;
    var hit := Lookup(m', target);
    if hit.Some? then
      assert Entry(target, hit.value) in m';
      var i :| 0 <= i < |m'| && m'[i] == Entry(target, hit.value);
      assert Contains(target, target) by { assert target[..|target|] == target; }
      (m', hit)
    else (m', FirstRelated(m', target))
  }

  /** A freshly built cache resolves every VIP broker name the terminal listed to itself. */
  lemma LookupOfIndexedName(names: seq<string>, n: string)
    requires |names| > 0 && n in names && IsVip(n)
    ensures FindSymbol([], Some(names), n).1 == Some(n)
  {
    IndexedNamesMapToThemselves([], names);
  }

  // ---------------------------------------------------------------------
  // Orders
  // ---------------------------------------------------------------------

  const RetcodeDone := 10009
  const RetcodeInvalid := 10013
  const RetcodeMarketClosed := 10018

  datatype Filling = Fok | Ioc

  /** `FOK if (filling_mode & 1) else IOC`; Dafny's `%` agrees with Python's `& 1` on negative numbers too. */
  function FillingFor(mode: int): (f: Filling)
    ensures f == Fok <==> mode % 2 == 1
  {
    if mode % 2 == 1 then Fok else Ioc
  }

  datatype Tick = Tick(bid: real, ask: real)

  /** The fields of the terminal's `symbol_info` the core reads (`get_symbol_properties`). */
  datatype SymbolInfo = SymbolInfo(point: real, ask: real, bid: real, stopsLevel: int, fillingMode: int)

  /** An open position as `get_open_positions` reports it. */
  datatype Position = Position(ticket: int, symbol: string, profit: real, volume: real, side: Side,
                               openPrice: real, sl: real, tp: real)

  /** `get_account_info`. */
  datatype Account = Account(balance: real, equity: real, profit: real, marginLevel: real, freeMargin: real)

  datatype OrderRequest =
    | OpenOrder(symbol: string, volume: real, side: Side, price: real, sl: real, tp: real, filling: Filling)
    | CloseOrder(position: int, symbol: string, volume: real, side: Side, price: real, filling: Filling)

  /** What `order_send` returns when it returns something. */
  datatype Reply = Reply(retcode: int, comment: string, order: int)

  datatype Message =
    | Opened(symbol: string)
    | OrderSendFailed
    | MarketClosed
    | InvalidRequest
    | BrokerError(comment: string, retcode: int)
    | SymbolNotFound
    | SymbolInfoFailed

  datatype TradeResult = TradeResult(success: bool, message: Message, ticket: Option<int>)

  /** A call `execute_trade(symbol, action, lot, sl, tp)`. */
  datatype TradeIntent = TradeIntent(symbol: string, side: Side, lot: real, sl: real, tp: real)

  /** The mapping at the end of `execute_trade` from the terminal's reply to a result. */
  function ResultOf(reply: Option<Reply>, realSymbol: string): (r: TradeResult)
    ensures r.success <==> reply.Some? && reply.value.retcode == RetcodeDone
    ensures r.success ==> r.ticket == Some(reply.value.order) && r.message == Opened(realSymbol)
    ensures !r.success ==> r.ticket.None?
    ensures reply.None? ==> r.message == OrderSendFailed
    ensures r.message == MarketClosed <==> reply.Some? && reply.value.retcode == RetcodeMarketClosed
    ensures r.message == InvalidRequest <==> reply.Some? && reply.value.retcode == RetcodeInvalid
    ensures r.message.BrokerError? <==>
              reply.Some? && reply.value.retcode !in {RetcodeDone, RetcodeMarketClosed, RetcodeInvalid}
    ensures r.message.BrokerError? ==> r.message.retcode == reply.value.retcode
  {
    match reply
    case None => TradeResult(false, OrderSendFailed, None)
    case Some(res) =>
      if res.retcode == RetcodeDone then TradeResult(true, Opened(realSymbol), Some(res.order))
      else if res.retcode == RetcodeMarketClosed then TradeResult(false, MarketClosed, None)
      else if res.retcode == RetcodeInvalid then TradeResult(false, InvalidRequest, None)
      else TradeResult(false, BrokerError(res.comment, res.retcode), None)
  }

  /** The request `execute_trade` sends: market price on the order's side, filling mode from the symbol. */
  function OpenRequest(realSymbol: string, info: SymbolInfo, t: TradeIntent): (q: OrderRequest)
    ensures q.OpenOrder? && q.symbol == realSymbol && q.side == t.side
    ensures q.price == (if t.side == Buy then info.ask else info.bid)
    ensures q.filling == Fok <==> info.fillingMode % 2 == 1
    ensures q.volume == t.lot && q.sl == t.sl && q.tp == t.tp
  {
    OpenOrder(realSymbol, t.lot, t.side, if t.side == Buy then info.ask else info.bid,
              t.sl, t.tp, FillingFor(info.fillingMode))
  }

  /**
    `execute_trade`: `realSymbol` is what `find_symbol` resolved, `info` the
    terminal's `symbol_info`, and `send` stands for `order_send`. Returns the
    request sent (if any) with the result.
   */
  function ExecuteTrade(realSymbol: Option<string>, info: Option<SymbolInfo>, t: TradeIntent,
                        send: OrderRequest -> Option<Reply>): (r: (Option<OrderRequest>, TradeResult))
    ensures realSymbol.None? ==> r == (None, TradeResult(false, SymbolNotFound, None))
    ensures realSymbol.Some? && info.None? ==> r == (None, TradeResult(false, SymbolInfoFailed, None))
    ensures r.0.Some? <==> realSymbol.Some? && info.Some?
    ensures r.0.Some? ==> (r.0.value == OpenRequest(realSymbol.value, info.value, t)
                           && r.1 == ResultOf(send(r.0.value), realSymbol.value))
  {
    if realSymbol.None? then (None, TradeResult(false, SymbolNotFound, None))
    else if info.None? then (None, TradeResult(false, SymbolInfoFailed, None))
    else
      var q := OpenRequest(realSymbol.value, info.value, t);
      (Some(q), ResultOf(send(q), realSymbol.value))
  }

  predicate Done(reply: Option<Reply>)
  {
    reply.Some? && reply.value.retcode == RetcodeDone
  }

  /** The closing request for a position in a given filling mode: opposite side, priced at bid for a long and ask for a short. */
  function CloseRequest(ticket: int, realSymbol: string, volume: real, side: Side, tick: Tick, mode: Filling): (q: OrderRequest)
    ensures q.CloseOrder? && q.side == side.Opposite() && q.position == ticket && q.filling == mode
    ensures q.symbol == realSymbol && q.volume == volume
    ensures q.price == (if side == Buy then tick.bid else tick.ask)
  {
    CloseOrder(ticket, realSymbol, volume, side.Opposite(), if side == Buy then tick.bid else tick.ask, mode)
  }

  /**
    `close_position`: tries FOK, then IOC, stopping at the first DONE.
    Returns the requests sent, in order, and whether the close succeeded.
   */
  function ClosePosition(ticket: int, realSymbol: string, volume: real, side: Side, tick: Option<Tick>,
                         send: OrderRequest -> Option<Reply>): (r: (seq<OrderRequest>, bool))
    ensures tick.None? ==> r == ([], false)
    ensures tick.Some? ==> 1 <= |r.0| <= 2 && r.0[0] == CloseRequest(ticket, realSymbol, volume, side, tick.value, Fok)
    ensures tick.Some? && Done(send(r.0[0])) ==> |r.0| == 1
    ensures tick.Some? && !Done(send(r.0[0])) ==>
      |r.0| == 2 && r.0[1] == CloseRequest(ticket, realSymbol, volume, side, tick.value, Ioc)
    ensures forall q :: q in r.0 ==> q.CloseOrder? && q.side == side.Opposite() && q.position == ticket
    ensures r.1 <==> exists q :: q in r.0 && Done(send(q))
    ensures r.1 ==> Done(send(r.0[|r.0| - 1]))
  {
    match tick
    case None => ([], false)
    case Some(t) =>
      var fok := CloseRequest(ticket, realSymbol, volume, side, t, Fok);
      if Done(send(fok)) then ([fok], true)
      else
        var ioc := CloseRequest(ticket, realSymbol, volume, side, t, Ioc);
        ([fok, ioc], Done(send(ioc)))
  }

  // ---------------------------------------------------------------------
  // Deal history
  // ---------------------------------------------------------------------

  /** A deal as the terminal reports it (`entry` 1 = OUT, 2 = INOUT). */
  datatype RawDeal = RawDeal(symbol: string, dealType: int, volume: real, profit: real, entry: int)

  /** A deal as `get_historical_deals` returns it (the time string is not modelled). */
  datatype Deal = Deal(symbol: string, side: Side, volume: real, profit: real)

  /** A deal that closed a position or moved the balance. */
  predicate RealisesProfit(d: RawDeal)
  {
    d.entry == 1 || d.entry == 2 || d.profit != 0.0
  }

  function CleanDeal(d: RawDeal): Deal
  {
    Deal(d.symbol, SideOfCode(d.dealType), d.volume, d.profit)
  }

  /** The filter loop of `get_historical_deals`: keeps, in order, exactly the deals that realise profit. */
  function FilterDeals(ds: seq<RawDeal>): (r: seq<Deal>)
    ensures |r| <= |ds|
    ensures forall i :: 0 <= i < |ds| && RealisesProfit(ds[i]) ==> CleanDeal(ds[i]) in r
    ensures forall d :: d in r ==> exists i :: 0 <= i < |ds| && RealisesProfit(ds[i]) && CleanDeal(ds[i]) == d
  {
    if |ds| == 0 then []
    else
      var rest := FilterDeals(ds[1..]);
      assert forall i :: 1 <= i < |ds| ==> ds[i] == ds[1..][i - 1];
      if RealisesProfit(ds[0]) then [CleanDeal(ds[0])] + rest else rest
  }

  /** `get_historical_deals`: no history (None or empty) gives an empty list. */
  function HistoricalDeals(history: Option<seq<RawDeal>>): (r: seq<Deal>)
    ensures history.None? ==> r == []
    ensures history.Some? ==> r == FilterDeals(history.value)
  {
    match history
    case None => []
    case Some(ds) => FilterDeals(ds)
  }

  /** A single deal is kept, cleaned, exactly when it realises profit. */
  lemma FilterDealsSingle(d: RawDeal)
    ensures FilterDeals([d]) == if RealisesProfit(d) then [CleanDeal(d)] else []
  {
  }

  /**
    The filter works deal by deal: filtering a concatenation concatenates the
    filtered parts. With `FilterDealsSingle` this fixes the order and the
    multiplicity of the cleaned list, which the equity curve sums in order.
   */
  lemma {:induction false} FilterDealsAppend(a: seq<RawDeal>, b: seq<RawDeal>)
    ensures FilterDeals(a + b) == FilterDeals(a) + FilterDeals(b)
    decreases |a|
  {
    if |a| > 0 {
      assert (a + b)[0] == a[0];
      assert (a + b)[1..] == a[1..] + b;
      FilterDealsAppend(a[1..], b);
    } else {
      assert a + b == b;
    }
  }
}

=== FILE: ledger.dfy ===
/**
  Sums over a list of realised deal profits, shared by the `/quant/audit`
  endpoint and the offline performance analysis. Floating-point rounding is
  not modelled: profits are exact reals.
 */
module Ledger {
  import Gateway

  /** The profit column of a list of deals. */
  function Profits(deals: seq<Gateway.Deal>): (p: seq<real>)
    ensures |p| == |deals|
    ensures forall i :: 0 <= i < |deals| ==> p[i] == deals[i].profit
  {
    seq(|deals|, i requires 0 <= i < |deals| => deals[i].profit)
  }

  /** `profits.sum()`, accumulated left to right like `cumsum`. */
  function Sum(p: seq<real>): real
  {
    if |p| == 0 then 0.0 else Sum(p[..|p| - 1]) + p[|p| - 1]
  }

  /** Number of deals with a strictly positive profit (`len(df[df['profit'] > 0])`). */
  function WinCount(p: seq<real>): (n: nat)
    ensures n <= |p|
  {
    if |p| == 0 then 0 else WinCount(p[..|p| - 1]) + (if p[|p| - 1] > 0.0 then 1 else 0)
  }

  /** Sum of the strictly positive profits. */
  function GrossProfit(p: seq<real>): (g: real)
    ensures g >= 0.0
    ensures g == 0.0 <==> forall k :: 0 <= k < |p| ==> p[k] <= 0.0
  {
    if |p| == 0 then 0.0
    else GrossProfit(p[..|p| - 1]) + (if p[|p| - 1] > 0.0 then p[|p| - 1] else 0.0)
  }

  /** Sum of the strictly negative profits (a non-positive number). */
  function LossSum(p: seq<real>): (l: real)
    ensures l <= 0.0
    ensures l == 0.0 <==> forall k :: 0 <= k < |p| ==> p[k] >= 0.0
  {
    if |p| == 0 then 0.0
    else LossSum(p[..|p| - 1]) + (if p[|p| - 1] < 0.0 then p[|p| - 1] else 0.0)
  }

  /** `abs(losses['profit'].sum())`. */
  function GrossLoss(p: seq<real>): (g: real)
    ensures g >= 0.0
    ensures g == -LossSum(p)
  {
    var l := LossSum(p);
    if l < 0.0 then -l else l
  }

  /** Net profit splits into gross profit minus gross loss. */
  lemma {:induction false} SumIsGrossDifference(p: seq<real>)
    ensures Sum(p) == GrossProfit(p) - GrossLoss(p)
  {
    if |p| > 0 {
      SumIsGrossDifference(p[..|p| - 1]);
    }
  }

  /** A break-even deal counts towards the number of deals and nothing else. */
  lemma BreakEvenOnlyCounts(p: seq<real>)
    ensures var q := p + [0.0];
      && |q| == |p| + 1
      && WinCount(q) == WinCount(p)
      && GrossProfit(q) == GrossProfit(p)
      && GrossLoss(q) == GrossLoss(p)
      && Sum(q) == Sum(p)
  {
    var q := p + [0.0];
    assert q[..|q| - 1] == p;
  }

  /** The `cumsum` column: element `i` is the sum of the first `i + 1` profits. */
  function RunningSums(p: seq<real>): (c: seq<real>)
    ensures |c| == |p|
    ensures forall i :: 0 <= i < |p| ==> c[i] == Sum(p[..i + 1])
  {
    if |p| == 0 then []
    else
      var prefix := p[..|p| - 1];
      assert p[..|p|] == p;
      assert forall i :: 0 <= i < |prefix| ==> RunningSums(prefix)[i] == Sum(p[..i + 1]) by {
        forall i | 0 <= i < |prefix|
          ensures RunningSums(prefix)[i] == Sum(p[..i + 1])
        {
          assert prefix[..i + 1] == p[..i + 1];
        }
      }
      RunningSums(prefix) + [Sum(p)]
  }

  /** The running sum ends at the total. */
  lemma RunningSumsEndAtTotal(p: seq<real>)
    requires |p| > 0
    ensures RunningSums(p)[|p| - 1] == Sum(p)
  {
    assert p[..|p|] == p;
  }

  /** Running sums grow by exactly one deal's profit per step. */
  lemma RunningSumsStep(p: seq<real>, i: int)
    requires 0 < i < |p|
    ensures RunningSums(p)[i] == RunningSums(p)[i - 1] + p[i]
  {
    assert p[..i + 1][..i] == p[..i];
  }

  /** A count out of a positive total, in percent, lies between 0 and 100. */
  lemma PercentBounds(w: real, t: real)
    requires 0.0 <= w <= t && t > 0.0
    ensures 0.0 <= (w / t) * 100.0 <= 100.0
  {
    var q := w / t;
    assert q * t == w;
  }

  /** The win rate in percent, `wins / total * 100`, lies between 0 and 100. */
  lemma WinRateWithinPercent(p: seq<real>)
    requires |p| > 0
    ensures 0.0 <= (WinCount(p) as real / |p| as real) * 100.0 <= 100.0
  {
    PercentBounds(WinCount(p) as real, |p| as real);
  }
}

=== FILE: news.dfy ===
/**
  The economic-calendar manager (`NewsManager`) and the news guard of
  `process_symbol`. Times are whole seconds on the local clock. The HTTP
  request and the XML parsing are outside the model: a response arrives
  already split into its `<event>` elements, and turning a date and a time
  text into a timestamp is a parameter (`parse`).
 */
module News {
  import opened Common

  /** `timedelta(hours=4)`. */
  const CacheSeconds := 4 * 3600

  /** An XML child element: absent, present without text, or present with text. */
  datatype Field = Missing | Empty | Text(s: string)

  /** The value of `element.text` rendered by an f-string: Python prints a missing text as "None". */
  function Rendered(f: Field): string
    requires !f.Missing?
  {
    if f.Empty? then "None" else f.s
  }

  /** One `<event>` element with the children the manager reads. */
  datatype RawEvent = RawEvent(impact: Field, country: Field, title: Field, date: Field, time: Field)

  /** A stored calendar event. */
  datatype Event = Event(country: string, title: string, impact: string, time: int)

  /** Impacts the manager keeps. */
  predicate Relevant(impact: Field)
  {
    impact == Text("High") || impact == Text("Medium")
  }

  /**
    `event.find(x).text` raises on a missing child: the impact is always read,
    the other four only for relevant events. A raise leaves the parse loop.
   */
  predicate Aborts(r: RawEvent)
  {
    r.impact.Missing? ||
    (Relevant(r.impact) && (r.country.Missing? || r.title.Missing? || r.date.Missing? || r.time.Missing?))
  }

  /** The stored event a raw element becomes, if any: relevant, complete, and with a parsable date. */
  function Convert(r: RawEvent, parse: string -> Option<int>): (e: Option<Event>)
    requires !Aborts(r)
    ensures e.Some? <==> Relevant(r.impact) && parse(Rendered(r.date) + " " + Rendered(r.time)).Some?
    ensures e.Some? ==> e.value.impact == r.impact.s && (e.value.impact == "High" || e.value.impact == "Medium")
  {
    if !Relevant(r.impact) then None
    else
      match parse(Rendered(r.date) + " " + Rendered(r.time))
      case None => None
      case Some(t) => Some(Event(Rendered(r.country), Rendered(r.title), r.impact.s, t))
  }

  /**
    The parse loop of `fetch_calendar`: the stored events in document order,
    and whether the loop reached the end (false when an element raised part
    way, leaving the events found so far).
   */
  function ParseEvents(raw: seq<RawEvent>, parse: string -> Option<int>): (r: (seq<Event>, bool))
    ensures r.1 <==> forall i :: 0 <= i < |raw| ==> !Aborts(raw[i])
    ensures |r.0| <= |raw|
    ensures forall e :: e in r.0 ==> e.impact == "High" || e.impact == "Medium"
    ensures forall e :: e in r.0 ==> exists i :: 0 <= i < |raw| && !Aborts(raw[i]) && Convert(raw[i], parse) == Some(e)
    decreases |raw|
  {
    if |raw| == 0 then ([], true)
    else if Aborts(raw[0]) then ([], false)
    else
      var rest := ParseEvents(raw[1..], parse);
      assert forall i :: 1 <= i < |raw| ==> raw[i] == raw[1..][i - 1];
      match Convert(raw[0], parse)
      case None => rest
      case Some(e) => ([e] + rest.0, rest.1)
  }

  /** One element: a raising element stops the parse with nothing stored; any other stores its conversion, if any. */
  lemma ParseEventsSingle(x: RawEvent, parse: string -> Option<int>)
    ensures Aborts(x) ==> ParseEvents([x], parse) == ([], false)
    ensures !Aborts(x) ==>
      ParseEvents([x], parse) == (if Convert(x, parse).Some? then [Convert(x, parse).value] else [], true)
  {
    if !Aborts(x) {
      assert [x][1..] == [];
      assert ParseEvents([x][1..], parse) == ([], true);
      ParseEventsUnfold([x], parse);
      if Convert(x, parse).Some? {
        assert [Convert(x, parse).value] + [] == [Convert(x, parse).value];
      }
    }
  }

  /**
    The parse reads the document front to back: once a prefix has been read
    without a raise, what follows is appended in document order. With
    `ParseEventsSingle` and `ParseEventsStopsAtRaise` this fixes the stored
    list exactly.
   */
  lemma {:induction false} ParseEventsAppend(a: seq<RawEvent>, b: seq<RawEvent>, parse: string -> Option<int>)
    requires forall i :: 0 <= i < |a| ==> !Aborts(a[i])
    ensures ParseEvents(a + b, parse) == (ParseEvents(a, parse).0 + ParseEvents(b, parse).0, ParseEvents(b, parse).1)
    decreases |a|
  {
    if |a| == 0 {
      assert a + b == b;
      var back := ParseEvents(b, parse);
      assert ParseEvents(a, parse).0 + back.0 == back.0;
      assert back == (back.0, back.1);
    } else {
      var ab := a + b;
      assert ab[0] == a[0] && ab[1..] == a[1..] + b;
      assert forall i :: 0 <= i < |a[1..]| ==> !Aborts(a[1..][i]) by {
        forall i | 0 <= i < |a[1..]| ensures !Aborts(a[1..][i]) {
          assert a[1..][i] == a[i + 1];
        }
      }
      ParseEventsAppend(a[1..], b, parse);
      var front, back := ParseEvents(a[1..], parse), ParseEvents(b, parse);
      assert front == (front.0, front.1);
      assert ParseEvents(ab[1..], parse) == (front.0 + back.0, back.1);
      ParseEventsUnfold(ab, parse);
      ParseEventsUnfold(a, parse);
      ParseConsAppend(a[0], front.0, back.0, front.1, back.1, parse);
    }
  }

  /** One turn of the parse loop on a non-raising first element. */
  lemma ParseEventsUnfold(raw: seq<RawEvent>, parse: string -> Option<int>)
    requires |raw| > 0 && !Aborts(raw[0])
    ensures ParseEvents(raw, parse) == ParseCons(raw[0], ParseEvents(raw[1..], parse), parse)
  {
  }

  /** Putting one element's conversion in front commutes with appending further events. */
  lemma ParseConsAppend(x: RawEvent, front: seq<Event>, back: seq<Event>, c: bool, d: bool, parse: string -> Option<int>)
    requires !Aborts(x)
    ensures ParseCons(x, (front + back, d), parse) == (ParseCons(x, (front, c), parse).0 + back, d)
  {
    if Convert(x, parse).Some? {
      assert [Convert(x, parse).value] + (front + back) == ([Convert(x, parse).value] + front) + back;
    }
  }

  /** A raise in the prefix ends the parse there: nothing after it is read. */
  lemma {:induction false} ParseEventsStopsAtRaise(a: seq<RawEvent>, b: seq<RawEvent>, parse: string -> Option<int>)
    requires exists i :: 0 <= i < |a| && Aborts(a[i])
    ensures ParseEvents(a + b, parse) == ParseEvents(a, parse)
    decreases |a|
  {
    var ab := a + b;
    assert ab[0] == a[0];
    if !Aborts(a[0]) {
      var i :| 0 <= i < |a| && Aborts(a[i]);
      assert Aborts(a[1..][i - 1]);
      assert ab[1..] == a[1..] + b;
      ParseEventsStopsAtRaise(a[1..], b, parse);
      ParseEventsUnfold(ab, parse);
      ParseEventsUnfold(a, parse);
    }
  }

  /** One step of the parse loop on a non-raising element, in front of the rest's result. */
  function ParseCons(x: RawEvent, rest: (seq<Event>, bool), parse: string -> Option<int>): (seq<Event>, bool)
    requires !Aborts(x)
  {
    match Convert(x, parse)
    case None => rest
    case Some(e) => ([e] + rest.0, rest.1)
  }

  /** Every relevant, complete element with a parsable date before the first raise is stored. */
  lemma {:induction false} ParseKeepsParsable(raw: seq<RawEvent>, parse: string -> Option<int>, i: int)
    requires 0 <= i < |raw|
    requires forall j :: 0 <= j <= i ==> !Aborts(raw[j])
    requires Convert(raw[i], parse).Some?
    ensures Convert(raw[i], parse).value in ParseEvents(raw, parse).0
    decreases |raw|
  {
    if i > 0 {
      assert forall j :: 0 <= j <= i - 1 ==> raw[1..][j] == raw[j + 1];
      ParseKeepsParsable(raw[1..], parse, i - 1);
    }
  }

  /** The manager's state: the stored events and the time of the last complete fetch. */
  datatype Manager = Manager(events: seq<Event>, lastFetch: Option<int>)

  const Fresh := Manager([], None)

  /** The outcome of the HTTP request: an exception, or a status with the document's events (None if the XML is malformed). */
  datatype Response = NetworkError | Http(status: int, body: Option<seq<RawEvent>>)

  /** The cache is fresh when a fetch completed less than four hours ago. */
  predicate CacheFresh(m: Manager, now: int)
  {
    m.lastFetch.Some? && now - m.lastFetch.value < CacheSeconds
  }

  /**
    `fetch_calendar` at time `now` given the response the request would
    produce. On a fresh cache nothing happens. The list is replaced only on a
    200 with a well-formed document; the fetch time advances only when the
    whole document was read.
   */
  function FetchCalendar(m: Manager, now: int, resp: Response, parse: string -> Option<int>): (r: Manager)
    ensures CacheFresh(m, now) ==> r == m
    ensures (resp.NetworkError? || resp.status != 200 || resp.body.None?) ==> r == m
    ensures r.lastFetch != m.lastFetch ==>
      && !CacheFresh(m, now) && resp.Http? && resp.status == 200 && resp.body.Some?
      && r.lastFetch == Some(now)
      && r.events == ParseEvents(resp.body.value, parse).0
    ensures r != m ==> resp.Http? && resp.status == 200 && resp.body.Some?
    ensures !CacheFresh(m, now) && resp.Http? && resp.status == 200 && resp.body.Some? ==>
      && r.events == ParseEvents(resp.body.value, parse).0
      && r.lastFetch == (if ParseEvents(resp.body.value, parse).1 then Some(now) else m.lastFetch)
    ensures forall e :: e in r.events && e !in m.events ==> e.impact == "High" || e.impact == "Medium"
  {
    if CacheFresh(m, now) then m
    else
      match resp
      case NetworkError => m
      case Http(status, body) =>
        if status != 200 || body.None? then m
        else
          var (events, complete) := ParseEvents(body.value, parse);
          Manager(events, if complete then Some(now) else m.lastFetch)
  }

  /** A complete 200 response replaces the events outright and records the fetch time. */
  lemma CompleteFetchReplaces(m: Manager, now: int, raw: seq<RawEvent>, parse: string -> Option<int>)
    requires !CacheFresh(m, now)
    requires forall i :: 0 <= i < |raw| ==> !Aborts(raw[i])
    ensures FetchCalendar(m, now, Http(200, Some(raw)), parse) == Manager(ParseEvents(raw, parse).0, Some(now))
  {
  }

  /**
    A 200 response whose first element raises clears the stored events: the
    list is emptied before the loop, and the fetch time is left as it was.
   */
  lemma PartialFetchClearsEvents(m: Manager, now: int, x: RawEvent, rest: seq<RawEvent>, parse: string -> Option<int>)
    requires !CacheFresh(m, now) && Aborts(x)
    ensures FetchCalendar(m, now, Http(200, Some([x] + rest)), parse) == Manager([], m.lastFetch)
  {
    assert Aborts(([x] + rest)[0]);
  }

  /** Right after a complete fetch, every fetch for the next four hours is skipped, whatever the network does. */
  lemma FetchIsCachedForFourHours(m: Manager, now: int, later: int, raw: seq<RawEvent>, resp: Response,
                                  parse: string -> Option<int>)
    requires !CacheFresh(m, now)
    requires forall i :: 0 <= i < |raw| ==> !Aborts(raw[i])
    requires now <= later < now + CacheSeconds
    ensures var fetched := FetchCalendar(m, now, Http(200, Some(raw)), parse);
      FetchCalendar(fetched, later, resp, parse) == fetched
  {
    CompleteFetchReplaces(m, now, raw, parse);
  }

  /** Zero-padded two-digit text of 0..99. */
  function Pad2(n: nat): (s: string)
    requires n < 100
    ensures |s| == 2 && '0' <= s[0] <= '9' && '0' <= s[1] <= '9'
    ensures (s[0] as int - '0' as int) * 10 + (s[1] as int - '0' as int) == n
  {
    [(('0' as int) + n / 10) as char, (('0' as int) + n % 10) as char]
  }

  /** `time.strftime('%H:%M')` of a timestamp. */
  function ClockText(t: int): (s: string)
    ensures |s| == 5 && s[2] == ':'
  {
    var secondOfDay := t % 86400;
    Pad2(secondOfDay / 3600) + ":" + Pad2((secondOfDay % 3600) / 60)
  }

  /** The headline `get_upcoming_news` renders for a stored event. */
  function Headline(e: Event): string
  {
    "🔴 " + ClockText(e.time) + " " + e.country + " " + e.title
  }

  const NoHighImpact := "No High Impact News Found"

  /** The High-impact events, in stored order. */
  function HighEvents(events: seq<Event>): (h: seq<Event>)
    ensures |h| <= |events|
    ensures forall e :: e in h <==> e in events && e.impact == "High"
  {
    if |events| == 0 then []
    else if events[0].impact == "High" then [events[0]] + HighEvents(events[1..])
    else HighEvents(events[1..])
  }

  /** One event: kept exactly when its impact is High. */
  lemma HighEventsSingle(e: Event)
    ensures HighEvents([e]) == if e.impact == "High" then [e] else []
  {
  }

  /** The High events of a concatenation are those of each part, in order; with `HighEventsSingle` this fixes stored order and multiplicity. */
  lemma {:induction false} HighEventsAppend(a: seq<Event>, b: seq<Event>)
    ensures HighEvents(a + b) == HighEvents(a) + HighEvents(b)
    decreases |a|
  {
    if |a| == 0 {
      assert a + b == b;
    } else {
      assert (a + b)[0] == a[0];
      assert (a + b)[1..] == a[1..] + b;
      HighEventsAppend(a[1..], b);
    }
  }

  /** A headline never equals the fallback line: it starts with the red marker. */
  lemma HeadlineIsNotFallback(e: Event)
    ensures Headline(e) != NoHighImpact
  {
    assert Headline(e)[0] == '🔴';
    assert NoHighImpact[0] == 'N';
  }

  /** There is no High event exactly when the High events are none. */
  lemma NoHighEventsIffEmpty(events: seq<Event>)
    ensures |HighEvents(events)| == 0 <==> forall e :: e in events ==> e.impact != "High"
  {
    var h := HighEvents(events);
    if |h| > 0 {
      assert h[0] in h;
    }
  }

  /** The headlines of a non-empty run of events, one per event, in order. */
  function Headlines(es: seq<Event>): (r: seq<string>)
    requires |es| > 0
    ensures |r| == |es| && r[0] != NoHighImpact
    ensures forall i :: 0 <= i < |es| ==> r[i] == Headline(es[i])
  {
    HeadlineIsNotFallback(es[0]);
    seq(|es|, i requires 0 <= i < |es| => Headline(es[i]))
  }

  /** The headlines of the last three High events, or the fallback line when there is none. */
  function UpcomingHeadlines(events: seq<Event>): (r: seq<string>)
    ensures 1 <= |r| <= 3
    ensures r == [NoHighImpact] <==> forall e :: e in events ==> e.impact != "High"
    ensures |HighEvents(events)| > 0 ==>
      var h := HighEvents(events);
      var n := if |h| < 3 then |h| else 3;
      |r| == n && forall i :: 0 <= i < n ==> r[i] == Headline(h[|h| - n + i])
  {
    var h := HighEvents(events);
    NoHighEventsIffEmpty(events);
    if |h| == 0 then [NoHighImpact]
    else
      var n := if |h| < 3 then |h| else 3;
      var tail := h[|h| - n..];
      var r := Headlines(tail);
      assert forall i :: 0 <= i < n ==> tail[i] == h[|h| - n + i];
      assert r != [NoHighImpact] by { assert r[0] != NoHighImpact; }
      r
  }

  /** `get_upcoming_news`: refresh the calendar, then the headlines; never empty. */
  function GetUpcomingNews(m: Manager, now: int, resp: Response, parse: string -> Option<int>): (r: (Manager, seq<string>))
    ensures r.0 == FetchCalendar(m, now, resp, parse)
    ensures 1 <= |r.1| <= 3
    ensures r.1 == [NoHighImpact] <==> forall e :: e in r.0.events ==> e.impact != "High"
  {
    var m' := FetchCalendar(m, now, resp, parse);
    (m', UpcomingHeadlines(m'.events))
  }

  /** `check_risk`: fetches when no events are stored, and always reports "safe" (False). */
  function CheckRisk(m: Manager, symbol: string, now: int, resp: Response, parse: string -> Option<int>): (r: (Manager, bool))
    ensures !r.1
    ensures |m.events| > 0 ==> r.0 == m
    ensures |m.events| == 0 ==> r.0 == FetchCalendar(m, now, resp, parse)
  {
    (if |m.events| == 0 then FetchCalendar(m, now, resp, parse) else m, false)
  }

  // ---------------------------------------------------------------------
  // The news guard of `process_symbol`
  // ---------------------------------------------------------------------

  /** Fifteen minutes, the guard's half-window. */
  const GuardSeconds := 15 * 60

  /** An event as the guard reads it: impact and a time that may fail to parse (the guard then skips it). */
  datatype GuardEvent = GuardEvent(impact: string, time: Option<int>)

  /** The guard's window test: the event is at most fifteen minutes away, before or after. */
  predicate InWindow(t: int, now: int)
  {
    -GuardSeconds <= t - now <= GuardSeconds
  }

  /** The intended guard: block when some High event with a readable time is within the window. */
  function NewsGuard(events: seq<GuardEvent>, now: int): (blocked: bool)
    ensures blocked <==> exists i :: 0 <= i < |events| && events[i].impact == "High" &&
                                   events[i].time.Some? && InWindow(events[i].time.value, now)
    decreases |events|
  {
    if |events| == 0 then false
    else if events[0].impact == "High" && events[0].time.Some? && InWindow(events[0].time.value, now) then true
    else
      var rest := NewsGuard(events[1..], now);
      assert forall i :: 1 <= i < |events| ==> events[i] == events[1..][i - 1];
      rest
  }

  /**
    The stored events as the corrected guard reads them: the impact, and the
    event's date-time, which the calendar already parsed when it stored it.
   */
  function GuardView(events: seq<Event>): (g: seq<GuardEvent>)
    ensures |g| == |events|
    ensures forall i :: 0 <= i < |events| ==> g[i] == GuardEvent(events[i].impact, Some(events[i].time))
  {
    seq(|events|, i requires 0 <= i < |events| => GuardEvent(events[i].impact, Some(events[i].time)))
  }

  /** Medium events never block; a High event blocks on both sides of its time, up to and including fifteen minutes. */
  lemma GuardBlocksAroundHighEvents(events: seq<Event>, now: int)
    ensures NewsGuard(GuardView(events), now) <==>
      exists i :: 0 <= i < |events| && events[i].impact == "High" && now - GuardSeconds <= events[i].time <= now + GuardSeconds
  {
  }

  datatype GuardResult = Clear | Blocked | TypeError | AttributeError

  /**
    The guard as written, run on what `get_upcoming_news` returns: a list of
    strings. Indexing a string with `'impact'` raises TypeError on the first
    element, outside any handler.
   */
  function GuardOnHeadlines(headlines: seq<string>): (r: GuardResult)
    ensures r == TypeError <==> |headlines| > 0
    ensures r != Blocked
  {
    if |headlines| == 0 then Clear else TypeError
  }

  /** As written, every call of the guard raises, since the headline list is never empty. */
  lemma GuardAsWrittenAlwaysRaises(m: Manager, now: int, resp: Response, parse: string -> Option<int>)
    ensures GuardOnHeadlines(GetUpcomingNews(m, now, resp, parse).1) == TypeError
  {
  }

  /**
    The guard as written, run on the stored events instead: the first High
    event reaches `.strip()` on its time, which the calendar stored as a
    parsed date-time, not a string. The AttributeError escapes the handler,
    which catches only ValueError. Without a High event nothing is read.
   */
  function GuardOnStoredEvents(events: seq<Event>): (r: GuardResult)
    ensures r != Blocked
    ensures r == AttributeError <==> exists i :: 0 <= i < |events| && events[i].impact == "High"
    ensures r != AttributeError ==> r == Clear
    decreases |events|
  {
    if |events| == 0 then Clear
    else if events[0].impact == "High" then AttributeError
    else
      var rest := GuardOnStoredEvents(events[1..]);
      assert forall i :: 1 <= i < |events| ==> events[i] == events[1..][i - 1];
      rest
  }

  /** A High event due now: the corrected guard blocks, the written guard on the stored events raises. */
  lemma StoredGuardAsWrittenRaises(e: Event, now: int)
    requires e.impact == "High" && e.time == now
    ensures NewsGuard(GuardView([e]), now)
    ensures GuardOnStoredEvents([e]) == AttributeError
  {
    assert GuardView([e])[0] == GuardEvent("High", Some(now));
  }
}

=== FILE: quant_analyzer.dfy ===
/**
  The offline performance analysis (`analyze_performance` and its
  `calc_metrics` helper): global statistics, the running-peak drawdown, the
  recovery factor and the gold/forex breakdown. Ratios whose denominator is
  not positive are reported as infinity.
 */
module QuantAnalyzer {
  import opened Strings
  import opened Ledger
  import Gateway

  /** A ratio that may be `float('inf')`. */
  datatype Ratio = Finite(value: real) | Infinite

  /** `num / den if den > 0 else inf`. */
  function RatioOf(num: real, den: real): (r: Ratio)
    ensures r == Infinite <==> den <= 0.0
    ensures r.Finite? ==> r.value * den == num
  {
    if den > 0.0 then Finite(num / den) else Infinite
  }

  datatype Metrics =
    | NoTrades
    | Metrics(total: nat, wins: nat, net: real, winRate: real, profitFactor: Ratio)

  /** `calc_metrics` for one subset of deals. */
  function CalcMetrics(deals: seq<Gateway.Deal>): (m: Metrics)
    ensures m == NoTrades <==> |deals| == 0
    ensures m.Metrics? ==>
      var p := Profits(deals);
      && m.total == |deals| && m.wins == WinCount(p) <= m.total
      && m.net == Sum(p)
      && m.winRate == (m.wins as real / m.total as real) * 100.0
      && 0.0 <= m.winRate <= 100.0
      && m.profitFactor == RatioOf(GrossProfit(p), GrossLoss(p))
      && (m.profitFactor == Infinite <==> forall k :: 0 <= k < |p| ==> p[k] >= 0.0)
  {
    if |deals| == 0 then NoTrades
    else
      var p := Profits(deals);
      SumIsGrossDifference(p);
      WinRateWithinPercent(p);
      var gl := GrossLoss(p);
      Metrics(|p|, WinCount(p), GrossProfit(p) - gl, (WinCount(p) as real / |p| as real) * 100.0,
              RatioOf(GrossProfit(p), gl))
  }

  // ---------------------------------------------------------------------
  // Drawdown
  // ---------------------------------------------------------------------

  function Max(a: real, b: real): (m: real)
    ensures m >= a && m >= b && (m == a || m == b)
  {
    if a >= b then a else b
  }

  /** The `cummax` of a column: the first value, then the larger of the previous peak and the current value. */
  function Peaks(c: seq<real>): (pk: seq<real>)
    ensures |pk| == |c|
    ensures |c| > 0 ==> pk[0] == c[0]
    ensures forall i :: 0 < i < |c| ==> pk[i] == Max(pk[i - 1], c[i])
  {
    if |c| == 0 then []
    else
      var prefix := Peaks(c[..|c| - 1]);
      prefix + [if |c| == 1 then c[0] else Max(prefix[|c| - 2], c[|c| - 1])]
  }

  /** The peak at step `i` is at least every value up to `i`. */
  lemma {:induction false} PeakAbove(c: seq<real>, j: int, i: int)
    requires 0 <= j <= i < |c|
    ensures c[j] <= Peaks(c)[i]
    decreases i - j
  {
    var pk := Peaks(c);
    if i > 0 {
      assert pk[i] == Max(pk[i - 1], c[i]);
    }
    if j < i {
      PeakAbove(c, j, i - 1);
    }
  }

  /** The peak at step `i` is one of the values up to `i`. */
  lemma {:induction false} PeakAttained(c: seq<real>, i: int) returns (j: int)
    requires 0 <= i < |c|
    ensures 0 <= j <= i && Peaks(c)[i] == c[j]
  {
    if i == 0 {
      j := 0;
    } else if Peaks(c)[i] == c[i] {
      j := i;
    } else {
      j := PeakAttained(c, i - 1);
    }
  }

  /** The drawdown column, `peak - cumulative`. */
  function Drawdowns(c: seq<real>): (d: seq<real>)
    ensures |d| == |c|
    ensures forall i :: 0 <= i < |c| ==> d[i] >= 0.0 && d[i] == Peaks(c)[i] - c[i]
  {
    var pk := Peaks(c);
    assert forall i :: 0 <= i < |c| ==> pk[i] >= c[i] by {
      forall i | 0 <= i < |c|
        ensures pk[i] >= c[i]
      {
        if i > 0 {
          assert pk[i] == Max(pk[i - 1], c[i]);
        }
      }
    }
    seq(|c|, i requires 0 <= i < |c| => pk[i] - c[i])
  }

  /** The largest element of a non-empty column. */
  function MaxOf(xs: seq<real>): (m: real)
    requires |xs| > 0
    ensures forall i :: 0 <= i < |xs| ==> xs[i] <= m
    ensures exists i :: 0 <= i < |xs| && xs[i] == m
  {
    if |xs| == 1 then xs[0]
    else
      var rest := MaxOf(xs[1..]);
      assert forall i :: 1 <= i < |xs| ==> xs[i] == xs[1..][i - 1];
      Max(xs[0], rest)
  }

  /** `df['drawdown'].max()` over the running sums of the profits. */
  function MaxDrawdown(p: seq<real>): (d: real)
    requires |p| > 0
    ensures d >= 0.0
    ensures forall i :: 0 <= i < |p| ==> Drawdowns(RunningSums(p))[i] <= d
    ensures exists i :: 0 <= i < |p| && Drawdowns(RunningSums(p))[i] == d
  {
    MaxOf(Drawdowns(RunningSums(p)))
  }

  /** The maximum drawdown bounds every fall of the equity curve from an earlier point to a later one. */
  lemma DrawdownBoundsEveryFall(p: seq<real>, j: int, i: int)
    requires 0 <= j <= i < |p|
    ensures Sum(p[..j + 1]) - Sum(p[..i + 1]) <= MaxDrawdown(p)
  {
    PeakAbove(RunningSums(p), j, i);
  }

  /** The maximum drawdown is attained: some earlier point of the curve lies that far above a later one. */
  lemma DrawdownAttained(p: seq<real>) returns (j: int, i: int)
    requires |p| > 0
    ensures 0 <= j <= i < |p| && Sum(p[..j + 1]) - Sum(p[..i + 1]) == MaxDrawdown(p)
  {
    var c := RunningSums(p);
    i :| 0 <= i < |p| && Drawdowns(c)[i] == MaxDrawdown(p);
    j := PeakAttained(c, i);
  }

  /** A record without losing deals has no drawdown. */
  lemma NoDrawdownWhenNoLoss(p: seq<real>)
    requires |p| > 0
    requires forall k :: 0 <= k < |p| ==> p[k] >= 0.0
    ensures MaxDrawdown(p) == 0.0
  {
    var j, i := DrawdownAttained(p);
    var c := RunningSums(p);
    forall k | 0 < k < |p|
      ensures c[k - 1] <= c[k]
    {
      RunningSumsStep(p, k);
    }
    NonDecreasingBetween(c, j, i);
  }

  lemma {:induction false} NonDecreasingBetween(c: seq<real>, j: int, i: int)
    requires 0 <= j <= i < |c|
    requires forall k :: 0 < k < |c| ==> c[k - 1] <= c[k]
    ensures c[j] <= c[i]
    decreases i - j
  {
    if j < i {
      NonDecreasingBetween(c, j + 1, i);
    }
  }

  // ---------------------------------------------------------------------
  // Asset isolation
  // ---------------------------------------------------------------------

  predicate GoldDeal(d: Gateway.Deal)
  {
    Contains(d.symbol, "XAU")
  }

  /** `df[df['symbol'].str.contains('XAU')]`, in order. */
  function GoldDeals(deals: seq<Gateway.Deal>): (g: seq<Gateway.Deal>)
    ensures forall d :: d in g <==> d in deals && GoldDeal(d)
  {
    if |deals| == 0 then []
    else
      var last := deals[|deals| - 1];
      assert deals == deals[..|deals| - 1] + [last];
      GoldDeals(deals[..|deals| - 1]) + (if GoldDeal(last) then [last] else [])
  }

  /** `df[~df['symbol'].str.contains('XAU')]`, in order. */
  function FxDeals(deals: seq<Gateway.Deal>): (f: seq<Gateway.Deal>)
    ensures forall d :: d in f <==> d in deals && !GoldDeal(d)
  {
    if |deals| == 0 then []
    else
      var last := deals[|deals| - 1];
      assert deals == deals[..|deals| - 1] + [last];
      FxDeals(deals[..|deals| - 1]) + (if GoldDeal(last) then [] else [last])
  }

  lemma SumSnoc(p: seq<real>, v: real)
    ensures Sum(p + [v]) == Sum(p) + v
  {
    assert (p + [v])[..|p|] == p;
  }

  lemma ProfitsAppend(a: seq<Gateway.Deal>, b: seq<Gateway.Deal>)
    ensures Profits(a + b) == Profits(a) + Profits(b)
  {
  }

  /** The gold and forex subsets split the deals: every deal is in exactly one, and the counts add up. */
  lemma {:induction false} AssetPartition(deals: seq<Gateway.Deal>)
    ensures |GoldDeals(deals)| + |FxDeals(deals)| == |deals|
    ensures multiset(GoldDeals(deals)) + multiset(FxDeals(deals)) == multiset(deals)
  {
    if |deals| > 0 {
      var prefix := deals[..|deals| - 1];
      var last := deals[|deals| - 1];
      assert deals == prefix + [last];
      AssetPartition(prefix);
    }
  }

  /** The net profits of the gold and forex subsets add up to the total. */
  lemma {:induction false} AssetPartitionNet(deals: seq<Gateway.Deal>)
    ensures Sum(Profits(GoldDeals(deals))) + Sum(Profits(FxDeals(deals))) == Sum(Profits(deals))
  {
    if |deals| > 0 {
      var prefix := deals[..|deals| - 1];
      var last := deals[|deals| - 1];
      assert deals == prefix + [last];
      AssetPartitionNet(prefix);
      var g, f := GoldDeals(prefix), FxDeals(prefix);
      ProfitsAppend(prefix, [last]);
      SumSnoc(Profits(prefix), last.profit);
      if GoldDeal(last) {
        assert GoldDeals(deals) == g + [last] && FxDeals(deals) == f;
        ProfitsAppend(g, [last]);
        SumSnoc(Profits(g), last.profit);
      } else {
        assert GoldDeals(deals) == g && FxDeals(deals) == f + [last];
        ProfitsAppend(f, [last]);
        SumSnoc(Profits(f), last.profit);
      }
    }
  }

  // ---------------------------------------------------------------------
  // The whole analysis
  // ---------------------------------------------------------------------

  datatype Report =
    | NotConnected
    | NoHistory
    | NotEnoughTrades
    | Report(total: nat, winRate: real, net: real, profitFactor: Ratio, maxDrawdown: real,
             recoveryFactor: Ratio, gold: Metrics, fx: Metrics)

  /**
    `analyze_performance` given whether the terminal connected and the deals
    it returned. Records from `get_historical_deals` always carry a profit,
    so the column check reduces to the two-deal minimum.
   */
  function AnalyzePerformance(connected: bool, deals: seq<Gateway.Deal>): (r: Report)
    ensures !connected <==> r == NotConnected
    ensures connected && |deals| == 0 <==> r == NoHistory
    ensures connected && |deals| == 1 <==> r == NotEnoughTrades
    ensures r.Report? ==>
      var p := Profits(deals);
      && |deals| >= 2 && r.total == |deals|
      && r.net == Sum(p)
      && r.winRate == (WinCount(p) as real / r.total as real) * 100.0
      && 0.0 <= r.winRate <= 100.0
      && r.profitFactor == RatioOf(GrossProfit(p), GrossLoss(p))
      && r.maxDrawdown == MaxDrawdown(p)
      && r.recoveryFactor == RatioOf(r.net, r.maxDrawdown)
      && (r.recoveryFactor == Infinite <==> r.maxDrawdown == 0.0)
      && r.gold == CalcMetrics(GoldDeals(deals)) && r.fx == CalcMetrics(FxDeals(deals))
  {
    if !connected then NotConnected
    else if |deals| == 0 then NoHistory
    else if |deals| < 2 then NotEnoughTrades
    else
      var p := Profits(deals);
      SumIsGrossDifference(p);
      WinRateWithinPercent(p);
      var net := GrossProfit(p) - GrossLoss(p);
      var dd := MaxDrawdown(p);
      Report(|p|, (WinCount(p) as real / |p| as real) * 100.0, net, RatioOf(GrossProfit(p), GrossLoss(p)),
             dd, RatioOf(net, dd), CalcMetrics(GoldDeals(deals)), CalcMetrics(FxDeals(deals)))
  }
}

=== FILE: schedule.dfy ===
/**
  The market-schedule gate (`check_market_schedule`), a pure function of the
  UTC weekday (Monday = 0), hour and minute.
 */
module Schedule {

  datatype Status = WeekendClosePhase | WeekendClosed | SundayOpenPhase | DailyRollover | MarketOpen

  const Friday := 4
  const Saturday := 5
  const Sunday := 6

  /** The rules in the order the source tests them; the first that matches names the closure. */
  function Check(weekday: int, hour: int, minute: int): (s: Status)
    ensures s == WeekendClosed <==> weekday == Saturday
    ensures weekday == Friday && (hour > 21 || (hour == 21 && minute >= 50)) ==> s == WeekendClosePhase
    ensures weekday == Sunday && (hour < 22 || (hour == 22 && minute <= 5)) ==> s == SundayOpenPhase
  {
    if weekday == Friday && (hour > 21 || (hour == 21 && minute >= 50)) then WeekendClosePhase
    else if weekday == Saturday then WeekendClosed
    else if weekday == Sunday && (hour < 22 || (hour == 22 && minute <= 5)) then SundayOpenPhase
    else if (hour == 21 && minute >= 50) || (hour == 22 && minute <= 10) then DailyRollover
    else MarketOpen
  }

  predicate ValidClock(weekday: int, hour: int, minute: int)
  {
    0 <= weekday <= 6 && 0 <= hour <= 23 && 0 <= minute <= 59
  }

  /** Minutes since Monday 00:00 UTC. */
  function MinuteOfWeek(weekday: int, hour: int, minute: int): int
  {
    weekday * 1440 + hour * 60 + minute
  }

  /**
    The closures as time intervals: one weekend block from Friday 21:50 to
    Sunday 22:10 (the Sunday rule and the daily rollover join up), and the
    daily rollover from 21:50 to 22:10 inclusive.
   */
  predicate InClosedWindow(weekday: int, hour: int, minute: int)
  {
    var week := MinuteOfWeek(weekday, hour, minute);
    var day := hour * 60 + minute;
    || (MinuteOfWeek(Friday, 21, 50) <= week <= MinuteOfWeek(Sunday, 22, 10))
    || (21 * 60 + 50 <= day <= 22 * 60 + 10)
  }

  /** The gate is open exactly outside the closed windows. */
  lemma OpenIffOutsideWindows(weekday: int, hour: int, minute: int)
    requires ValidClock(weekday, hour, minute)
    ensures Check(weekday, hour, minute) == MarketOpen <==> !InClosedWindow(weekday, hour, minute)
  {
  }

  /** Monday to Thursday the only closure is the daily rollover. */
  lemma WeekdaysCloseOnlyForRollover(weekday: int, hour: int, minute: int)
    requires ValidClock(weekday, hour, minute) && weekday < Friday
    ensures Check(weekday, hour, minute) != MarketOpen ==> Check(weekday, hour, minute) == DailyRollover
    ensures Check(weekday, hour, minute) == DailyRollover <==> 21 * 60 + 50 <= hour * 60 + minute <= 22 * 60 + 10
  {
  }
}

=== FILE: strings.dfy ===
/**
  String helpers shared by the whole model: Python's substring test
  (`sub in s`), `s.split(c)[0]`, and the ASCII-alphanumeric filter
  `re.sub(r'[^a-zA-Z0-9]', '', s)`.
 */
module Strings {

  /** `sub` occurs in `s` starting at index `i`. */
  ghost predicate OccursAt(s: string, sub: string, i: int)
  {
    0 <= i && i + |sub| <= |s| && s[i..i + |sub|] == sub
  }

  /** Python's `sub in s` for strings. */
  function Contains(s: string, sub: string): bool
    decreases |s|
  {
    if |sub| > |s| then false
    else if s[..|sub|] == sub then true
    else Contains(s[1..], sub)
  }

  /** `Contains` is exactly "occurs at some index". */
  lemma {:induction false} ContainsIffOccurs(s: string, sub: string)
    ensures Contains(s, sub) <==> exists i :: OccursAt(s, sub, i)
    decreases |s|
  {
    if |sub| > |s| {
    } else if s[..|sub|] == sub {
      assert OccursAt(s, sub, 0);
    } else {
      ContainsIffOccurs(s[1..], sub);
      if Contains(s[1..], sub) {
        var j :| OccursAt(s[1..], sub, j);
        assert s[1..][j..j + |sub|] == s[j + 1..j + 1 + |sub|];
        assert OccursAt(s, sub, j + 1);
      }
      if i :| OccursAt(s, sub, i) {
        assert i != 0;
        assert s[1..][i - 1..i - 1 + |sub|] == s[i..i + |sub|];
        assert OccursAt(s[1..], sub, i - 1);
      }
    }
  }

  /** A string contains each of its prefixes. */
  lemma PrefixContained(s: string, sub: string)
    requires sub <= s
    ensures Contains(s, sub)
  {
    assert s[..|sub|] == sub;
  }

  /** A string contains every slice of itself. */
  lemma SliceContained(s: string, sub: string, i: int)
    requires 0 <= i && i + |sub| <= |s| && s[i..i + |sub|] == sub
    ensures Contains(s, sub)
  {
    ContainsIffOccurs(s, sub);
    assert OccursAt(s, sub, i);
  }

  /** A string cannot contain a pattern one of whose characters it lacks. */
  lemma MissingCharRulesOut(s: string, sub: string, k: int)
    requires 0 <= k < |sub| && sub[k] !in s
    ensures !Contains(s, sub)
  {
    ContainsIffOccurs(s, sub);
  }

  /** Python's `s.split(c)[0]`: the text before the first `c`, or all of `s`. */
  function BeforeFirst(s: string, c: char): (r: string)
    ensures r <= s
    ensures c !in r
    ensures |r| < |s| ==> s[|r|] == c
  {
    if |s| == 0 || s[0] == c then ""
    else [s[0]] + BeforeFirst(s[1..], c)
  }

  /** The three properties of `BeforeFirst` pin its result down uniquely. */
  lemma {:induction false} BeforeFirstUnique(s: string, c: char, r: string)
    requires r <= s && c !in r && (|r| < |s| ==> s[|r|] == c)
    ensures r == BeforeFirst(s, c)
  {
  }

  predicate IsAsciiAlnum(ch: char)
  {
    ('a' <= ch <= 'z') || ('A' <= ch <= 'Z') || ('0' <= ch <= '9')
  }

  /** `re.sub(r'[^a-zA-Z0-9]', '', s)`: keeps exactly the ASCII letters and digits of `s`, in order. */
  function KeepAlnum(s: string): (r: string)
    ensures |r| <= |s|
    ensures forall k :: 0 <= k < |r| ==> IsAsciiAlnum(r[k])
    ensures forall k :: 0 <= k < |s| && IsAsciiAlnum(s[k]) ==> s[k] in r
  {
    if |s| == 0 then ""
    else if IsAsciiAlnum(s[0]) then [s[0]] + KeepAlnum(s[1..])
    else KeepAlnum(s[1..])
  }

  /** One character is kept exactly when it is an ASCII letter or digit; with `KeepAlnumAppend` this fixes the filter. */
  lemma KeepAlnumSingle(c: char)
    ensures KeepAlnum([c]) == if IsAsciiAlnum(c) then [c] else []
  {
  }

  /** The filter distributes over concatenation. */
  lemma {:induction false} KeepAlnumAppend(a: string, b: string)
    ensures KeepAlnum(a + b) == KeepAlnum(a) + KeepAlnum(b)
    decreases |a|
  {
    if |a| == 0 {
      assert a + b == b;
    } else {
      assert (a + b)[1..] == a[1..] + b;
      KeepAlnumAppend(a[1..], b);
    }
  }

  /** A string is left unchanged by the filter exactly when it is already alphanumeric; so the filter is idempotent. */
  lemma {:induction false} KeepAlnumFixedPoint(s: string)
    ensures KeepAlnum(s) == s <==> forall k :: 0 <= k < |s| ==> IsAsciiAlnum(s[k])
    ensures KeepAlnum(KeepAlnum(s)) == KeepAlnum(s)
    decreases |s|
  {
    if |s| > 0 {
      KeepAlnumFixedPoint(s[1..]);
      if !IsAsciiAlnum(s[0]) {
        assert |KeepAlnum(s)| <= |s[1..]| < |s|;
      } else {
        assert forall k :: 1 <= k < |s| ==> s[k] == s[1..][k - 1];
      }
    }
    var r := KeepAlnum(s);
    if |r| > 0 {
      KeepAlnumFixedPointHelper(r);
    }
  }

  lemma {:induction false} KeepAlnumFixedPointHelper(s: string)
    requires forall k :: 0 <= k < |s| ==> IsAsciiAlnum(s[k])
    ensures KeepAlnum(s) == s
    decreases |s|
  {
    if |s| > 0 {
      KeepAlnumFixedPointHelper(s[1..]);
    }
  }
}

=== FILE: trailing.dfy ===
/**
  The tiered trailing stop (`apply_trailing_stop`). For each open position:
  - the profit distance in price units selects a lock fraction from the
    position's asset-class tier table;
  - the lock price is entry plus (long) or minus (short) that share of the
    profit;
  - the lock is clamped to keep the broker's minimum stop distance from the
    live price;
  - a modification is requested only when no stop is set or the lock
    strictly tightens the current stop.
 */
module Trailing {
  import opened Common
  import opened Assets
  import Gateway

  /** A (profit-distance threshold, lock fraction) rule. */
  datatype Tier = Tier(threshold: real, fraction: real)

  /** The tier tables, highest threshold first. */
  function Tiers(c: AssetClass): (t: seq<Tier>)
    ensures |t| == 2
    ensures t[0].threshold > t[1].threshold > 0.0
    ensures forall i :: 0 <= i < |t| ==> 0.0 < t[i].fraction < 1.0
  {
    match c
    case Metal => [Tier(5.0, 0.70), Tier(2.0, 0.50)]
    case Yen => [Tier(0.400, 0.75), Tier(0.200, 0.50)]
    case OtherFx => [Tier(0.0040, 0.80), Tier(0.0020, 0.50)]
  }

  /** Reading of a tier table: the fraction of the first tier whose threshold the distance strictly exceeds. */
  function FirstTier(tiers: seq<Tier>, distance: real): (f: Option<real>)
    ensures f.None? <==> forall i :: 0 <= i < |tiers| ==> distance <= tiers[i].threshold
    ensures f.Some? ==> exists i :: 0 <= i < |tiers| && distance > tiers[i].threshold && f.value == tiers[i].fraction
  {
    if |tiers| == 0 then None
    else if distance > tiers[0].threshold then Some(tiers[0].fraction)
    else
      var f := FirstTier(tiers[1..], distance);
      assert forall i :: 1 <= i < |tiers| ==> tiers[i] == tiers[1..][i - 1];
      f
  }

  /** The source's if/elif ladder for each asset class. */
  function LockFraction(c: AssetClass, distance: real): (f: Option<real>)
    ensures f == FirstTier(Tiers(c), distance)
    ensures f.Some? ==> 0.0 < f.value < 1.0
  {
    match c
    case Metal => if distance > 5.0 then Some(0.70) else if distance > 2.0 then Some(0.50) else None
    case Yen => if distance > 0.400 then Some(0.75) else if distance > 0.200 then Some(0.50) else None
    case OtherFx => if distance > 0.0040 then Some(0.80) else if distance > 0.0020 then Some(0.50) else None
  }

  /** Profit in price units: up moves for a long, down moves for a short. */
  function ProfitDistance(side: Side, open: real, current: real): real
  {
    if side == Buy then current - open else open - current
  }

  /** `open ± distance × fraction`. */
  function LockPrice(side: Side, open: real, distance: real, fraction: real): real
  {
    if side == Buy then open + distance * fraction else open - distance * fraction
  }

  /** The lock before clamping lies strictly between the entry and the live price. */
  lemma LockStrictlyBetween(side: Side, open: real, current: real, fraction: real)
    requires 0.0 < fraction < 1.0 && ProfitDistance(side, open, current) > 0.0
    ensures var lock := LockPrice(side, open, ProfitDistance(side, open, current), fraction);
      if side == Buy then open < lock < current else current < lock < open
  {
    var d := ProfitDistance(side, open, current);
    var x := d * fraction;
    ScaledStrictlyBelow(d, fraction, x);
    if side == Buy {
      assert current == open + d;
      assert LockPrice(side, open, d, fraction) == open + x;
    } else {
      assert current == open - d;
      assert LockPrice(side, open, d, fraction) == open - x;
    }
  }

  /** A positive distance scaled by a proper fraction stays positive and shrinks. */
  lemma ScaledStrictlyBelow(d: real, f: real, x: real)
    requires d > 0.0 && 0.0 < f < 1.0 && x == d * f
    ensures 0.0 < x < d
  {
    var g := 1.0 - f;
    assert g > 0.0;
    assert d * g > 0.0;
    assert d * g == d - d * f;
    assert d * f > 0.0;
    assert d - x == d * g;
  }

  /** Keep at least `minStop` between the stop and the live price. */
  function Clamp(side: Side, lock: real, current: real, minStop: real): (r: real)
    ensures side == Buy ==> r <= current - minStop && r <= lock && (r == lock || r == current - minStop)
    ensures side == Sell ==> r >= current + minStop && r >= lock && (r == lock || r == current + minStop)
  {
    if side == Buy then (if lock > current - minStop then current - minStop else lock)
    else (if lock < current + minStop then current + minStop else lock)
  }

  /** A candidate stop improves protection: no stop is set, or it is higher (long) / lower (short). */
  predicate Tightens(side: Side, candidate: real, currentSl: real)
  {
    currentSl == 0.0 || (side == Buy && candidate > currentSl) || (side == Sell && candidate < currentSl)
  }

  datatype Plan = BelowTiers | NoImprovement | MoveStop(lock: real)

  /**
    The decision for one position, given its live price and the broker's
    minimum stop distance: the lock is the clamped share of the profit that
    the class's tier table selects, and it is sent exactly when it tightens
    the current stop.
   */
  function PlanStop(symbol: string, side: Side, open: real, current: real, currentSl: real, minStop: real): (p: Plan)
    ensures p == BelowTiers <==> FirstTier(Tiers(ClassOf(symbol)), ProfitDistance(side, open, current)).None?
    ensures p != BelowTiers ==>
      var d := ProfitDistance(side, open, current);
      var lock := Clamp(side, LockPrice(side, open, d, FirstTier(Tiers(ClassOf(symbol)), d).value), current, minStop);
      (p.MoveStop? <==> Tightens(side, lock, currentSl)) && (p.MoveStop? ==> p.lock == lock)
    ensures p.MoveStop? ==> Tightens(side, p.lock, currentSl)
    ensures p.MoveStop? && side == Buy ==> p.lock <= current - minStop
    ensures p.MoveStop? && side == Sell ==> p.lock >= current + minStop
    ensures p == NoImprovement ==> currentSl != 0.0
  {
    var d := ProfitDistance(side, open, current);
    match LockFraction(ClassOf(symbol), d)
    case None => BelowTiers
    case Some(f) =>
      var lock := Clamp(side, LockPrice(side, open, d, f), current, minStop);
      if Tightens(side, lock, currentSl) then MoveStop(lock) else NoImprovement
  }

  /** A long EUR position from 1.1000 at 1.1041 locks 80% of the 41-point gain at 1.10328. */
  lemma ScenarioForexLong(currentSl: real)
    requires currentSl < 1.10328
    ensures PlanStop("EURUSD", Buy, 1.1000, 1.1041, currentSl, 0.0) == MoveStop(1.10328)
  {
    ClassOfWatchedSymbols();
  }

  /** `stops_level × point + 10 × point`, or 0 when the symbol's properties are unavailable. */
  function MinStopDistance(props: Option<Gateway.SymbolInfo>): (d: real)
    ensures props.None? ==> d == 0.0
    ensures props.Some? && props.value.point >= 0.0 && props.value.stopsLevel >= 0 ==> d >= 10.0 * props.value.point
  {
    match props
    case None => 0.0
    case Some(p) => (p.stopsLevel as real) * p.point + p.point * 10.0
  }

  /** A stop-loss modification request (`TRADE_ACTION_SLTP`). */
  datatype Modify = Modify(ticket: int, sl: real, tp: real)

  /**
    `apply_trailing_stop` for one position. `tick` is the live quote (None if
    unavailable), `props` the symbol's properties, and `normalize` the
    gateway's price normalisation, which the source calls but does not define.
   */
  function TrailPosition(pos: Gateway.Position, tick: Option<Gateway.Tick>, props: Option<Gateway.SymbolInfo>,
                         normalize: (string, real) -> real): (m: Option<Modify>)
    ensures tick.None? ==> m.None?
    ensures m.Some? ==> m.value.ticket == pos.ticket && m.value.tp == pos.tp
    ensures m.Some? <==> (tick.Some? &&
      PlanStop(pos.symbol, pos.side, pos.openPrice,
               if pos.side == Buy then tick.value.bid else tick.value.ask, pos.sl, MinStopDistance(props)).MoveStop?)
    ensures m.Some? ==> m.value.sl == normalize(pos.symbol, PlanStop(pos.symbol, pos.side, pos.openPrice,
               if pos.side == Buy then tick.value.bid else tick.value.ask, pos.sl, MinStopDistance(props)).lock)
  {
    match tick
    case None => None
    case Some(t) =>
      var current := if pos.side == Buy then t.bid else t.ask;
      match PlanStop(pos.symbol, pos.side, pos.openPrice, current, pos.sl, MinStopDistance(props))
      case MoveStop(lock) => Some(Modify(pos.ticket, normalize(pos.symbol, lock), pos.tp))
      case _ => None
  }

  /**
    The same pass as written: the gateway has no `normalize_price`, so the
    call raises exactly when a move is planned, and the handler around the
    position swallows it. No stop is ever sent.
   */
  function TrailPositionAsWritten(pos: Gateway.Position, tick: Option<Gateway.Tick>,
                                  props: Option<Gateway.SymbolInfo>): (m: Option<Modify>)
    ensures m.None?
  {
    None   // no plan sends anything: a planned move raises AttributeError, caught by the per-position handler
  }

  /** Whenever the corrected pass would move a stop, the pass as written sends nothing. */
  lemma TrailingAsWrittenNeverMoves(pos: Gateway.Position, tick: Option<Gateway.Tick>,
                                    props: Option<Gateway.SymbolInfo>, normalize: (string, real) -> real)
    ensures TrailPosition(pos, tick, props, normalize).Some? ==> TrailPositionAsWritten(pos, tick, props).None?
    ensures TrailPositionAsWritten(pos, tick, props) != TrailPosition(pos, tick, props, normalize) <==>
      TrailPosition(pos, tick, props, normalize).Some?
  {
  }

  /** A EURUSD long opened at 1.1000 with the bid at 1.1041: the stop should move to 1.10328 but, as written, does not. */
  lemma ScenarioTrailingAsWritten(normalize: (string, real) -> real)
    ensures var pos := Gateway.Position(1, "EURUSD", 41.0, 1.0, Buy, 1.1000, 0.0, 0.0);
      var tick := Some(Gateway.Tick(1.1041, 1.1043));
      && TrailPosition(pos, tick, None, normalize) == Some(Modify(1, normalize("EURUSD", 1.10328), 0.0))
      && TrailPositionAsWritten(pos, tick, None) == None
  {
    ScenarioForexLong(0.0);
  }

  /** The stop after one trailing pass when the requested stop is applied as computed. */
  function NextStop(symbol: string, side: Side, open: real, current: real, sl: real, minStop: real): real
  {
    match PlanStop(symbol, side, open, current, sl, minStop)
    case MoveStop(lock) => lock
    case _ => sl
  }

  /** The stops over a series of live prices, each pass applied before the next. */
  function StopHistory(symbol: string, side: Side, open: real, sl: real, prices: seq<real>, minStop: real): (h: seq<real>)
    ensures |h| == |prices|
    decreases |prices|
  {
    if |prices| == 0 then []
    else
      var next := NextStop(symbol, side, open, prices[0], sl, minStop);
      [next] + StopHistory(symbol, side, open, next, prices[1..], minStop)
  }

  /** One pass keeps a positive stop positive and moves it only in the protective direction. */
  lemma NextStopTightens(symbol: string, side: Side, open: real, current: real, sl: real, minStop: real)
    requires sl > 0.0 && minStop >= 0.0 && current > 0.0
    ensures var next := NextStop(symbol, side, open, current, sl, minStop);
      next > 0.0 && (if side == Buy then next >= sl else next <= sl)
  {
  }

  /** A stop sequence that never moves against the position and stays positive. */
  ghost predicate NeverLoosens(side: Side, sl: real, h: seq<real>)
  {
    && (forall i :: 0 <= i < |h| ==> h[i] > 0.0)
    && (|h| > 0 ==> (if side == Buy then h[0] >= sl else h[0] <= sl))
    && (forall i :: 0 < i < |h| ==> (if side == Buy then h[i] >= h[i - 1] else h[i] <= h[i - 1]))
  }

  /**
    Once a long position has a positive stop, trailing never lowers it; once a
    short position has a positive stop, trailing never raises it (with
    positive prices and a non-negative minimum distance).
   */
  lemma {:induction false} StopsNeverLoosen(symbol: string, side: Side, open: real, sl: real, prices: seq<real>, minStop: real)
    requires sl > 0.0 && minStop >= 0.0
    requires forall i :: 0 <= i < |prices| ==> prices[i] > 0.0
    ensures NeverLoosens(side, sl, StopHistory(symbol, side, open, sl, prices, minStop))
    decreases |prices|
  {
    if |prices| > 0 {
      var next := NextStop(symbol, side, open, prices[0], sl, minStop);
      NextStopTightens(symbol, side, open, prices[0], sl, minStop);
      StopsNeverLoosen(symbol, side, open, next, prices[1..], minStop);
      var t := StopHistory(symbol, side, open, next, prices[1..], minStop);
      var h := StopHistory(symbol, side, open, sl, prices, minStop);
      assert h == [next] + t;
      assert forall i :: 0 < i < |h| ==> h[i] == t[i - 1];
    }
  }

  // ---------------------------------------------------------------------
  // The stops actually sent
  // ---------------------------------------------------------------------

  /**
    What the model assumes of the gateway's price normalisation for a
    symbol: it is monotone, idempotent (a normalised price is left alone),
    and keeps positive prices positive.
   */
  ghost predicate NormalizesSoundly(normalize: (string, real) -> real, symbol: string)
  {
    && (forall x, y :: x <= y ==> normalize(symbol, x) <= normalize(symbol, y))
    && (forall x :: normalize(symbol, normalize(symbol, x)) == normalize(symbol, x))
    && (forall x :: x > 0.0 ==> normalize(symbol, x) > 0.0)
  }

  /** The position's stop after one corrected pass: the stop sent, or the old one when nothing is sent. */
  function AppliedStop(pos: Gateway.Position, tick: Gateway.Tick, props: Option<Gateway.SymbolInfo>,
                       normalize: (string, real) -> real): (sl: real)
    ensures TrailPosition(pos, Some(tick), props, normalize).None? ==> sl == pos.sl
    ensures TrailPosition(pos, Some(tick), props, normalize).Some? ==> sl == TrailPosition(pos, Some(tick), props, normalize).value.sl
  {
    match TrailPosition(pos, Some(tick), props, normalize)
    case Some(m) => m.sl
    case None => pos.sl
  }

  /** The stops a position carries over a series of live quotes, each sent stop applied before the next pass. */
  function AppliedHistory(pos: Gateway.Position, ticks: seq<Gateway.Tick>, props: Option<Gateway.SymbolInfo>,
                          normalize: (string, real) -> real): (h: seq<real>)
    ensures |h| == |ticks|
    decreases |ticks|
  {
    if |ticks| == 0 then []
    else
      var next := AppliedStop(pos, ticks[0], props, normalize);
      [next] + AppliedHistory(pos.(sl := next), ticks[1..], props, normalize)
  }

  /** One pass with a sound normalisation keeps a positive, normalised stop so and moves it only protectively. */
  lemma AppliedStopTightens(pos: Gateway.Position, tick: Gateway.Tick, props: Option<Gateway.SymbolInfo>,
                            normalize: (string, real) -> real)
    requires NormalizesSoundly(normalize, pos.symbol)
    requires pos.sl > 0.0 && normalize(pos.symbol, pos.sl) == pos.sl
    requires tick.bid > 0.0 && tick.ask > 0.0 && MinStopDistance(props) >= 0.0
    ensures var next := AppliedStop(pos, tick, props, normalize);
      && next > 0.0 && normalize(pos.symbol, next) == next
      && (if pos.side == Buy then next >= pos.sl else next <= pos.sl)
  {
    var current := if pos.side == Buy then tick.bid else tick.ask;
    var p := PlanStop(pos.symbol, pos.side, pos.openPrice, current, pos.sl, MinStopDistance(props));
    if p.MoveStop? {
      assert AppliedStop(pos, tick, props, normalize) == normalize(pos.symbol, p.lock);
      if pos.side == Buy {
        assert p.lock > pos.sl;
        assert normalize(pos.symbol, pos.sl) <= normalize(pos.symbol, p.lock);
      } else {
        assert p.lock < pos.sl && p.lock > 0.0;
        assert normalize(pos.symbol, p.lock) <= normalize(pos.symbol, pos.sl);
      }
    }
  }

  /**
    The stops the corrected pass sends never loosen: once a long position has
    a positive, normalised stop, trailing never lowers it, and once a short
    position has one, trailing never raises it (positive quotes, a sound
    normalisation, a non-negative minimum distance).
   */
  lemma {:induction false} AppliedStopsNeverLoosen(pos: Gateway.Position, ticks: seq<Gateway.Tick>,
                                                   props: Option<Gateway.SymbolInfo>, normalize: (string, real) -> real)
    requires NormalizesSoundly(normalize, pos.symbol)
    requires pos.sl > 0.0 && normalize(pos.symbol, pos.sl) == pos.sl
    requires forall i :: 0 <= i < |ticks| ==> ticks[i].bid > 0.0 && ticks[i].ask > 0.0
    requires MinStopDistance(props) >= 0.0
    ensures NeverLoosens(pos.side, pos.sl, AppliedHistory(pos, ticks, props, normalize))
    decreases |ticks|
  {
    if |ticks| > 0 {
      var next := AppliedStop(pos, ticks[0], props, normalize);
      AppliedStopTightens(pos, ticks[0], props, normalize);
      AppliedStopsNeverLoosen(pos.(sl := next), ticks[1..], props, normalize);
      var t := AppliedHistory(pos.(sl := next), ticks[1..], props, normalize);
      var h := AppliedHistory(pos, ticks, props, normalize);
      assert h == [next] + t;
      assert forall i :: 0 < i < |h| ==> h[i] == t[i - 1];
    }
  }
}
